=== FILE: README.md ===
# SonarMunicipal SAPL pipeline in Dafny

SonarMunicipal finds municipal legislative chambers that run SAPL, the
open-source legislative process system. It then pulls their bills
("projetos de lei", PL) through SAPL's REST API. This project is a
functional model of that pipeline, with proofs about it.

- **Finder.** There are two discovery routes.
  - The IBGE route takes the IBGE municipality list. It builds a slug from
    each city name, probes `sapl.<slug>.<uf>.leg.br` and `<slug>.<uf>.leg.br`,
    and scans the chamber portal for links to a SAPL instance.
  - The certificate-transparency route queries crt.sh in 26 partitions
    (with a broad fallback query) and retries with exponential backoff. It
    then keeps the `sapl.*.leg.br` names, sorted and unique, and validates each one.
  - A page counts as SAPL when it carries a fingerprint: a marker string
    or a `<title>` mentioning SAPL.
  - The output stage writes each confirmed endpoint once (keyed by
    `sapl_url`) to CSV and JSONL. Its aggregate is sorted by
    `(uf, municipio, sapl_url)`. It also has a writer for candidate hosts.
- **Scraper.** The extraction engine goes through several steps:
  - it derives the API base from a SAPL URL;
  - it picks the matter endpoint;
  - it lists the matter types and keeps the PL ones;
  - it pages through the matters of each type, using numeric page numbers
    and `links.next` / `next` URLs, with the repeated-request guard;
  - it builds one row per matter, optionally with its latest movement
    ("tramitação").
  - The output stage persists each matter once, keyed by `base|id`.
  - The runners read JSONL input and scrape one base after another.
- **Experiments.** The older experimental copies of the finder, the
  scraper engine and the writers are modelled where they differ.
  - The finder has an unaccented marker list, a plain `fetch_json`, and
    `check_host` with statistics.
  - The engine variant lets link errors escape.
  - There is a writer keyed by id, a writer keyed by the whole record, and
    the `dedupe_file` pass.

HTTP, JSON decoding, URL joining, Unicode decomposition, `int()` and the
two regular-expression scans are parameters.
- `Environment.Lib` bundles the library routines.
- `Environment.Server` is the HTTP GET.
- `Pagination.Api` is `try_json`.
- `CertSearch.CrtServer` answers crt.sh queries.

Python exceptions become outcome constructors. Loops that the source does
not bound get a fuel parameter.

Modules: `Wrappers`, `Text`, `JsonValue`, `Csv`, `Dedup` (the "first row
per key" log every writer shares), `Ordering`, `Environment`, `Discovery`,
`CertSearch`, `FinderExperiment`, `FinderOutput`, `Pagination`,
`Extraction`, `ScrapeOutput`, `ExperimentOutput`, `ScrapeRunner`.

## Model

| member | source | states |
|---|---|---|
| Dedup.Accept | sapl_finder/output.py:76-84 | A row is accepted iff it has a key not yet seen. Accepting adds the key, appends the row and counts it. Rejecting leaves the log unchanged, and the invariant `count == len(rows) == len(seen)` is kept. |
| Dedup.AcceptAllIsFirstOccurrences | tools/sapl_finder/scraper.py:133-140 | Feeding a stream through the log keeps exactly the first row of each key, in stream order. Its seen set is the set of keys in the stream. |
| Dedup.FirstOccurrencesDistinct | tools/sapl_finder/scraper.py:133-140 | The rows kept have pairwise distinct keys. |
| Dedup.FirstOccurrencesCover | tools/sapl_finder/scraper.py:133-140 | Every keyed entry of the stream has a kept row with its key. |
| Dedup.DuplicateChangesNothing | sapl_finder/output.py:79-81 | A row whose key was already seen leaves the whole log unchanged. |
| Dedup.FirstOccurrencesLoop | experiments/tools/sapl_scrapper/utils/output.py:133-140 | The imperative seen-set loop computes the same first-occurrence list as the recursive definition. |
| Ordering.SortByKey | sapl_finder/output.py:10 | The output is sorted by the lexicographic key and is a permutation of the input. |
| Ordering.SortedUnique | tools/sapl_finder/scraper.py:366 | `sorted(set(...))`: the output is strictly increasing and has exactly the members of the input. |
| Ordering.StrictlySortedUnique | tools/sapl_finder/scraper.py:366 | Two strictly sorted lists with the same members are equal, so the sorted host list is determined by the set of hosts. |
| JsonValue.Dicts | sapl_scrapper/scraper.py:197-199 | Keeps exactly the dict items of a list, never adding one. |
| Environment.TryGet | tools/sapl_finder/scraper.py:85-93 | A transport error gives status 0 and an empty body. Otherwise the status is kept and the body is its own prefix of at most 20000 characters. |
| Text.SplitOnJoin | tools/sapl_finder/scraper.py:364 | Splitting on a separator and joining back with it gives the original text. |
| Discovery.Slugify | tools/sapl_finder/scraper.py:25-32 | The slug contains only ASCII lower-case letters and digits. |
| Discovery.SlugifyIsAlnumFilter | tools/sapl_finder/scraper.py:26-31 | The replace/remove pipeline is the same as keeping the `[a-z0-9]` characters of the folded, lower-cased name. |
| Discovery.Title | tools/sapl_finder/scraper.py:103 | Returns the leftmost `<title>` match and its text up to the next `<`. None means no position matches. |
| Discovery.FirstMarker | tools/sapl_finder/scraper.py:99-102 | Returns the first marker, in list order, that the page contains. None means no marker occurs. |
| Discovery.Fingerprint | tools/sapl_finder/scraper.py:96-106 | The markers are tried in order against the normalised, lower-cased page. The first one found is the evidence. With no marker found, a title mentioning SAPL gives the title evidence, and otherwise the verdict is negative with no evidence. So the verdict is positive iff a marker occurs or the title mentions SAPL. |
| Discovery.LooksLikeSapl | tools/sapl_finder/scraper.py:96-106 | With the accented markers and plain lower-casing, the first marker found is the evidence. With none, the title decides between the title evidence and a negative verdict. |
| Discovery.ProbeInOrder | tools/sapl_finder/scraper.py:113-129 | A result exists iff some candidate URL answers 200 with a SAPL page. The result is the first such URL, with its marker and title. |
| Discovery.BuildCandidates | tools/sapl_finder/scraper.py:109-110 | Candidate i is exactly `https://<host>` followed by check path i, one per check path. |
| Discovery.ValidateHost | tools/sapl_finder/scraper.py:113-129 | The host is confirmed iff one of its check paths answers 200 with a SAPL page. The url reported is the first such path, and no earlier path confirms. The reported marker is the verdict's evidence on that reply, and the title is that page's title. |
| Discovery.ResolveLink | tools/sapl_finder/scraper.py:211-218 | Absolute `http` links are kept. Other links are made absolute against the portal host, so every result starts with `http`. |
| Discovery.RewriteSaplRoot | tools/sapl_finder/scraper.py:220-222 | A link whose path ends at `/sapl` is pointed at the search page. A link that already has the search path, or does not end at `/sapl`, is unchanged. |
| Discovery.RewriteSaplRootIdempotent | tools/sapl_finder/scraper.py:220-222 | Rewriting twice is rewriting once. |
| Discovery.KeepResolved | tools/sapl_finder/scraper.py:209-218 | Every kept link is the resolution of an accepted href, and every accepted href's resolution is kept. With the hint test and the scan's resolution, these are the hinted links. |
| Discovery.RewrittenCandidates | tools/sapl_finder/scraper.py:218-222 | Rewriting the sorted, de-duplicated kept links keeps the two-way link between candidates and accepted hrefs. |
| Discovery.PortalCandidates | tools/sapl_finder/scraper.py:207-222 | Each candidate is the rewritten resolution of an href that carries a SAPL hint. Every such href's rewritten resolution is a candidate. No candidate is empty. |
| Discovery.PortalScan | tools/sapl_finder/scraper.py:203-254 | A hit exists iff the portal home answers 200, 301 or 302 with a body and one of the candidates built from it is confirmed. The hit is the first confirmed candidate, with that page's 200 status, marker and title. |
| Discovery.DedupeResults | tools/sapl_finder/scraper.py:132-140 | Keeps the first row per non-empty `sapl_url`, with distinct urls. Every url reported appears, and no row is invented. |
| Discovery.UfCode | experiments/tools/sapl_finder/sapl_finder.py:290-291 | The nested `microrregiao → mesorregiao → UF → sigla` lookup. A missing link gives "". A present non-dict link means the lookup raises. |
| Discovery.PlanFor | tools/sapl_finder/scraper.py:160-165 | A failed UF lookup crashes. A municipality is skipped iff the lookup succeeds and its name or UF is falsy. It is probed iff the lookup succeeds and both are truthy strings, and the probe carries the name, the UF and the slug of the name. |
| Discovery.BaseHost | tools/sapl_finder/scraper.py:166 | The `sapl.` host is the base host with the `sapl.` prefix. |
| Discovery.SaplHostRows | tools/sapl_finder/scraper.py:166-183 | A row is produced iff the `sapl.` host validates, and it is tagged `ibge-heuristic`. |
| Discovery.BaseHostRows | tools/sapl_finder/scraper.py:185-254 | When the base host validates, the result is exactly its `base-host-endpoint` row. Otherwise there is a row iff the portal scan hits, and it is exactly the `portal-link-scan` row of that hit. |
| Discovery.IbgeWorker | tools/sapl_finder/scraper.py:159-254 | A non-dict item or a crashing plan raises, and a skipped one yields nothing. A probed municipality yields exactly the `sapl.` host rows followed by the base host rows. |
| Discovery.ParseAll | tools/sapl_finder/scraper.py:58-62 | Succeeds iff every line parses, and then returns the parsed lines in order. |
| Discovery.FetchJson | tools/sapl_finder/scraper.py:35-82 | A non-200 reply gives None, and a parseable body gives its value. Otherwise, when the stripped non-empty lines all parse, the result is their array, and with no such line it is None. When some line does not parse, the result is the parse of `[` + the lines joined by `,` + `]` if that is a list, and None otherwise. |
| Discovery.ReportAll | tools/sapl_finder/scraper.py:256 | The run completes iff no worker crashes. Every row any worker reports is in the result, and every reported row is a confirmed 200 endpoint. There are at most twice as many rows as municipalities. |
| Discovery.ReportAllSingle | tools/sapl_finder/scraper.py:256 | One municipality's report is exactly its worker's result. |
| Discovery.ReportAllAppend | tools/sapl_finder/scraper.py:256 | Reporting two batches crashes iff either batch crashes. Otherwise the rows are the first batch's followed by the second's, so the result is the workers' rows in municipality order. |
| Discovery.DiscoverByIbge | tools/sapl_finder/scraper.py:143-257 | An empty or unusable IBGE reply gives no results, and a reply that is not a list raises. For a non-empty list, the run raises iff `ReportAll` over its items does, and otherwise reports exactly those rows. A finished run's results are the deduplication of the reported rows. |
| CertSearch.Patterns | tools/sapl_finder/scraper.py:312 | The 26 partition patterns `sapl.<c>%25`, one per partition character, in order. |
| CertSearch.BackoffValues | tools/sapl_finder/scraper.py:271 | The backoff delays are 1.5, 3, 6, 12 and then the 20-second cap. |
| CertSearch.BackoffBounded | tools/sapl_finder/scraper.py:303-306 | Every delay is positive, at most the cap, and never smaller than the previous one. |
| CertSearch.Retry | tools/sapl_finder/scraper.py:272-309 | At most five attempts. Retrying stops at the first attempt with rows and returns them, and the earlier attempts were empty. An empty result means all five were tried. Sleep i waits the i-th backoff delay, and after the last attempt a sleep happens only when it was throttled. |
| CertSearch.RetrySleepsAtMost | tools/sapl_finder/scraper.py:303-306 | One query sleeps at most five times, and each sleep is within the cap. |
| CertSearch.NdjsonRows | tools/sapl_finder/scraper.py:282-294 | Succeeds iff every line parses. Every row comes from some line, and every line's rows are present: a dict line gives itself and a list line gives its dict items. |
| CertSearch.NdjsonRowsSingle | tools/sapl_finder/scraper.py:282-294 | A single parseable line gives exactly its own rows. |
| CertSearch.NdjsonRowsAppend | tools/sapl_finder/scraper.py:282-294 | Two runs of lines succeed iff both do, and then give the first run's rows followed by the second's, so rows come in line order. |
| CertSearch.PageRows | tools/sapl_finder/scraper.py:280-301 | When the NDJSON lines give rows, the result is those rows. Otherwise it is the scanned host names, sorted and unique, as `name_value` rows. |
| CertSearch.YieldShape | tools/sapl_finder/scraper.py:273-301 | A truthy JSON fetch yields rows, and a list yields its items. With no JSON and no non-empty 200 page, an attempt yields nothing. |
| CertSearch.PartitionRows | tools/sapl_finder/scraper.py:315-334 | The partition rows are empty iff every partition query came back empty. Every query's rows are present, and every row comes from some query. |
| CertSearch.PartitionRowsSingle | tools/sapl_finder/scraper.py:315-334 | One partition gives exactly its query's rows. |
| CertSearch.PartitionRowsAppend | tools/sapl_finder/scraper.py:315-334 | The rows of two runs of partitions are the first run's followed by the second's, so rows come in partition order. |
| CertSearch.CollectedRows | tools/sapl_finder/scraper.py:312-340 | The broad query runs iff all 26 partitions are empty, and its rows are then the result. Otherwise the result is the non-empty partition rows. |
| CertSearch.NamesOf | tools/sapl_finder/scraper.py:359-364 | Name extraction raises iff some row is not a dict or has a truthy non-string `name_value`. Otherwise every name is a stripped non-empty line of some row's `name_value`, and every such line is a name. |
| CertSearch.NamesOfAppend | tools/sapl_finder/scraper.py:359-364 | Extracting names from two batches is extracting from each in turn, and raises iff either batch raises. |
| CertSearch.FilterNames | tools/sapl_finder/scraper.py:366 | Exactly the names that match the `sapl.*.leg.br` host shape are kept. |
| CertSearch.CandidateHosts | tools/sapl_finder/scraper.py:366 | The host list is strictly sorted and holds exactly the matching names. |
| CertSearch.ValidateAll | tools/sapl_finder/scraper.py:380-399 | There is a row for a host iff the host validates, and the row is that validation tagged `crtsh`. Every row is such a row, with status 200 and a check-path url on its host. |
| CertSearch.ValidateAllAppend | tools/sapl_finder/scraper.py:380-399 | Validating two host lists gives the rows of the first followed by those of the second. |
| CertSearch.DiscoverByCrtsh | tools/sapl_finder/scraper.py:260-400 | No certificate rows means no results, and a row whose names cannot be read raises. Otherwise the run finishes, and what it reports is exactly the validation of the sorted, unique matching hosts. The results are the deduplication of that report. |
| FinderExperiment.ExpSlugifyKeepsSpaces | experiments/tools/sapl_finder/sapl_finder.py:124-130 | The experimental slug of "Sao Paulo" is "sao paulo", with a space. The finder's slug of the same name has no space. |
| FinderExperiment.ExpHostHasSpace | experiments/tools/sapl_finder/sapl_finder.py:124-130 | The host built from that slug contains a space. |
| FinderExperiment.ExpLooksLikeSapl | experiments/tools/sapl_finder/sapl_finder.py:214-225 | The unaccented markers are tried in order against the folded, lower-cased page, and the first one found is the evidence. With none, the title decides between the title evidence and a negative verdict. |
| FinderExperiment.ExpLooksLikeSaplPlain | experiments/tools/sapl_finder/sapl_finder.py:214-225 | Without accents in play, the check is plain containment of the lower-cased markers. |
| FinderExperiment.ExpFetchJson | experiments/tools/sapl_finder/sapl_finder.py:150-166 | A 200 reply gives exactly the parse of its body. Anything else gives None. |
| FinderExperiment.FetchJsonExtends | experiments/tools/sapl_finder/sapl_finder.py:150-166 | On every reply the experimental `fetch_json` accepts, the finder's `fetch_json` with the NDJSON fallback gives the same value. |
| FinderExperiment.Write | experiments/tools/sapl_finder/sapl_finder.py:66-81 | Each write appends one line and counts it. |
| FinderExperiment.ValidItems | experiments/tools/sapl_finder/sapl_finder.py:321 | The filter raises iff some item is not a dict, or is a named dict whose UF lookup raises. Otherwise it keeps at most the items given. |
| FinderExperiment.ValidItemsKeepsValid | experiments/tools/sapl_finder/sapl_finder.py:321 | Exactly the dict items with a truthy name and a truthy UF code are kept. |
| FinderExperiment.CheckHost | experiments/tools/sapl_finder/sapl_finder.py:351-394 | A row exists iff the host validates with the experimental fingerprint. Its url, status, marker and title are the validation's, and its IBGE id, name, UF and source are those given. |
| FinderExperiment.ExpWorker | experiments/tools/sapl_finder/sapl_finder.py:403-422 | A municipality without a string name or string UF raises. Otherwise two hosts are tested, built from the script's own slug, and the rows are exactly the `sapl.` host's row then the base host's row. |
| FinderExperiment.ExpWorkAll | experiments/tools/sapl_finder/sapl_finder.py:424 | The run completes iff every worker does. The number of hosts tested is then twice the number of municipalities. Every worker's rows are present, every row comes from some worker, and every row has a url. |
| FinderExperiment.ExpWorkAllSingle | experiments/tools/sapl_finder/sapl_finder.py:424 | One municipality's run is exactly its worker's run. |
| FinderExperiment.ExpWorkAllAppend | experiments/tools/sapl_finder/sapl_finder.py:424 | Two batches complete iff both do, and then the rows are the first batch's followed by the second's, so rows come in municipality order. |
| FinderExperiment.Register | experiments/tools/sapl_finder/sapl_finder.py:329-349 | The registry is the dedup log over `sapl_url`. The JSONL file holds exactly its rows, and its count is theirs. |
| FinderExperiment.RegisterIsDedupe | experiments/tools/sapl_finder/sapl_finder.py:344-349 | What is written is exactly the finder's `dedupe_results` of the reported rows. |
| FinderExperiment.ExpDiscover | experiments/tools/sapl_finder/sapl_finder.py:294-425 | No usable IBGE list means zero statistics. Otherwise the run raises iff the reply is not a list, the record filter raises or a worker raises. A finished run reports `total` as twice the number of valid records and `tested` as the hosts the workers tested. Its writer holds exactly the first confirmation of each URL among the workers' rows, and `found` is their number. |
| FinderExperiment.ExpDiscoverStats | experiments/tools/sapl_finder/sapl_finder.py:321-349 | At the end of a finished run every counted host was tested (`tested == total`), `found` equals the writer's count and its number of lines, and the written URLs are pairwise distinct. |
| FinderOutput.CsvRow | sapl_finder/output.py:15-24 | One cell per header field, in header order. A missing field is empty. |
| FinderOutput.SortKey | sapl_finder/output.py:10 | The key is `(uf, municipio, sapl_url)`, with a missing value as "". |
| FinderOutput.Sorted | sapl_finder/output.py:10 | The rows are sorted by that key and are a permutation of the input. |
| FinderOutput.WriteOutputs | sapl_finder/output.py:9-26 | The JSON is the sorted permutation. The CSV is the header followed by the projection of each JSON row, in the same order. |
| FinderOutput.NewProgress | sapl_finder/output.py:35-65 | A fresh writer has only the header, and its JSONL file exists iff one was asked for. |
| FinderOutput.UrlOf | sapl_finder/output.py:76-78 | A row has a key iff its `sapl_url` is truthy, and the key is that url. |
| FinderOutput.OnFound | sapl_finder/output.py:71-100 | A row without a url, or with a url already seen, changes nothing. A new url appends the row to the rows, the CSV and the JSONL file, and the writer invariant is kept. |
| FinderOutput.OnFoundAllKeepsFirst | sapl_finder/output.py:71-84 | After any stream of reports, the writer holds the first report per url, in report order, with distinct urls. |
| FinderOutput.RepeatedUrlChangesNothing | sapl_finder/output.py:79-81 | A second report with a known url leaves the writer as it was, whatever its other fields. |
| FinderOutput.FinalizeJson | sapl_finder/output.py:120-129 | The aggregate is the collected rows sorted as `write_outputs` sorts them. |
| FinderOutput.Written | sapl_finder/output.py:146-153 | No path means an empty file. Otherwise the file holds exactly the accepted lines. |
| FinderOutput.Emit | sapl_finder/output.py:155-162 | An empty or already seen host changes nothing. A new host is recorded, and a line is written when a file is open. |
| FinderOutput.EmitTwiceOnce | sapl_finder/output.py:155-162 | Emitting the same host twice, under any pattern, writes one line. |
| Csv.Project | sapl_scrapper/output.py:80 | One cell per field, in field order, with a missing field written as empty. |
| ScrapeOutput.PlKey | sapl_scrapper/output.py:61-66 | A row has a key iff its `sapl_base` is truthy and its `materia_id` is not None. The key is then `base|id`. |
| ScrapeOutput.KeyPartsDetermined | sapl_scrapper/output.py:66 | For bases without `|`, equal keys mean equal bases and equal rendered ids. |
| ScrapeOutput.NewWriter | sapl_scrapper/output.py:34-55 | A fresh writer has only the CSV header, and its JSONL file exists iff one was asked for. |
| ScrapeOutput.Emit | sapl_scrapper/output.py:68-90 | A row with no key, or with a key already seen, changes nothing. A new key appends the row to the rows, the CSV and the JSONL file, and the writer invariant is kept. |
| ScrapeOutput.EmitAll | sapl_scrapper/output.py:68-90 | Emitting a stream keeps the writer invariant and the JSONL setting. |
| ScrapeOutput.EmitAllAppend | sapl_scrapper/output.py:68-77 | Emitting two batches in turn is emitting their concatenation. |
| ScrapeOutput.EmitAllKeepsFirst | sapl_scrapper/output.py:68-77 | After any stream, the writer holds the first record per key, in arrival order, with distinct keys. |
| ScrapeOutput.Rows | sapl_scrapper/output.py:57-59 | The rows returned are the persisted rows, as many as the count. |
| ScrapeOutput.RowsAfterRun | sapl_scrapper/output.py:57-90 | After emitting a stream into a fresh writer, the rows are the first record of each key in arrival order, with distinct keys. |
| ScrapeOutput.FinalizeJsonInArrivalOrder | sapl_scrapper/output.py:112-117 | The aggregate JSON is the first record per key in arrival order, with no sorting. |
| ExperimentOutput.WriteById | experiments/tools/sapl_scrapper/output.py:76-97 | A row is written iff it has a `base|id` key not yet seen. A write appends and counts the row, and a rejection changes nothing. |
| ExperimentOutput.WriteAllByIdAppend | experiments/tools/sapl_scrapper/output.py:76-83 | Writing two batches in turn is writing their concatenation. |
| ExperimentOutput.CountIsDistinctIds | experiments/tools/sapl_scrapper/output.py:33-42 | After any stream, the count is the number of distinct keys, and the rows are the first per key. |
| ExperimentOutput.WriteAllByIdIsAcceptAll | experiments/tools/sapl_scrapper/output.py:76-83 | The by-id writer is the shared dedup log over `PLWriter` keys. |
| ExperimentOutput.WriteByValue | experiments/tools/sapl_scrapper/utils/output.py:76-95 | A record is written iff the same record was not written before. |
| ExperimentOutput.WriteAllByValueIsAcceptAll | experiments/tools/sapl_scrapper/utils/output.py:76-83 | The by-value writer is the shared dedup log keyed by the whole record. |
| ExperimentOutput.WriteByValueKeepsDistinct | experiments/tools/sapl_scrapper/utils/output.py:76-83 | The written records are pairwise different and are the first of each. |
| ExperimentOutput.WriteByValueKeepsEvery | experiments/tools/sapl_scrapper/utils/output.py:76-83 | Every record of the stream is written. |
| ExperimentOutput.LineEntry | experiments/tools/sapl_scrapper/utils/output.py:124-139 | A blank line has no key. A parseable line is keyed by its value, and any other line by its stripped text. |
| ExperimentOutput.DedupeKeepsOnePerIdentity | experiments/tools/sapl_scrapper/utils/output.py:133-140 | The rewritten file's lines have pairwise different identities. Every non-blank input line's identity is represented. |
| ExperimentOutput.DedupeFile | experiments/tools/sapl_scrapper/utils/output.py:116-148 | The loop writes the first line of each identity in file order, and reports their number. |
| Pagination.Decode | sapl_scrapper/scraper.py:139-151 | A failed request, a bare list, an envelope with `results`, or something else. Each case carries the decoded reply. |
| Pagination.IterDicts | sapl_scrapper/scraper.py:149-151 | `results` gives its dict items when it is a list. Strings and dicts give none. Scalars make the iteration raise. |
| Pagination.PagOf | sapl_scrapper/scraper.py:155 | The `pagination` object when truthy, else an empty dict. |
| Pagination.PyInt | sapl_scrapper/scraper.py:157-161 | Python's `int()`: integers as themselves, booleans as 0 or 1, strings through the parser. Other values fail. |
| Pagination.NextPageNumber | sapl_scrapper/scraper.py:154-161 | A non-zero next page number, or none when the field is falsy or cannot be converted. |
| Pagination.LinkNext | sapl_scrapper/scraper.py:170-175 | The next link is `links.next` joined to the page URL. In the tools copy an error is swallowed, and only the experimental copy lets it raise. |
| Pagination.TopNext | sapl_scrapper/scraper.py:176-179 | A non-empty top-level `next` string, joined to the page URL. |
| Pagination.NextRequest | sapl_scrapper/scraper.py:163-186 | A page number wins, then `links.next`, then `next`, else stop. A URL hop drops the parameters. |
| Pagination.StepPage | sapl_scrapper/scraper.py:138-202 | An envelope yields the dict items of `results` and continues with the next request that page names. A `results` that cannot be iterated raises. A bare list yields its dicts and stops. Anything else yields nothing and stops. |
| Pagination.Walk | sapl_scrapper/scraper.py:138-195 | A walk starts with the current request and issues at most fuel requests. Running out of fuel uses them all. |
| Pagination.WalkTrace | sapl_scrapper/scraper.py:138-186 | Each request after the first is the one the page before it named, and the items are the pages' items in request order. |
| Pagination.WalkGuard | sapl_scrapper/scraper.py:188-193 | With the guard on, no request equals the one just before it, the first being compared with the signature the walk was given. |
| Pagination.WalkEnds | sapl_scrapper/scraper.py:142-195 | A raised walk's last page raised. A finished walk's last page stops, or names the signature the guard compares with. |
| Pagination.Pager | sapl_scrapper/scraper.py:129-202 | The first request is the base URL with its parameters, and each later one is the request the page before it named. The items are the pages' items in request order. From the third request on none repeats the one before. A finished run's last page stops, or names the request just made. A raised run's last page raised. |
| Pagination.PagerNeverRepeats | sapl_scrapper/scraper.py:188-193 | From the third request on, no request repeats the one before it. |
| Pagination.FirstPageFetchedTwice | sapl_scrapper/scraper.py:188-193 | A page whose `next` points to itself is fetched twice, and its items are yielded twice, before the guard stops the run. |
| Pagination.TwoCycleNotCaught | sapl_scrapper/scraper.py:189-193 | Two pages pointing at each other are fetched in turn until fuel runs out. |
| Pagination.ListNext | sapl_scrapper/scraper.py:84-111 | The type listing follows `links.next`, then a top-level `next`, then a truthy `next_page` on the base URL, else it stops. A link error raises only in the experimental copy. A followed link or top-level URL with `?` clears the parameters, and one without `?` keeps the current ones. The numeric step on a base URL without `?` uses the new page parameters. |
| Pagination.ListPage | sapl_scrapper/scraper.py:72-118 | One listing request: an envelope yields the dict items of `results` and continues as `ListNext` chooses. A `results` that cannot be iterated raises. A bare list yields its dicts and stops. Anything else stops. |
| Pagination.NumericNext | sapl_scrapper/scraper.py:99-106 | A truthy `next_page` goes back to the base URL with the page parameter set. |
| Pagination.ListFrom | sapl_scrapper/scraper.py:72-118 | At most fuel requests, starting with the current one. Each later request is the one the page before it named, and the types are the pages' items in order. A finished listing's last page stops. A raised one's last page raised. |
| Pagination.ListTypePages | sapl_scrapper/scraper.py:66-69 | The first request is the type endpoint with `page_size=500`. |
| Pagination.ListingHasNoGuard | sapl_scrapper/scraper.py:72-118 | A type page linking to itself is re-requested until fuel runs out. |
| Pagination.RejectedPageNumberRepeats | experiments/tools/sapl_scrapper/utils/scraper.py:151-163 | When `int()` rejects `next_page`, the experimental listing requests the same page again. |
| Extraction.MatchUrl | sapl_scrapper/scraper.py:22 | A match splits the URL into the root, which is `http://` or `https://` plus a non-empty host without `/`, and the rest, which is empty or a path starting with `/` without line breaks. |
| Extraction.MatchUrlComplete | sapl_scrapper/scraper.py:22 | Every URL of that shape matches, with exactly that split. |
| Extraction.BaseFromSaplUrl | sapl_scrapper/scraper.py:13-34 | The base is a prefix of the URL and never ends in `/`. A URL that does not match is only stripped of trailing slashes, and a matching URL without `/materia/` in its path keeps root and path, stripped of trailing slashes. |
| Extraction.BaseKeepsPathWithoutMateria | sapl_scrapper/scraper.py:25-31 | For a scheme, a host and a `/`-led, break-free path without `/materia/`, the base is the whole URL without trailing slashes, so `https://host/sapl/` gives `https://host/sapl`. |
| Extraction.BaseCutsAtFirstMateria | sapl_scrapper/scraper.py:13-32 | The base is everything before the first `/materia/`, as in the function's documented examples. |
| Extraction.CollapseKeepsAlnum | sapl_scrapper/scraper.py:39 | Collapsing runs of symbols into spaces keeps the letters and digits in order. |
| Extraction.Norm | sapl_scrapper/scraper.py:37-39 | The normalised label is lower-case letters, digits and single spaces. |
| Extraction.NormOfPlainLabel | sapl_scrapper/scraper.py:37-39 | A label already in that form is only lower-cased. |
| Extraction.ToPlType | sapl_scrapper/scraper.py:125 | The type id is `id` when truthy, else `pk`. |
| Extraction.KeepPlTypes | sapl_scrapper/scraper.py:120-126 | Exactly the types whose normalised label names a PL are kept, each converted. |
| Extraction.KeepPlTypesAppend | sapl_scrapper/scraper.py:120-126 | Filtering two type lists is filtering each, in order. |
| Extraction.FirstAnswering | sapl_scrapper/scraper.py:55-60 | Returns the first URL that answers. None means no URL answers. |
| Extraction.PickEndpoint | sapl_scrapper/scraper.py:54-60 | `/api/materia/` is tried first, then `/api/materia/materialegislativa/`. The first that answers is returned, and none is returned iff neither answers. |
| Extraction.LinkPublico | sapl_scrapper/scraper.py:217-218 | The public link ends in `/acompanhar-materia/`. |
| Extraction.BaseOfLinkPublico | sapl_scrapper/scraper.py:217-218 | The base extracted from a public link is the base it was built from. |
| Extraction.UltimaTramitacao | sapl_scrapper/scraper.py:205-214 | The latest movement is the dict returned by the movement query, else an empty dict. |
| Extraction.FirstText | sapl_scrapper/scraper.py:226-235 | The first non-empty string among the keys, in key order. "" means none. |
| Extraction.TramitacaoFields | sapl_scrapper/scraper.py:221-236 | The date and status come from their first non-empty candidate keys, with `data_tramitacao` and `status` first. |
| Extraction.BaseRow | sapl_scrapper/scraper.py:272-288 | The row carries the base, municipality, UF, type and matter id. Its public link is empty iff the matter has no id. |
| Extraction.BaseRowKeys | sapl_scrapper/scraper.py:273-288 | The row has exactly the documented columns. |
| Extraction.BaseRowFallbacks | sapl_scrapper/scraper.py:283-286 | `ementa`, `data_apresentacao` and `situacao` fall back to their alternative fields. |
| Extraction.Movement | sapl_scrapper/scraper.py:290-297 | The movement adds only `ultima_tramitacao*` columns, with the raw movement included. |
| Extraction.MovementFields | sapl_scrapper/scraper.py:293-297 | The movement's date and status columns are its extracted fields. |
| Extraction.ToolsRowKeepsBase | sapl_scrapper/scraper.py:290-297 | Adding the movement never changes a base column. |
| Extraction.ToolsRowMovement | sapl_scrapper/scraper.py:290-297 | When a movement is asked for and the matter has an id, the row carries every movement column. Otherwise the row is the base row. |
| Extraction.ExpRow | experiments/tools/sapl_scrapper/utils/scraper.py:328-336 | The experimental row carries the municipality, UF, IBGE id and public link. |
| Extraction.ExpRowFields | experiments/tools/sapl_scrapper/utils/scraper.py:328-336 | The experimental row has exactly its six columns. Its text fields fall back to their alternative fields. |
| Extraction.TypeWalk | sapl_scrapper/scraper.py:270-271 | A type walk has one source per item the pager yields with that type's parameters, in the pager's order and under that type, and it ends as the pager ended. |
| Extraction.ForTypes | sapl_scrapper/scraper.py:260-271 | Matters come only from given types with a truthy id. With no such type nothing is requested. |
| Extraction.ForTypesSingle | sapl_scrapper/scraper.py:260-271 | One type without a truthy id is skipped, and one with an id gives exactly its type walk. |
| Extraction.ForTypesAppend | sapl_scrapper/scraper.py:260-271 | The second run of types is paged only when the first finished, and its matters then follow the first run's. An unfinished first run ends the loop. |
| Extraction.Identified | sapl_scrapper/scraper.py:263-264 | Exactly the types with a truthy id remain, and nothing else. |
| Extraction.IdentifiedAppend | sapl_scrapper/scraper.py:263-264 | Filtering keeps each run's identified types in order, first run first. |
| Extraction.UnidentifiedTypesSkipped | sapl_scrapper/scraper.py:260-264 | Walking all types is walking only the identified ones. |
| Extraction.WalkBase | sapl_scrapper/scraper.py:248-271 | No endpoint means nothing is done. With an endpoint, an unfinished type listing ends the walk with the listing's end and no matters, and a finished one gives exactly the type loop over the listing's PL types. |
| Extraction.Collect | sapl_scrapper/scraper.py:239-299 | Row i is the tools row, with the optional movement, of the i-th matter walked and its type. There is one row per matter, and the run ends as the walk does. No endpoint means no rows. |
| Extraction.CollectExperiments | experiments/tools/sapl_scrapper/utils/scraper.py:278-338 | Row i is the experimental row of the i-th matter walked, with the given municipality, UF and IBGE id. No endpoint means no rows. |
| ScrapeRunner.LineValue | sapl_scrapper/runner.py:65-72 | A line gives a value iff it is non-blank and parses. |
| ScrapeRunner.ItemsOfLines | sapl_scrapper/runner.py:64-72 | The items are exactly the parsed non-blank lines, in order, and reading distributes over concatenation. |
| ScrapeRunner.ToolsTarget | sapl_scrapper/runner.py:21-26 | A non-dict item crashes, and one with no `sapl_url` is skipped. Otherwise the base comes from the url, together with the municipality and UF. |
| ScrapeRunner.ToolsScrape | sapl_scrapper/runner.py:21-40 | What the run collects, and how it ends, is the harvest of the items' targets: skipped items add nothing, a crashing item stops the run, and each scraped base adds its records and stops the run unless its collection finished. The writer is the emission of everything collected, and its invariant is kept. |
| ScrapeRunner.HarvestedSnoc | sapl_scrapper/runner.py:21-40 | Reading the targets front to back agrees with adding one more target at the back, which counts only if the run so far completed. |
| ScrapeRunner.ToolsCompletedMeansNoCrash | sapl_scrapper/runner.py:21-40 | A run completes iff no item crashes and the collection of every base it scrapes finishes. |
| ScrapeRunner.ToolsSkippedChangeNothing | sapl_scrapper/runner.py:21-23 | Items without a url leave the writer untouched. |
| ScrapeRunner.JsonlPath | sapl_scrapper/runner.py:56 | The JSONL path is the JSON path with `.json` replaced by `.jsonl`, or with `.jsonl` appended. |
| ScrapeRunner.RunScrape | sapl_scrapper/runner.py:43-99 | A missing input file is an error. For a present file, the run is Done iff the scraping loop over the file's items completes, and its writer is the loop's. A Done run's JSON is the writer's rows, which are also the JSONL lines. An aborted run keeps the loop's writer and status. |
| ScrapeRunner.RunScrapePersistsFirstPerKey | sapl_scrapper/runner.py:31-40 | The persisted JSON is the first row per `base|id` key of the collected stream, in arrival order. |
| ScrapeRunner.ExpTarget | experiments/tools/sapl_scrapper/sapl_scrapper.py:126-132 | An item without a url, or with a blank stripped url, is skipped. A non-string url crashes. Otherwise the target is the stripped url, with the municipality and UF. |
| ScrapeRunner.LoadInputs | experiments/tools/sapl_scrapper/sapl_scrapper.py:78-93 | A path not ending in `.jsonl` is rejected before the file is checked, and a missing file is reported. An existing `.jsonl` file always loads, and its items are exactly its dict lines, in order. |
| ScrapeRunner.ExpScrape | experiments/tools/sapl_scrapper/sapl_scrapper.py:126-144 | What the run collects, and how it ends, is the harvest of the items' targets, as for the tools run. The writer is the by-id writing of everything collected. |
| ScrapeRunner.ExpCompletedMeansNoCrash | experiments/tools/sapl_scrapper/sapl_scrapper.py:126-144 | A run completes iff no item crashes and the collection of every base it scrapes finishes. |
| ScrapeRunner.CheckParams | experiments/tools/sapl_scrapper/sapl_scrapper.py:219-224 | The parameters are accepted iff all are at least 1. The first bad one is reported. |
| ScrapeRunner.RunExperiment | experiments/tools/sapl_scrapper/sapl_scrapper.py:177-206 | Bad parameters are rejected first. An input error leaves an emptied output, and a bad extension is reported before a missing file. With loaded items, the run finishes iff the scraping loop over them completes, and its writer and status are the loop's. |
| ScrapeRunner.RunExperimentCountsDistinctIds | experiments/tools/sapl_scrapper/sapl_scrapper.py:177-206 | A finished experimental run counts the distinct `base|id` keys of what was collected. |

## Left out

- HTTP transport, timeouts, headers and TLS are left out. Replies are functions (`Environment.Server`, `Pagination.Api`, `CertSearch.CrtServer`) because the network cannot be modelled.
- asyncio concurrency and semaphores are left out. Workers run one after another in input order.
  - Results and writes therefore follow input order, not completion order.
  - On a crash, the model stops at the crashing item. In the source, other workers may still finish.
- `asyncio.sleep` is left out. The model records the delays `CertSearch.Retry` would sleep, not the waiting.
- File handles, flushing, `os.replace`, directory creation, logging, argparse and `main` are left out. Files are sequences of records or lines.
- The regular-expression engines behind the href scan and the crt.sh host scan are parameters (`Lib.scanHrefs`, `Lib.scanHosts`). The `<title>` match, the SAPL URL pattern and the slug substitutions are modelled directly.
- NFKD decomposition is a per-character parameter (`Lib.fold`), `urljoin` is `Lib.join`, and `int()` on strings is `Lib.parseInt`. Python's Unicode case mapping is modelled for ASCII and Latin-1 letters only.
- Floating point is reduced to the backoff delays, which are modelled as reals.
- JSON numbers are integers only: `Json` has no float case, so a float in a reply or an input line is outside the model (`Lib.parse` stands for `json.loads`).
- JSON dumps are modelled as values. Key order and the canonical `sort_keys` dump are identified with map equality.
- `on_candidate` in `discover_by_crtsh` is left out. Its writer is modelled separately as `FinderOutput.Emit`.
- The copy that `rows()` returns is left out: values are immutable.
- JsonValue.PyStr: `str()` of lists and dicts is a fixed placeholder rather than Python's repr. Ids and bases are scalars.
- FinderOutput.KeyText: a non-string sort field counts as "". Python would compare mixed types and raise.
- FinderOutput.Sorted: stability of Python's sort is not stated. Only sortedness and permutation are.
- FinderExperiment.ExpSlugify: states only that the slug has no hyphen. Its space-keeping behaviour is the subject of `ExpSlugifyKeepsSpaces`.
- ExperimentOutput.ValueKeyIdentifies: record identity by canonical JSON dump is value equality. That lemma holds by definition.
- Pagination.Walk, Pagination.Pager, Pagination.ListFrom and Extraction.WalkBase take a fuel bound. `OutOfFuel` stands for a loop the source would run forever. Runs longer than the fuel are not modelled.
- experiments/tools/sapl_scrapper/scraper.py, which the experimental runner imports, is not part of this model. `ScrapeRunner.RunExperiment` takes its collector as a parameter.
- The finder's config module for the tools copy is not part of this model. The constants of experiments/tools/sapl_finder/config.py are used, namely the accented markers, check paths, link hints, partition characters and the crt.sh base.
- `build_parser`, the CLI entry points and the environment-variable defaults are left out.

## Findings

| source | as written | input that shows it | evidently intended | confidence | as-written member | corrected member |
|---|---|---|---|---|---|---|
| experiments/tools/sapl_finder/sapl_finder.py:127-128 | In raw strings `\\s` is a literal backslash and `s`, so white space becomes a space that is never removed. | "Sao Paulo" gives slug "sao paulo" and host "sapl.sao paulo.sp.leg.br". | Remove white space and symbols, giving "saopaulo", as the docstring says and tools/sapl_finder/scraper.py:29-30 does. | not executed | FinderExperiment.ExpSlugifyKeepsSpaces | Discovery.SlugifyIsAlnumFilter |

=== FILE: certsearch.dfy ===
/**
 * The certificate-transparency route of the finder
 * (`tools/sapl_finder/scraper.py`, `discover_by_crtsh`): partitioned crt.sh
 * queries with retries and back-off, a broad query when every partition is
 * empty, host extraction from `name_value`, and validation of each host.
 */
module CertSearch {
  import opened Wrappers
  import opened Text
  import opened JsonValue
  import opened Environment
  import opened Lists
  import Ordering
  import Discovery

  const QueryBase := "https://crt.sh/?exclude=expired&output=json&q="

  /** The first characters after `sapl.` that partition the search. */
  const PartChars := "abcdefghijklmnopqrstuvwxyz"

  /** The single broad search used when every partition came back empty. */
  const BroadPattern := "sapl.%25"

  const Attempts: nat := 5

  /** Seconds slept before the first retry, and the cap. */
  const FirstBackoff: real := 1.5
  const MaxBackoff: real := 20.0

  /** `sapl.<c>%25` for every partition character, in order. */
  function Patterns(): (r: seq<string>)
    ensures |r| == 26
    ensures forall i :: 0 <= i < 26 ==> r[i] == "sapl." + [PartChars[i]] + "%25"
  {
    seq(|PartChars|, i requires 0 <= i < |PartChars| => "sapl." + [PartChars[i]] + "%25")
  }

  // ---------------------------------------------------------------------
  // One query

  function Min(a: real, b: real): real { if a <= b then a else b }

  /** The sleep before retry `k + 1`: 1.5 s, doubled each time, capped at 20 s. */
  function Backoff(k: nat): real {
    if k == 0 then FirstBackoff else Min(2.0 * Backoff(k - 1), MaxBackoff)
  }

  /** The sleeps a query can make, in order. */
  lemma BackoffValues()
    ensures Backoff(0) == 1.5 && Backoff(1) == 3.0 && Backoff(2) == 6.0
    ensures Backoff(3) == 12.0 && Backoff(4) == 20.0
  {
  }

  /** Every sleep is positive, at most 20 s, and no shorter than the one before. */
  lemma {:induction false} BackoffBounded(k: nat)
    ensures 0.0 < Backoff(k) <= MaxBackoff
    ensures Backoff(k) <= Backoff(k + 1)
  {
    if k > 0 {
      BackoffBounded(k - 1);
    }
  }

  /** The two replies one attempt can see: the JSON fetch, then the page fetch. */
  datatype Attempt = Attempt(json: Reply, page: Reply)

  /** The object rows of one decoded NDJSON line: a dict, or the dicts of a list. */
  function LineRows(v: Json): (r: seq<Obj>)
    ensures v.JObj? ==> r == [v.fields]
    ensures !v.JObj? && !v.JArr? ==> r == []
  {
    match v
    case JObj(m) => [m]
    case JArr(xs) => Dicts(xs)
    case _ => []
  }

  /** Whether a line fails to decode, as a value. */
  function Unparsable(lib: Lib): (bad: string -> bool)
    ensures forall l :: bad(l) == lib.parse(l).None?
  {
    l => lib.parse(l).None?
  }

  /** The object rows of a line that decodes, as a value. */
  function ParsedRows(lib: Lib): (f: string -> seq<Obj>)
    ensures forall l :: lib.parse(l).Some? ==> f(l) == LineRows(lib.parse(l).value)
  {
    l => if lib.parse(l).Some? then LineRows(lib.parse(l).value) else []
  }

  /**
   * The NDJSON reading of a page: the rows of each line in line order;
   * `None` as soon as one line does not decode.
   */
  function NdjsonRows(lib: Lib, lines: seq<string>): (r: Option<seq<Obj>>)
    ensures r.Some? <==> forall i :: 0 <= i < |lines| ==> lib.parse(lines[i]).Some?
    ensures r.Some? ==> forall i, x :: 0 <= i < |lines| && x in LineRows(lib.parse(lines[i]).value) ==> x in r.value
    ensures r.Some? ==> forall x :: x in r.value ==>
      exists i :: 0 <= i < |lines| && lib.parse(lines[i]).Some? && x in LineRows(lib.parse(lines[i]).value)
  {
    ConcatUnless(lines, Unparsable(lib), ParsedRows(lib))
  }

  /** One decodable line gives exactly its own rows. */
  lemma NdjsonRowsSingle(lib: Lib, line: string)
    requires lib.parse(line).Some?
    ensures NdjsonRows(lib, [line]) == Some(LineRows(lib.parse(line).value))
  {
    ConcatUnlessSingle(line, Unparsable(lib), ParsedRows(lib));
  }

  /** Reading two runs of lines gives the rows of the first, then those of the second. */
  lemma NdjsonRowsAppend(lib: Lib, a: seq<string>, b: seq<string>)
    ensures NdjsonRows(lib, a + b) ==
      if NdjsonRows(lib, a).Some? && NdjsonRows(lib, b).Some?
      then Some(NdjsonRows(lib, a).value + NdjsonRows(lib, b).value)
      else None
  {
    ConcatUnlessAppend(a, b, Unparsable(lib), ParsedRows(lib));
  }

  function ObjRows(ms: seq<Obj>): (r: seq<Json>)
    ensures |r| == |ms| && forall i :: 0 <= i < |ms| ==> r[i] == JObj(ms[i])
  {
    seq(|ms|, i requires 0 <= i < |ms| => JObj(ms[i]))
  }

  /** `{"name_value": h}` for each host, in order. */
  function NameRows(hosts: seq<string>): (r: seq<Json>)
    ensures |r| == |hosts|
    ensures forall i :: 0 <= i < |hosts| ==> r[i] == JObj(map["name_value" := JStr(hosts[i])])
  {
    seq(|hosts|, i requires 0 <= i < |hosts| => JObj(map["name_value" := JStr(hosts[i])]))
  }

  /**
   * The rows read from a non-empty page: its NDJSON objects when every
   * line decodes and there is at least one; otherwise the distinct host
   * names the page mentions, sorted.
   */
  function PageRows(lib: Lib, text: string): (r: seq<Json>)
    ensures var nd := NdjsonRows(lib, Discovery.StrippedLines(text));
      nd.Some? && nd.value != [] ==> r == ObjRows(nd.value)
    ensures var nd := NdjsonRows(lib, Discovery.StrippedLines(text));
      !(nd.Some? && nd.value != []) ==>
        var hosts := Ordering.SortedUnique(lib.scanHosts(text));
        r == NameRows(hosts) && Ordering.StrictlySorted(hosts)
        && forall h :: h in hosts <==> h in lib.scanHosts(text)
  {
    var nd := NdjsonRows(lib, Discovery.StrippedLines(text));
    if nd.Some? && nd.value != [] then ObjRows(nd.value)
    else NameRows(Ordering.SortedUnique(lib.scanHosts(text)))
  }

  /**
   * The rows one attempt produces: a truthy decoded document (a list as is,
   * anything else wrapped in a list), else the rows read from a 200 page.
   */
  function Yield(lib: Lib, a: Attempt): seq<Json> {
    var js := Discovery.FetchJson(lib, a.json);
    if js.Some? && Truthy(js.value) then
      if js.value.JArr? then js.value.items else [js.value]
    else
      var page := TryGet(a.page);
      if page.0 == 200 && page.1 != "" then PageRows(lib, page.1) else []
  }

  /**
   * An attempt whose JSON fetch decodes to a truthy document always yields
   * rows (so the query stops there); one whose JSON fetch fails and whose
   * page fetch is not a non-empty 200 page yields none.
   */
  lemma YieldShape(lib: Lib, a: Attempt)
    ensures var js := Discovery.FetchJson(lib, a.json);
      js.Some? && Truthy(js.value) ==> Yield(lib, a) != [] && (js.value.JArr? ==> Yield(lib, a) == js.value.items)
    ensures var page := TryGet(a.page);
      var js := Discovery.FetchJson(lib, a.json);
      (js.None? || !Truthy(js.value)) && !(page.0 == 200 && page.1 != "") ==> Yield(lib, a) == []
  {
  }

  /** The page fetch of an attempt reported a rate limit or an unavailable server. */
  predicate Throttled(a: Attempt) {
    var status := TryGet(a.page).0;
    status == 429 || status == 503
  }

  /** The result of one query: its rows, the attempts made, the sleeps taken. */
  datatype Query = Query(rows: seq<Json>, attempts: nat, sleeps: seq<real>)

  /**
   * The retry loop of `query_crtsh` from attempt `k` on, given the rows
   * each attempt yields and whether its page fetch was throttled: attempts
   * run until one yields rows, at most five; every empty attempt but the
   * last sleeps before the next, and the last sleeps too when it was
   * throttled.
   */
  function Retry(rowsAt: nat -> seq<Json>, throttledAt: nat -> bool, k: nat): (q: Query)
    requires k < Attempts
    ensures k < q.attempts <= Attempts
    ensures q.rows != [] ==> q.rows == rowsAt(q.attempts - 1)
    ensures forall j :: k <= j < q.attempts - 1 ==> rowsAt(j) == []
    ensures q.rows == [] ==> q.attempts == Attempts && rowsAt(Attempts - 1) == []
    ensures q.rows != [] ==> |q.sleeps| == q.attempts - 1 - k
    ensures q.rows == [] ==>
      |q.sleeps| == Attempts - 1 - k + (if throttledAt(Attempts - 1) then 1 else 0)
    ensures forall i :: 0 <= i < |q.sleeps| ==> q.sleeps[i] == Backoff(k + i)
    decreases Attempts - k
  {
    var found := rowsAt(k);
    if found != [] then Query(found, k + 1, [])
    else if k < Attempts - 1 then
      var rest := Retry(rowsAt, throttledAt, k + 1);
      Query(rest.rows, rest.attempts, [Backoff(k)] + rest.sleeps)
    else if throttledAt(k) then Query([], k + 1, [Backoff(k)])
    else Query([], k + 1, [])
  }

  /** A query sleeps at most five times, never longer than 20 s. */
  lemma RetrySleepsAtMost(rowsAt: nat -> seq<Json>, throttledAt: nat -> bool)
    ensures var q := Retry(rowsAt, throttledAt, 0);
      |q.sleeps| <= Attempts && forall i :: 0 <= i < |q.sleeps| ==> q.sleeps[i] <= MaxBackoff
  {
    var q := Retry(rowsAt, throttledAt, 0);
    forall i | 0 <= i < |q.sleeps| ensures q.sleeps[i] <= MaxBackoff {
      BackoffBounded(i);
    }
  }

  /** The replies seen by the queries, per request URL and attempt. */
  type CrtServer = (string, nat) -> Attempt

  /** `query_crtsh(pattern)`: the retry loop over the attempts on the pattern's URL. */
  function QueryRows(lib: Lib, crt: CrtServer, pattern: string): Query {
    var url := QueryBase + pattern;
    Retry((j: nat) => Yield(lib, crt(url, j)), (j: nat) => Throttled(crt(url, j)), 0)
  }

  // ---------------------------------------------------------------------
  // All queries

  /** No pattern makes the partition loop fail. */
  function NeverFails(): (bad: string -> bool)
    ensures forall p :: !bad(p)
  {
    p => false
  }

  /** The rows of one pattern's query, as a value. */
  function PatternRows(lib: Lib, crt: CrtServer): (f: string -> seq<Json>)
    ensures forall p :: f(p) == QueryRows(lib, crt, p).rows
  {
    p => QueryRows(lib, crt, p).rows
  }

  /** The rows of the partition queries, concatenated in pattern order. */
  function PartitionRows(lib: Lib, crt: CrtServer, ps: seq<string>): (r: seq<Json>)
    ensures r == [] <==> forall i :: 0 <= i < |ps| ==> QueryRows(lib, crt, ps[i]).rows == []
    ensures forall i, x :: 0 <= i < |ps| && x in QueryRows(lib, crt, ps[i]).rows ==> x in r
    ensures forall x :: x in r ==> exists i :: 0 <= i < |ps| && x in QueryRows(lib, crt, ps[i]).rows
  {
    ConcatUnlessEmpty(ps, NeverFails(), PatternRows(lib, crt));
    ConcatUnless(ps, NeverFails(), PatternRows(lib, crt)).value
  }

  /** One pattern gives exactly the rows of its query. */
  lemma PartitionRowsSingle(lib: Lib, crt: CrtServer, p: string)
    ensures PartitionRows(lib, crt, [p]) == QueryRows(lib, crt, p).rows
  {
    ConcatUnlessSingle(p, NeverFails(), PatternRows(lib, crt));
  }

  /** The rows of two runs of patterns are those of the first, then those of the second. */
  lemma PartitionRowsAppend(lib: Lib, crt: CrtServer, a: seq<string>, b: seq<string>)
    ensures PartitionRows(lib, crt, a + b) == PartitionRows(lib, crt, a) + PartitionRows(lib, crt, b)
  {
    ConcatUnlessAppend(a, b, NeverFails(), PatternRows(lib, crt));
  }

  /** The rows the route works on, and whether the broad query was needed. */
  function CollectedRows(lib: Lib, crt: CrtServer): (r: (seq<Json>, bool))
    ensures r.1 <==> forall i :: 0 <= i < 26 ==> QueryRows(lib, crt, Patterns()[i]).rows == []
    ensures r.1 ==> r.0 == QueryRows(lib, crt, BroadPattern).rows
    ensures !r.1 ==> r.0 == PartitionRows(lib, crt, Patterns()) && r.0 != []
  {
    var parts := PartitionRows(lib, crt, Patterns());
    if parts != [] then (parts, false) else (QueryRows(lib, crt, BroadPattern).rows, true)
  }

  // ---------------------------------------------------------------------
  // Host names

  /**
   * The names in the rows' `name_value` fields, split on newlines and
   * stripped; `None` where the code raises (a row that is not a dict, a
   * truthy `name_value` that is not a string).
   */
  function NamesOf(rows: seq<Json>): (r: Option<seq<string>>)
    ensures r.None? <==> exists i :: 0 <= i < |rows| && Raises(rows[i])
    ensures r.Some? ==> forall n :: n in r.value ==>
      exists i :: 0 <= i < |rows| && n in NamesOfRow(rows[i])
    ensures r.Some? ==> forall i, n :: 0 <= i < |rows| && n in NamesOfRow(rows[i]) ==> n in r.value
  {
    ConcatUnless(rows, Raises, NamesOfRow)
  }

  /** A single row contributes its own names, in their order. */
  lemma NamesOfSingle(row: Json)
    requires !Raises(row)
    ensures NamesOf([row]) == Some(NamesOfRow(row))
  {
    ConcatUnlessSingle(row, Raises, NamesOfRow);
  }

  /**
   * Names are read row by row: the names of two batches are the names of the
   * first followed by those of the second, and reading raises if either does.
   */
  lemma NamesOfAppend(a: seq<Json>, b: seq<Json>)
    ensures NamesOf(a + b) ==
      if NamesOf(a).Some? && NamesOf(b).Some? then Some(NamesOf(a).value + NamesOf(b).value) else None
  {
    ConcatUnlessAppend(a, b, Raises, NamesOfRow);
  }

  /** Reading this row's names raises. */
  predicate Raises(row: Json) {
    !row.JObj? || (Truthy(GetOr(row.fields, "name_value", JStr(""))) && !GetOr(row.fields, "name_value", JStr("")).JStr?)
  }

  /** The non-empty stripped lines of one row's `name_value`. */
  function NamesOfRow(row: Json): seq<string> {
    if !row.JObj? then []
    else
      var nv := GetOr(row.fields, "name_value", JStr(""));
      if nv.JStr? then Discovery.NonEmptyStripped(SplitOn(nv.s, '\n')) else []
  }

  predicate IsSaplLegHost(n: string) {
    StartsWith(n, "sapl.") && EndsWith(n, ".leg.br")
  }

  function FilterNames(names: seq<string>): (r: seq<string>)
    ensures forall n :: n in r <==> n in names && IsSaplLegHost(n)
    decreases |names|
  {
    if |names| == 0 then []
    else
      var rest := FilterNames(names[1..]);
      assert forall n :: n in names <==> n == names[0] || n in names[1..];
      if IsSaplLegHost(names[0]) then [names[0]] + rest else rest
  }

  /** The hosts to validate: the distinct `sapl.*.leg.br` names, sorted. */
  function CandidateHosts(names: seq<string>): (r: seq<string>)
    ensures Ordering.StrictlySorted(r)
    ensures forall h :: h in r <==> h in names && IsSaplLegHost(h)
  {
    Ordering.SortedUnique(FilterNames(names))
  }

  // ---------------------------------------------------------------------
  // The route

  function CrtFound(c: Discovery.Confirmed): Discovery.Found {
    Discovery.Found(JStr(""), "", "", "crtsh", c.url, c.status, c.marker, c.title)
  }

  /** The values `f` yields, in order, skipping the elements it yields nothing for. */
  function Harvest<A, B>(xs: seq<A>, f: A -> Option<B>): (r: seq<B>)
    ensures |r| <= |xs|
    ensures forall y :: y in r ==> exists i :: 0 <= i < |xs| && f(xs[i]) == Some(y)
    ensures forall i :: 0 <= i < |xs| && f(xs[i]).Some? ==> f(xs[i]).value in r
    decreases |xs|
  {
    if |xs| == 0 then []
    else
      var rest := Harvest(xs[1..], f);
      var head := if f(xs[0]).Some? then [f(xs[0]).value] else [];
      var r := head + rest;
      forall y | y in r ensures exists i :: 0 <= i < |xs| && f(xs[i]) == Some(y) {
        if y !in head {
          var i :| 0 <= i < |xs[1..]| && f(xs[1..][i]) == Some(y);
          assert xs[1..][i] == xs[i + 1];
        }
      }
      forall i | 0 <= i < |xs| && f(xs[i]).Some? ensures f(xs[i]).value in r {
        if i > 0 {
          assert xs[i] == xs[1..][i - 1];
        }
      }
      r
  }

  /** The values of two runs are those of the first followed by those of the second. */
  lemma {:induction false} HarvestAppend<A, B>(a: seq<A>, b: seq<A>, f: A -> Option<B>)
    ensures Harvest(a + b, f) == Harvest(a, f) + Harvest(b, f)
    decreases |a|
  {
    if |a| == 0 {
      assert a + b == b;
    } else {
      var ab := a + b;
      assert ab[1..] == a[1..] + b;
      assert ab[0] == a[0];
      HarvestAppend(a[1..], b, f);
    }
  }

  /** The row `validate_host` gives for one host, if it confirms. */
  function CrtRow(get: Server, h: string): (r: Option<Discovery.Found>)
    ensures r.Some? <==> Discovery.ValidateHost(h, get, Discovery.LooksLikeSapl).Some?
    ensures r.Some? ==> r.value == CrtFound(Discovery.ValidateHost(h, get, Discovery.LooksLikeSapl).value)
    ensures r.Some? ==> (r.value.httpStatus == 200
      && exists j :: 0 <= j < |Discovery.CheckPaths| && r.value.saplUrl == "https://" + h + Discovery.CheckPaths[j])
  {
    match Discovery.ValidateHost(h, get, Discovery.LooksLikeSapl)
    case Some(c) => Some(CrtFound(c))
    case None => None
  }

  /** The rows reported for the hosts, in host order. */
  function ValidateAll(get: Server, hosts: seq<string>): (r: seq<Discovery.Found>)
    ensures |r| <= |hosts|
    ensures forall f :: f in r ==>
      f.source == "crtsh" && f.municipio == "" && f.uf == "" && f.ibgeId == JStr("")
      && f.httpStatus == 200
      && exists h, j ::
           h in hosts && 0 <= j < |Discovery.CheckPaths| && f.saplUrl == "https://" + h + Discovery.CheckPaths[j]
    ensures forall f :: f in r ==> exists i :: (0 <= i < |hosts|
      && Discovery.ValidateHost(hosts[i], get, Discovery.LooksLikeSapl).Some?
      && f == CrtFound(Discovery.ValidateHost(hosts[i], get, Discovery.LooksLikeSapl).value))
    ensures forall i :: 0 <= i < |hosts| && Discovery.ValidateHost(hosts[i], get, Discovery.LooksLikeSapl).Some? ==>
      CrtFound(Discovery.ValidateHost(hosts[i], get, Discovery.LooksLikeSapl).value) in r
  {
    var f := h => CrtRow(get, h);
    var r := Harvest(hosts, f);
    forall x | x in r ensures exists i :: (0 <= i < |hosts|
      && Discovery.ValidateHost(hosts[i], get, Discovery.LooksLikeSapl).Some?
      && x == CrtFound(Discovery.ValidateHost(hosts[i], get, Discovery.LooksLikeSapl).value))
    {
      var i :| 0 <= i < |hosts| && f(hosts[i]) == Some(x);
      assert CrtRow(get, hosts[i]) == Some(x);
    }
    forall i | 0 <= i < |hosts| && Discovery.ValidateHost(hosts[i], get, Discovery.LooksLikeSapl).Some?
      ensures CrtFound(Discovery.ValidateHost(hosts[i], get, Discovery.LooksLikeSapl).value) in r
    {
      assert f(hosts[i]).Some?;
    }
    r
  }

  /** One host gives its row exactly when it validates. */
  lemma ValidateAllSingle(get: Server, h: string)
    ensures ValidateAll(get, [h]) ==
      match Discovery.ValidateHost(h, get, Discovery.LooksLikeSapl)
      case Some(c) => [CrtFound(c)]
      case None => []
  {
    assert [h][1..] == [];
  }

  /** Hosts are validated in order: the rows of two runs of hosts are concatenated. */
  lemma ValidateAllAppend(get: Server, a: seq<string>, b: seq<string>)
    ensures ValidateAll(get, a + b) == ValidateAll(get, a) + ValidateAll(get, b)
  {
    HarvestAppend(a, b, h => CrtRow(get, h));
  }

  /**
   * `discover_by_crtsh`: nothing when every query came back empty;
   * otherwise every candidate host is validated (in host order here) and the
   * reported rows are filtered by `dedupe_results`.
   */
  function DiscoverByCrtsh(lib: Lib, crt: CrtServer, get: Server): (r: Discovery.Outcome)
    ensures CollectedRows(lib, crt).0 == [] ==> r == Discovery.Done([], [])
    ensures NamesOf(CollectedRows(lib, crt).0).None? ==> r.Raised?
    ensures r.Done? ==> r.results == Discovery.DedupeResults(r.reported)
    ensures var rows := CollectedRows(lib, crt).0;
      rows != [] && NamesOf(rows).Some? ==>
        r.Done? && r.reported == ValidateAll(get, CandidateHosts(NamesOf(rows).value))
    ensures r.Done? ==> forall f :: f in r.reported ==>
      f.source == "crtsh" &&
      exists h, j ::
        IsSaplLegHost(h) && 0 <= j < |Discovery.CheckPaths| && f.saplUrl == "https://" + h + Discovery.CheckPaths[j]
  {
    var rows := CollectedRows(lib, crt).0;
    if rows == [] then Discovery.Done([], [])
    else
      match NamesOf(rows)
      case None => Discovery.Raised
      case Some(names) =>
        var hosts := CandidateHosts(names);
        var reported := ValidateAll(get, hosts);
        Discovery.Done(reported, Discovery.DedupeResults(reported))
  }
}

=== FILE: csv.dfy ===
/**
 * What `csv.DictWriter` writes for one record: the named fields in order,
 * a missing field as an empty cell, `None` as an empty cell, and any
 * other value as its `str`.
 */
module Csv {
  import opened JsonValue

  /** How the CSV writer renders one value: `None` as an empty cell, anything else as `str`. */
  function Cell(v: Json): (c: string)
    ensures v.JStr? ==> c == v.s
    ensures v.JNull? ==> c == ""
  {
    if v.JNull? then "" else PyStr(v)
  }

  /** `{k: row.get(k, "") for k in fields}` as written: one cell per field, in field order. */
  function Project(fields: seq<string>, row: Obj): (r: seq<string>)
    ensures |r| == |fields|
    ensures forall i :: 0 <= i < |fields| && fields[i] !in row ==> r[i] == ""
    ensures forall i :: 0 <= i < |fields| && fields[i] in row ==> r[i] == Cell(row[fields[i]])
  {
    seq(|fields|, i requires 0 <= i < |fields| => Cell(GetOr(row, fields[i], JStr(""))))
  }
}

=== FILE: dedup.dfy ===
/**
 * The deduplicating, append-only writer shared by every output stage: a set
 * of seen keys, the rows accepted so far in arrival order, and a running
 * count. A row whose key is absent or already seen changes nothing.
 */
module Dedup {
  import opened Wrappers

  datatype Log<K(==), R> = Log(seen: set<K>, rows: seq<R>, count: nat)

  /** One call to the writer: the key it computed (or `None`) and the row. */
  datatype Entry<K(==), R> = Entry(key: Option<K>, row: R)

  /** The result of one call: the new state and whether the row was written. */
  datatype Step<K(==), R> = Step(log: Log<K, R>, accepted: bool)

  function Empty<K(==), R>(): (l: Log<K, R>)
    ensures Consistent(l) && l.rows == []
  {
    Log({}, [], 0)
  }

  /** The writer's invariant: `count == len(rows) == |seen|`. */
  predicate Consistent<K(==), R>(l: Log<K, R>) {
    l.count == |l.rows| && |l.seen| == l.count
  }

  /** Offers one row under `key`. */
  function Accept<K(==), R>(l: Log<K, R>, key: Option<K>, row: R): (s: Step<K, R>)
    ensures s.accepted <==> key.Some? && key.value !in l.seen
    ensures !s.accepted ==> s.log == l
    ensures s.accepted ==> s.log.seen == l.seen + {key.value}
    ensures s.accepted ==> s.log.rows == l.rows + [row] && s.log.count == l.count + 1
    ensures Consistent(l) ==> Consistent(s.log)
  {
    match key
    case None => Step(l, false)
    case Some(k) =>
      if k in l.seen then Step(l, false)
      else Step(Log(l.seen + {k}, l.rows + [row], l.count + 1), true)
  }

  /** Offers the entries one after another. */
  function AcceptAll<K(==), R>(l: Log<K, R>, es: seq<Entry<K, R>>): Log<K, R>
    decreases |es|
  {
    if |es| == 0 then l
    else Accept(AcceptAll(l, es[..|es| - 1]), es[|es| - 1].key, es[|es| - 1].row).log
  }

  /** Offering the prefix one entry longer is offering entry `i` after the shorter prefix. */
  lemma AcceptAllStep<K, R>(l: Log<K, R>, es: seq<Entry<K, R>>, i: nat)
    requires i < |es|
    ensures AcceptAll(l, es[..i + 1]) == Accept(AcceptAll(l, es[..i]), es[i].key, es[i].row).log
  {
    assert es[..i + 1][..i] == es[..i];
  }

  /** Entry `i` carries a key that no earlier entry carries. */
  predicate FirstAt<K(==), R>(es: seq<Entry<K, R>>, i: nat)
    requires i < |es|
  {
    es[i].key.Some? && forall j :: 0 <= j < i ==> es[j].key != es[i].key
  }

  /** Reference definition: the rows of first occurrences of each present key, in order. */
  function FirstOccurrences<K(==), R>(es: seq<Entry<K, R>>): seq<R>
    decreases |es|
  {
    if |es| == 0 then []
    else FirstOccurrences(es[..|es| - 1]) + (if FirstAt(es, |es| - 1) then [es[|es| - 1].row] else [])
  }

  /** The set of keys present among the entries. */
  function KeysOf<K(==), R>(es: seq<Entry<K, R>>): set<K> {
    set i | 0 <= i < |es| && es[i].key.Some? :: es[i].key.value
  }

  lemma KeysOfSnoc<K, R>(es: seq<Entry<K, R>>)
    requires |es| > 0
    ensures var init := es[..|es| - 1];
      KeysOf(es) == KeysOf(init) + (if es[|es| - 1].key.Some? then {es[|es| - 1].key.value} else {})
  {
    var init := es[..|es| - 1];
    forall k | k in KeysOf(es)
      ensures k in KeysOf(init) + (if es[|es| - 1].key.Some? then {es[|es| - 1].key.value} else {})
    {
      var i :| 0 <= i < |es| && es[i].key.Some? && es[i].key.value == k;
      if i < |es| - 1 {
        assert init[i] == es[i];
      }
    }
    forall k | k in KeysOf(init) ensures k in KeysOf(es) {
      var i :| 0 <= i < |init| && init[i].key.Some? && init[i].key.value == k;
      assert es[i] == init[i];
    }
  }

  /**
   * Running the writer over a stream persists exactly the first occurrence of
   * every present key, in stream order; the seen set is the set of present
   * keys, and `count == len(rows) == |seen|` holds throughout.
   */
  lemma {:induction false} AcceptAllIsFirstOccurrences<K, R>(es: seq<Entry<K, R>>)
    ensures AcceptAll(Empty(), es).rows == FirstOccurrences(es)
    ensures AcceptAll(Empty(), es).seen == KeysOf(es)
    ensures Consistent(AcceptAll(Empty(), es))
    decreases |es|
  {
    if |es| > 0 {
      var init := es[..|es| - 1];
      var last := es[|es| - 1];
      AcceptAllIsFirstOccurrences(init);
      KeysOfSnoc(es);
      var prev := AcceptAll(Empty(), init);
      if last.key.Some? {
        if last.key.value in prev.seen {
          var i :| 0 <= i < |init| && init[i].key.Some? && init[i].key.value == last.key.value;
          assert es[i] == init[i];
          assert !FirstAt(es, |es| - 1);
        } else {
          forall j | 0 <= j < |es| - 1 ensures es[j].key != last.key {
            assert es[j] == init[j];
            if es[j].key.Some? {
              assert es[j].key.value in KeysOf(init);
            }
          }
          assert FirstAt(es, |es| - 1);
        }
      }
    }
  }

  /** Every first occurrence is the row of an entry with a present key. */
  lemma {:induction false} FirstOccurrencesFromStream<K, R>(es: seq<Entry<K, R>>)
    ensures forall x :: x in FirstOccurrences(es) ==>
      exists i :: 0 <= i < |es| && es[i].key.Some? && es[i].row == x && FirstAt(es, i)
    decreases |es|
  {
    if |es| > 0 {
      var init := es[..|es| - 1];
      FirstOccurrencesFromStream(init);
      forall x | x in FirstOccurrences(init)
        ensures exists i :: 0 <= i < |es| && es[i].key.Some? && es[i].row == x && FirstAt(es, i)
      {
        var i :| 0 <= i < |init| && init[i].key.Some? && init[i].row == x && FirstAt(init, i);
        assert es[i] == init[i];
        assert forall j :: 0 <= j < i ==> es[j] == init[j];
        assert FirstAt(es, i);
      }
    }
  }

  /** No two rows carry the same key. */
  predicate DistinctKeys<K(==), R>(rows: seq<R>, key: R -> Option<K>) {
    forall i, j :: 0 <= i < j < |rows| ==> key(rows[i]) != key(rows[j])
  }

  /**
   * When each entry's key is computed from its row, the first occurrences
   * carry pairwise distinct keys.
   */
  lemma {:induction false} FirstOccurrencesDistinct<K, R>(es: seq<Entry<K, R>>, key: R -> Option<K>)
    requires forall i :: 0 <= i < |es| ==> es[i].key == key(es[i].row)
    ensures DistinctKeys(FirstOccurrences(es), key)
    decreases |es|
  {
    if |es| > 0 {
      var init := es[..|es| - 1];
      var last := es[|es| - 1];
      assert forall i :: 0 <= i < |init| ==> init[i] == es[i];
      FirstOccurrencesDistinct(init, key);
      var prev := FirstOccurrences(init);
      var r := FirstOccurrences(es);
      if FirstAt(es, |es| - 1) {
        assert r == prev + [last.row];
        FirstOccurrencesFromStream(init);
        forall x | x in prev ensures key(x) != last.key {
          var i :| 0 <= i < |init| && init[i].key.Some? && init[i].row == x && FirstAt(init, i);
          assert es[i].key == key(x);
        }
        forall i, j | 0 <= i < j < |r| ensures key(r[i]) != key(r[j]) {
          if j == |prev| {
            assert r[i] == prev[i] && r[j] == last.row;
          } else {
            assert r[i] == prev[i] && r[j] == prev[j];
          }
        }
      } else {
        assert r == prev;
      }
    }
  }

  /**
   * When each entry's key is computed from its row, every key present in
   * the stream is carried by some first occurrence.
   */
  lemma {:induction false} FirstOccurrencesCover<K, R>(es: seq<Entry<K, R>>, key: R -> Option<K>)
    requires forall i :: 0 <= i < |es| ==> es[i].key == key(es[i].row)
    ensures forall i :: 0 <= i < |es| && es[i].key.Some? ==>
      exists y :: y in FirstOccurrences(es) && key(y) == es[i].key
    decreases |es|
  {
    if |es| > 0 {
      var init := es[..|es| - 1];
      var last := es[|es| - 1];
      assert forall i :: 0 <= i < |init| ==> init[i] == es[i];
      FirstOccurrencesCover(init, key);
      var r := FirstOccurrences(es);
      assert forall y :: y in FirstOccurrences(init) ==> y in r;
      if FirstAt(es, |es| - 1) {
        assert last.row in r;
      } else if last.key.Some? {
        var j :| 0 <= j < |es| - 1 && es[j].key == last.key;
        assert init[j].key.Some?;
      }
    }
  }

  /** Offering a row under a key the stream already carried leaves the writer unchanged, whatever the row. */
  lemma {:induction false} DuplicateChangesNothing<K, R>(es: seq<Entry<K, R>>, key: K, row: R)
    requires key in KeysOf(es)
    ensures AcceptAll(Empty(), es + [Entry(Some(key), row)]) == AcceptAll(Empty(), es)
  {
    var all := es + [Entry(Some(key), row)];
    assert all[..|all| - 1] == es;
    AcceptAllIsFirstOccurrences(es);
  }

  /**
   * `dedupe_results`-style filter: the first entry per present key, in
   * input order, computed with a seen set.
   */
  method FirstOccurrencesLoop<K(==), R>(es: seq<Entry<K, R>>) returns (out: seq<R>)
    ensures out == FirstOccurrences(es)
  {
    var seen: set<K> := {};
    out := [];
    var i := 0;
    while i < |es|
      invariant 0 <= i <= |es|
      invariant out == FirstOccurrences(es[..i])
      invariant seen == KeysOf(es[..i])
    {
      var e := es[i];
      var prefix := es[..i + 1];
      assert prefix[..i] == es[..i];
      KeysOfSnoc(prefix);
      if e.key.Some? && e.key.value !in seen {
        forall j | 0 <= j < i ensures prefix[j].key != e.key {
          if prefix[j].key.Some? {
            assert prefix[j] == es[..i][j];
            assert prefix[j].key.value in KeysOf(es[..i]);
          }
        }
        seen := seen + {e.key.value};
        out := out + [e.row];
      } else if e.key.Some? {
        var j :| 0 <= j < i && es[..i][j].key.Some? && es[..i][j].key.value == e.key.value;
        assert prefix[j] == es[..i][j];
      }
      i := i + 1;
    }
    assert es[..|es|] == es;
  }
}

=== FILE: discovery.dfy ===
/**
 * Confirming SAPL endpoints on candidate hosts, and the IBGE-driven
 * discovery route of the finder (`tools/sapl_finder/scraper.py`): host-name
 * slugs, page fingerprinting, the candidate-path probe, the portal link scan
 * and the result filter.
 */
module Discovery {
  import opened Wrappers
  import opened Text
  import opened JsonValue
  import opened Environment
  import opened Lists
  import Dedup
  import Ordering

  // ---------------------------------------------------------------------
  // Constants

  const IbgeEndpoint := "https://servicodados.ibge.gov.br/api/v1/localidades/municipios"

  /** The SAPL 3.x search pages probed on every candidate host, in order. */
  const CheckPaths: seq<string> := ["/materia/pesquisar-materia", "/sapl/materia/pesquisar-materia"]

  /** Page fingerprints, tried in this order. */
  const SaplMarkers: seq<string> :=
    ["SAPL - Interlegis", "Pesquisar Matéria Legislativa", "Matérias Legislativas", "> SAPL <"]

  /** Substrings that make a link on a municipal portal worth following. */
  const LinkHints: seq<string> := ["materia/pesquisar-materia", "/sapl", "sapl."]

  const SearchPath := "materia/pesquisar-materia"

  // ---------------------------------------------------------------------
  // Host-name slugs

  /** Step one of the slug: anything outside `[a-z0-9\s-]` becomes a space. */
  function SlugKeep(c: char): char {
    if IsAsciiLowerAlnum(c) || IsSpace(c) || c == '-' then c else ' '
  }

  predicate NotSpace(c: char) { !IsSpace(c) }

  predicate NotHyphen(c: char) { c != '-' }

  function MapChars(s: string, f: char -> char): (r: string)
    ensures |r| == |s|
    ensures forall i :: 0 <= i < |s| ==> r[i] == f(s[i])
  {
    seq(|s|, i requires 0 <= i < |s| => f(s[i]))
  }

  /** The three substitutions, applied to an already folded, lower-cased name. */
  function SlugSteps(s: string): string {
    Filter(Filter(MapChars(s, SlugKeep), NotSpace), NotHyphen)
  }

  /**
   * `slugify`: decompose, drop combining marks, lower-case, then keep only
   * ASCII lower-case letters and digits.
   */
  function Slugify(lib: Lib, city: string): (r: string)
    ensures forall c :: c in r ==> IsAsciiLowerAlnum(c)
  {
    var s := Lower(Fold(lib, city));
    var r := SlugSteps(s);
    SlugStepsKeepAlnum(s);
    r
  }

  lemma FilterSnoc(s: string, c: char, p: char -> bool)
    ensures Filter(s + [c], p) == Filter(s, p) + (if p(c) then [c] else [])
  {
    assert (s + [c])[..|s|] == s;
  }

  /** An ASCII letter or digit is neither white space nor a hyphen. */
  lemma AlnumIsKept(c: char)
    requires IsAsciiLowerAlnum(c)
    ensures SlugKeep(c) == c && NotSpace(c) && NotHyphen(c)
  {
  }

  /** A character the slug drops ends up as white space or a hyphen. */
  lemma OtherIsDropped(c: char)
    requires !IsAsciiLowerAlnum(c)
    ensures !NotSpace(SlugKeep(c)) || !NotHyphen(SlugKeep(c))
  {
  }

  lemma MapCharsSnoc(init: string, c: char, f: char -> char)
    ensures MapChars(init + [c], f) == MapChars(init, f) + [f(c)]
  {
  }

  lemma SlugStepsSnoc(init: string, c: char)
    ensures SlugSteps(init + [c]) == SlugSteps(init) + (if IsAsciiLowerAlnum(c) then [c] else [])
  {
    var k := SlugKeep(c);
    MapCharsSnoc(init, c, SlugKeep);
    FilterSnoc(MapChars(init, SlugKeep), k, NotSpace);
    var f1 := Filter(MapChars(init, SlugKeep), NotSpace);
    var f1' := f1 + (if NotSpace(k) then [k] else []);
    assert Filter(MapChars(init + [c], SlugKeep), NotSpace) == f1';
    if IsAsciiLowerAlnum(c) {
      AlnumIsKept(c);
      FilterSnoc(f1, c, NotHyphen);
    } else if NotSpace(k) {
      OtherIsDropped(c);
      FilterSnoc(f1, k, NotHyphen);
    } else {
      assert f1' == f1;
    }
  }

  /**
   * The three regular-expression substitutions amount to keeping exactly
   * the ASCII lower-case letters and digits: other characters become spaces,
   * and spaces and hyphens are then removed.
   */
  lemma {:induction false} SlugStepsKeepAlnum(s: string)
    ensures SlugSteps(s) == Filter(s, IsAsciiLowerAlnum)
    decreases |s|
  {
    if |s| > 0 {
      var init := s[..|s| - 1];
      var c := s[|s| - 1];
      assert s == init + [c];
      SlugStepsKeepAlnum(init);
      SlugStepsSnoc(init, c);
      FilterSnoc(init, c, IsAsciiLowerAlnum);
    }
  }

  /** The slug of a name is the name's folded, lower-cased ASCII letters and digits, in order. */
  lemma SlugifyIsAlnumFilter(lib: Lib, city: string)
    ensures Slugify(lib, city) == Filter(Lower(Fold(lib, city)), IsAsciiLowerAlnum)
  {
    SlugStepsKeepAlnum(Lower(Fold(lib, city)));
  }

  // ---------------------------------------------------------------------
  // The page title, as `re.search(r"<title>([^<]+)</title>", html, re.I)`

  const TitleOpen := "<title>"
  const TitleClose := "</title>"

  /** The pattern matches at `i` with `t` as its group (letters compared ASCII case-insensitively). */
  predicate TitleMatchAt(html: string, i: nat, t: string) {
    && |t| > 0 && '<' !in t
    && i + 15 + |t| <= |html|
    && CaseInsensitiveEq(html[i..i + 7], TitleOpen)
    && html[i + 7..i + 7 + |t|] == t
    && CaseInsensitiveEq(html[i + 7 + |t|..i + 15 + |t|], TitleClose)
  }

  /** The first `<` at or after `i`, or the end. */
  function RunEnd(s: string, i: nat): (j: nat)
    requires i <= |s|
    ensures i <= j <= |s|
    ensures j == |s| || s[j] == '<'
    ensures forall k :: i <= k < j ==> s[k] != '<'
    decreases |s| - i
  {
    if i == |s| || s[i] == '<' then i else RunEnd(s, i + 1)
  }

  /** A group matching at `i` runs exactly to the next `<`. */
  lemma TitleGroupRunsToBracket(html: string, i: nat, t: string)
    requires TitleMatchAt(html, i, t)
    ensures RunEnd(html, i + 7) == i + 7 + |t|
  {
    var e := i + 7 + |t|;
    assert html[e..e + 8][0] == html[e];
    assert AsciiFold(html[e]) == AsciiFold(TitleClose[0]);
    assert html[e] == '<';
    forall k | i + 7 <= k < e ensures html[k] != '<' {
      assert html[k] == t[k - i - 7];
    }
  }

  /** The group the pattern captures when it matches at `i`. */
  function TitleAt(html: string, i: nat): (r: Option<string>)
    ensures r.Some? ==> TitleMatchAt(html, i, r.value)
    ensures r.None? ==> forall t :: !TitleMatchAt(html, i, t)
  {
    if i + 7 <= |html| && CaseInsensitiveEq(html[i..i + 7], TitleOpen) then
      var j := RunEnd(html, i + 7);
      if j > i + 7 && j + 8 <= |html| && CaseInsensitiveEq(html[j..j + 8], TitleClose) then
        var t := html[i + 7..j];
        assert forall k :: 0 <= k < |t| ==> t[k] == html[i + 7 + k];
        Some(t)
      else
        NoTitleAt(html, i, j);
        None
    else
      None
  }

  lemma NoTitleAt(html: string, i: nat, j: nat)
    requires i + 7 <= |html| && j == RunEnd(html, i + 7)
    requires !(j > i + 7 && j + 8 <= |html| && CaseInsensitiveEq(html[j..j + 8], TitleClose))
    ensures forall t :: !TitleMatchAt(html, i, t)
  {
    forall t | TitleMatchAt(html, i, t) ensures false {
      TitleGroupRunsToBracket(html, i, t);
    }
  }

  /** The leftmost match at or after `from`, with its position. */
  function TitleSearch(html: string, from: nat): (r: Option<(nat, string)>)
    requires from <= |html|
    ensures r.Some? ==> from <= r.value.0 && TitleMatchAt(html, r.value.0, r.value.1)
    ensures r.Some? ==> forall k, t :: from <= k < r.value.0 ==> !TitleMatchAt(html, k, t)
    ensures r.None? ==> forall k, t :: from <= k ==> !TitleMatchAt(html, k, t)
    decreases |html| - from
  {
    match TitleAt(html, from)
    case Some(t) => Some((from, t))
    case None =>
      if from == |html| then None else TitleSearch(html, from + 1)
  }

  /** `m.group(1)` of the leftmost match, if any. */
  function Title(html: string): (r: Option<string>)
    ensures r.Some? ==>
      exists i :: TitleMatchAt(html, i, r.value) && forall k, t :: k < i ==> !TitleMatchAt(html, k, t)
    ensures r.None? ==> forall k, t :: !TitleMatchAt(html, k, t)
  {
    match TitleSearch(html, 0)
    case Some(p) => Some(p.1)
    case None => None
  }

  /** The title recorded for a confirmed page: the stripped group, or empty. */
  function TitleText(html: string): string {
    match Title(html)
    case Some(t) => Strip(t)
    case None => ""
  }

  // ---------------------------------------------------------------------
  // Fingerprinting

  /** `looks_like_sapl`'s answer: whether the page is SAPL, and the evidence. */
  datatype Verdict = Verdict(ok: bool, marker: string)

  const TitleEvidence := "title contains SAPL"

  /** The index of the first needle that occurs in `hay`. */
  function FirstMarker(needles: seq<string>, hay: string): (r: Option<nat>)
    ensures r.Some? ==> r.value < |needles| && Contains(hay, needles[r.value])
    ensures r.Some? ==> forall j :: 0 <= j < r.value ==> !Contains(hay, needles[j])
    ensures r.None? ==> forall j :: 0 <= j < |needles| ==> !Contains(hay, needles[j])
    decreases |needles|
  {
    if |needles| == 0 then None
    else if Contains(hay, needles[0]) then Some(0)
    else
      match FirstMarker(needles[1..], hay)
      case None => None
      case Some(k) => Some(k + 1)
  }

  function LowerAll(xs: seq<string>): (r: seq<string>)
    ensures |r| == |xs| && forall i :: 0 <= i < |xs| ==> r[i] == Lower(xs[i])
  {
    seq(|xs|, i requires 0 <= i < |xs| => Lower(xs[i]))
  }

  /** The title fallback: the first title's lower-cased text mentions `sapl`. */
  predicate TitleMentionsSapl(html: string) {
    Title(html).Some? && Contains(Lower(Title(html).value), "sapl")
  }

  /** Marker `k` is the first of `markers` whose lower-cased text occurs in `hay`. */
  predicate FirstMarkerAt(markers: seq<string>, hay: string, k: int) {
    0 <= k < |markers| && Contains(hay, Lower(markers[k]))
    && forall j :: 0 <= j < k ==> !Contains(hay, Lower(markers[j]))
  }

  /** No marker's lower-cased text occurs in `hay`. */
  predicate NoMarker(markers: seq<string>, hay: string) {
    forall j :: 0 <= j < |markers| ==> !Contains(hay, Lower(markers[j]))
  }

  /**
   * Fingerprints a page against `markers` after mapping the lower-cased page
   * through `norm`; otherwise falls back to the title.
   */
  function Fingerprint(markers: seq<string>, norm: string -> string, html: string): (v: Verdict)
    ensures v.ok <==>
      (exists j :: 0 <= j < |markers| && Contains(norm(Lower(html)), Lower(markers[j])))
      || TitleMentionsSapl(html)
    ensures forall k :: FirstMarkerAt(markers, norm(Lower(html)), k) ==> v == Verdict(true, markers[k])
    ensures NoMarker(markers, norm(Lower(html))) && TitleMentionsSapl(html) ==> v == Verdict(true, TitleEvidence)
    ensures NoMarker(markers, norm(Lower(html))) && !TitleMentionsSapl(html) ==> v == Verdict(false, "")
    ensures v.ok && v.marker != TitleEvidence ==> v.marker in markers
    ensures !v.ok ==> v.marker == ""
  {
    match FirstMarker(LowerAll(markers), norm(Lower(html)))
    case Some(k) => Verdict(true, markers[k])
    case None => if TitleMentionsSapl(html) then Verdict(true, TitleEvidence) else Verdict(false, "")
  }

  function Same(s: string): string { s }

  /** `looks_like_sapl` of the finder: markers searched in the lower-cased page. */
  function LooksLikeSapl(html: string): (v: Verdict)
    ensures v.ok <==>
      (exists j :: 0 <= j < |SaplMarkers| && Contains(Lower(html), Lower(SaplMarkers[j])))
      || TitleMentionsSapl(html)
    ensures forall k :: FirstMarkerAt(SaplMarkers, Lower(html), k) ==> v == Verdict(true, SaplMarkers[k])
    ensures NoMarker(SaplMarkers, Lower(html)) && TitleMentionsSapl(html) ==> v == Verdict(true, TitleEvidence)
    ensures NoMarker(SaplMarkers, Lower(html)) && !TitleMentionsSapl(html) ==> v == Verdict(false, "")
  {
    Fingerprint(SaplMarkers, Same, html)
  }

  // ---------------------------------------------------------------------
  // Probing candidate URLs

  /** What `validate_host` reports for a confirmed endpoint. */
  datatype Confirmed = Confirmed(url: string, status: int, marker: string, title: string)

  /** A fetched page confirms SAPL: status 200 and the fingerprint accepts the body. */
  predicate Confirms(page: (int, string), look: string -> Verdict) {
    page.0 == 200 && look(page.1).ok
  }

  /** The index of the first URL whose page confirms SAPL. */
  function FirstConfirming(urls: seq<string>, get: Server, look: string -> Verdict): (r: Option<nat>)
    ensures r.Some? ==> r.value < |urls| && Confirms(TryGet(get(urls[r.value])), look)
    ensures r.Some? ==> forall j :: 0 <= j < r.value ==> !Confirms(TryGet(get(urls[j])), look)
    ensures r.None? ==> forall j :: 0 <= j < |urls| ==> !Confirms(TryGet(get(urls[j])), look)
    decreases |urls|
  {
    if |urls| == 0 then None
    else if Confirms(TryGet(get(urls[0])), look) then Some(0)
    else
      match FirstConfirming(urls[1..], get, look)
      case None => None
      case Some(k) => Some(k + 1)
  }

  /**
   * Probes the URLs in order and reports the first one whose page confirms
   * SAPL, with the fingerprint's evidence and the page title.
   */
  function ProbeInOrder(urls: seq<string>, get: Server, look: string -> Verdict): (r: Option<Confirmed>)
    ensures r.Some? <==> exists j :: 0 <= j < |urls| && Confirms(TryGet(get(urls[j])), look)
    ensures r.Some? ==>
      exists k :: 0 <= k < |urls| && urls[k] == r.value.url &&
                  forall j :: 0 <= j < k ==> !Confirms(TryGet(get(urls[j])), look)
    ensures r.Some? ==> (r.value.status == 200 && TryGet(get(r.value.url)).0 == 200
      && look(TryGet(get(r.value.url)).1) == Verdict(true, r.value.marker)
      && r.value.title == TitleText(TryGet(get(r.value.url)).1))
  {
    match FirstConfirming(urls, get, look)
    case None => None
    case Some(k) =>
      var page := TryGet(get(urls[k]));
      Some(Confirmed(urls[k], page.0, look(page.1).marker, TitleText(page.1)))
  }

  /** `build_candidates`: the check paths appended to `https://<host>`, in order. */
  function BuildCandidates(host: string): (r: seq<string>)
    ensures |r| == |CheckPaths|
    ensures forall i :: 0 <= i < |r| ==> r[i] == "https://" + host + CheckPaths[i]
    ensures forall i :: 0 <= i < |r| ==>
      StartsWith(r[i], "https://" + host) && EndsWith(r[i], CheckPaths[i])
  {
    seq(|CheckPaths|, i requires 0 <= i < |CheckPaths| => "https://" + host + CheckPaths[i])
  }

  /** `validate_host`: the first candidate URL of `host` that confirms SAPL. */
  function ValidateHost(host: string, get: Server, look: string -> Verdict): (r: Option<Confirmed>)
    ensures r.Some? <==>
      exists j :: 0 <= j < |CheckPaths| && Confirms(TryGet(get("https://" + host + CheckPaths[j])), look)
    ensures r.Some? ==> (r.value.status == 200
      && exists j :: 0 <= j < |CheckPaths| && r.value.url == "https://" + host + CheckPaths[j])
    ensures r.Some? ==>
      exists k :: 0 <= k < |CheckPaths| && r.value.url == "https://" + host + CheckPaths[k]
        && forall j :: 0 <= j < k ==> !Confirms(TryGet(get("https://" + host + CheckPaths[j])), look)
    ensures r.Some? ==> (TryGet(get(r.value.url)).0 == 200
      && look(TryGet(get(r.value.url)).1) == Verdict(true, r.value.marker)
      && r.value.title == TitleText(TryGet(get(r.value.url)).1))
    ensures r.Some? ==> r.value.url != ""
  {
    var urls := BuildCandidates(host);
    var r := ProbeInOrder(urls, get, look);
    assert forall j :: 0 <= j < |CheckPaths| ==> urls[j] == "https://" + host + CheckPaths[j];
    r
  }

  // ---------------------------------------------------------------------
  // Portal link scan

  /** A link mentions one of the hints. */
  predicate HasHint(h: string) {
    exists i :: 0 <= i < |LinkHints| && Contains(h, LinkHints[i])
  }

  predicate IsDotOrSlash(c: char) { c == '.' || c == '/' }

  /** Makes a link on `https://<baseHost>/` absolute the way the scan does. */
  function ResolveLink(h: string, baseHost: string): (r: string)
    ensures StartsWith(r, "http")
    ensures StartsWith(h, "http") ==> r == h
  {
    if StartsWith(h, "http") then h
    else if StartsWith(h, "//") then "https:" + h
    else if StartsWith(h, "/") then "https://" + baseHost + h
    else "https://" + baseHost + "/" + TrimStart(h, IsDotOrSlash)
  }

  /** A link to a SAPL root (`.../sapl`) is pointed at its search page. */
  function RewriteSaplRoot(c: string): (r: string)
    ensures Contains(c, SearchPath) ==> r == c
    ensures !Contains(c, SearchPath) && EndsWith(RStripSlash(c), "/sapl") ==>
      r == RStripSlash(c) + "/" + SearchPath
    ensures !EndsWith(RStripSlash(c), "/sapl") ==> r == c
    ensures |c| > 0 ==> |r| > 0
  {
    if !Contains(c, SearchPath) && EndsWith(RStripSlash(c), "/sapl") then RStripSlash(c) + "/" + SearchPath
    else c
  }

  lemma ContainsSuffix(a: string, b: string)
    ensures Contains(a + b, b)
  {
    assert OccursAt(a + b, b, |a|);
  }

  /** Rewriting a link twice is rewriting it once. */
  lemma RewriteSaplRootIdempotent(c: string)
    ensures RewriteSaplRoot(RewriteSaplRoot(c)) == RewriteSaplRoot(c)
  {
    if !Contains(c, SearchPath) && EndsWith(RStripSlash(c), "/sapl") {
      ContainsSuffix(RStripSlash(c) + "/", SearchPath);
    }
  }

  /**
   * The links that `keep` accepts, each resolved against `base`, in link
   * order: the scan's hinted links when `keep` is `HasHint` and `resolve`
   * is `ResolveLink`.
   */
  function KeepResolved(hrefs: seq<string>, keep: string -> bool, resolve: (string, string) -> string, base: string): (r: seq<string>)
    ensures forall i :: 0 <= i < |r| ==>
      exists j :: 0 <= j < |hrefs| && keep(hrefs[j]) && r[i] == resolve(hrefs[j], base)
    ensures forall j :: 0 <= j < |hrefs| && keep(hrefs[j]) ==> resolve(hrefs[j], base) in r
    decreases |hrefs|
  {
    if |hrefs| == 0 then []
    else
      var rest := KeepResolved(hrefs[1..], keep, resolve, base);
      var head := if keep(hrefs[0]) then [resolve(hrefs[0], base)] else [];
      var r := head + rest;
      assert forall i :: 0 <= i < |r| ==>
        exists j :: 0 <= j < |hrefs| && keep(hrefs[j]) && r[i] == resolve(hrefs[j], base) by {
        forall i | 0 <= i < |r|
          ensures exists j :: 0 <= j < |hrefs| && keep(hrefs[j]) && r[i] == resolve(hrefs[j], base)
        {
          if i < |head| {
            assert r[i] == resolve(hrefs[0], base);
          } else {
            assert r[i] == rest[i - |head|];
            var j :| 0 <= j < |hrefs[1..]| && keep(hrefs[1..][j]) && rest[i - |head|] == resolve(hrefs[1..][j], base);
            assert hrefs[1..][j] == hrefs[j + 1];
          }
        }
      }
      assert forall j :: 0 <= j < |hrefs| && keep(hrefs[j]) ==> resolve(hrefs[j], base) in r by {
        forall j | 0 <= j < |hrefs| && keep(hrefs[j]) ensures resolve(hrefs[j], base) in r {
          if j > 0 {
            assert hrefs[j] == hrefs[1..][j - 1];
          }
        }
      }
      r
  }

  /** Rewriting the deduplicated resolved links gives exactly the rewritten resolutions of the kept links. */
  lemma RewrittenCandidates(hrefs: seq<string>, keep: string -> bool, resolve: (string, string) -> string, base: string,
                            rewrite: string -> string, sorted: seq<string>, r: seq<string>)
    requires forall y :: y in sorted <==> y in KeepResolved(hrefs, keep, resolve, base)
    requires |r| == |sorted| && forall i :: 0 <= i < |sorted| ==> r[i] == rewrite(sorted[i])
    ensures forall i :: 0 <= i < |r| ==>
      exists j :: 0 <= j < |hrefs| && keep(hrefs[j]) && r[i] == rewrite(resolve(hrefs[j], base))
    ensures forall j :: 0 <= j < |hrefs| && keep(hrefs[j]) ==> rewrite(resolve(hrefs[j], base)) in r
  {
    var kept := KeepResolved(hrefs, keep, resolve, base);
    forall i | 0 <= i < |r|
      ensures exists j :: 0 <= j < |hrefs| && keep(hrefs[j]) && r[i] == rewrite(resolve(hrefs[j], base))
    {
      assert sorted[i] in sorted;
      var k :| 0 <= k < |kept| && kept[k] == sorted[i];
      var j :| 0 <= j < |hrefs| && keep(hrefs[j]) && kept[k] == resolve(hrefs[j], base);
      assert r[i] == rewrite(resolve(hrefs[j], base));
    }
    assert forall i :: 0 <= i < |r| ==>
      exists j :: 0 <= j < |hrefs| && keep(hrefs[j]) && r[i] == rewrite(resolve(hrefs[j], base));
    forall j | 0 <= j < |hrefs| && keep(hrefs[j]) ensures rewrite(resolve(hrefs[j], base)) in r {
      var c := resolve(hrefs[j], base);
      assert c in kept;
      var i :| 0 <= i < |sorted| && sorted[i] == c;
      assert r[i] == rewrite(c);
    }
  }

  function RewriteAll(xs: seq<string>): (r: seq<string>)
    ensures |r| == |xs| && forall i :: 0 <= i < |xs| ==> r[i] == RewriteSaplRoot(xs[i])
  {
    seq(|xs|, i requires 0 <= i < |xs| => RewriteSaplRoot(xs[i]))
  }

  /** When resolution never yields an empty link and rewriting keeps links non-empty, no candidate is empty. */
  lemma RewrittenNonEmpty(hrefs: seq<string>, keep: string -> bool, resolve: (string, string) -> string, base: string,
                          rewrite: string -> string, sorted: seq<string>, r: seq<string>)
    requires forall y :: y in sorted ==> y in KeepResolved(hrefs, keep, resolve, base)
    requires |r| == |sorted| && forall i :: 0 <= i < |sorted| ==> r[i] == rewrite(sorted[i])
    requires forall h :: resolve(h, base) != []
    requires forall c :: c != [] ==> rewrite(c) != []
    ensures forall i :: 0 <= i < |r| ==> r[i] != []
  {
    var kept := KeepResolved(hrefs, keep, resolve, base);
    forall i | 0 <= i < |r| ensures r[i] != [] {
      assert sorted[i] in kept;
      var k :| 0 <= k < |kept| && kept[k] == sorted[i];
      var j :| 0 <= j < |hrefs| && keep(hrefs[j]) && kept[k] == resolve(hrefs[j], base);
      assert sorted[i] != [];
    }
  }

  /**
   * The URLs the scan probes: the distinct resolved hinted links in sorted
   * order, each pointed at its search page when it is a SAPL root.
   */
  function PortalCandidates(lib: Lib, html: string, baseHost: string): (r: seq<string>)
    ensures var hrefs := lib.scanHrefs(html);
      forall i :: 0 <= i < |r| ==>
        exists j :: 0 <= j < |hrefs| && HasHint(hrefs[j]) && r[i] == RewriteSaplRoot(ResolveLink(hrefs[j], baseHost))
    ensures var hrefs := lib.scanHrefs(html);
      forall j :: 0 <= j < |hrefs| && HasHint(hrefs[j]) ==> RewriteSaplRoot(ResolveLink(hrefs[j], baseHost)) in r
    ensures forall i :: 0 <= i < |r| ==> r[i] != []
  {
    var hrefs := lib.scanHrefs(html);
    var sorted := Ordering.SortedUnique(KeepResolved(hrefs, HasHint, ResolveLink, baseHost));
    var r := RewriteAll(sorted);
    RewrittenCandidates(hrefs, HasHint, ResolveLink, baseHost, RewriteSaplRoot, sorted, r);
    assert forall h :: ResolveLink(h, baseHost) != [] by {
      forall h ensures ResolveLink(h, baseHost) != [] {
        assert StartsWith(ResolveLink(h, baseHost), "http");
      }
    }
    RewrittenNonEmpty(hrefs, HasHint, ResolveLink, baseHost, RewriteSaplRoot, sorted, r);
    r
  }

  /** Home-page statuses under which the scan reads the links. */
  predicate ScannableStatus(s: int) { s == 200 || s == 301 || s == 302 }

  /** The portal link scan of `https://<baseHost>/`. */
  function PortalScan(lib: Lib, get: Server, baseHost: string): (r: Option<Confirmed>)
    ensures var home := TryGet(get("https://" + baseHost + "/"));
      var cands := PortalCandidates(lib, home.1, baseHost);
      r.Some? <==>
        ScannableStatus(home.0) && home.1 != "" &&
        exists j :: 0 <= j < |cands| && Confirms(TryGet(get(cands[j])), LooksLikeSapl)
    ensures var home := TryGet(get("https://" + baseHost + "/"));
      var cands := PortalCandidates(lib, home.1, baseHost);
      r.Some? ==> exists k :: (0 <= k < |cands| && r.value.url == cands[k]
        && forall j :: 0 <= j < k ==> !Confirms(TryGet(get(cands[j])), LooksLikeSapl))
    ensures r.Some? ==> (r.value.status == 200 && TryGet(get(r.value.url)).0 == 200
      && LooksLikeSapl(TryGet(get(r.value.url)).1) == Verdict(true, r.value.marker)
      && r.value.title == TitleText(TryGet(get(r.value.url)).1))
    ensures r.Some? ==> r.value.url != ""
  {
    var home := TryGet(get("https://" + baseHost + "/"));
    if ScannableStatus(home.0) && home.1 != "" then
      var cands := PortalCandidates(lib, home.1, baseHost);
      ProbeInOrder(cands, get, LooksLikeSapl)
    else
      None
  }

  // ---------------------------------------------------------------------
  // Discovered rows and the result filter

  /** One confirmed endpoint, as the finder records it. */
  datatype Found = Found(
    ibgeId: Json, municipio: string, uf: string, source: string,
    saplUrl: string, httpStatus: int, marker: string, title: string)

  /** The row key of every writer and of `dedupe_results`: a non-empty `sapl_url`. */
  function UrlKey(f: Found): Option<string> {
    if f.saplUrl != "" then Some(f.saplUrl) else None
  }

  function UrlEntries(rows: seq<Found>): (es: seq<Dedup.Entry<string, Found>>)
    ensures |es| == |rows|
    ensures forall i :: 0 <= i < |rows| ==> es[i] == Dedup.Entry(UrlKey(rows[i]), rows[i])
  {
    seq(|rows|, i requires 0 <= i < |rows| => Dedup.Entry(UrlKey(rows[i]), rows[i]))
  }

  /**
   * `dedupe_results`: keeps the first row per non-empty `sapl_url`, in order
   * (a seen set, exactly like the writers).
   */
  function DedupeResults(rows: seq<Found>): (r: seq<Found>)
    ensures r == Dedup.FirstOccurrences(UrlEntries(rows))
    ensures Dedup.DistinctKeys(r, UrlKey)
    ensures forall x :: x in r ==> x in rows && x.saplUrl != ""
    ensures forall x :: x in rows && x.saplUrl != "" ==> exists y :: y in r && y.saplUrl == x.saplUrl
  {
    var es := UrlEntries(rows);
    Dedup.AcceptAllIsFirstOccurrences(es);
    Dedup.FirstOccurrencesFromStream(es);
    Dedup.FirstOccurrencesDistinct(es, UrlKey);
    Dedup.FirstOccurrencesCover(es, UrlKey);
    Dedup.AcceptAll(Dedup.Empty(), es).rows
  }

  // ---------------------------------------------------------------------
  // The IBGE route

  /**
   * The state code of an IBGE municipality record, reached through
   * `microrregiao.mesorregiao.UF.sigla` with empty dicts for missing keys
   * (and for a falsy `microrregiao`). `None` when a present intermediate is
   * not a dict, where the code raises.
   */
  function UfCode(item: Obj): (r: Option<Json>)
    ensures !Truthy(Get(item, "microrregiao")) ==> r == Some(JStr(""))
    ensures Truthy(Get(item, "microrregiao")) && !Get(item, "microrregiao").JObj? ==> r.None?
    ensures forall micro: Obj, meso: Obj, uf: Obj ::
      (Get(item, "microrregiao") == JObj(micro) && micro != map[]
        && "mesorregiao" in micro && micro["mesorregiao"] == JObj(meso)
        && "UF" in meso && meso["UF"] == JObj(uf)) ==> r == Some(GetOr(uf, "sigla", JStr("")))
    ensures forall micro: Obj ::
      (Get(item, "microrregiao") == JObj(micro)
        && "mesorregiao" in micro && !micro["mesorregiao"].JObj?) ==> r.None?
  {
    var micro := Or(GetOr(item, "microrregiao", JObj(map[])), JObj(map[]));
    if !micro.JObj? then None
    else
      var meso := GetOr(micro.fields, "mesorregiao", JObj(map[]));
      if !meso.JObj? then None
      else
        var uf := GetOr(meso.fields, "UF", JObj(map[]));
        if !uf.JObj? then None
        else Some(GetOr(uf.fields, "sigla", JStr("")))
  }

  /** What a worker does with one record. */
  datatype Plan =
    | Crash
    | Skip
    | Probe(name: string, uf: string, slug: string)

  /** The worker's decision: skip records without a name or state, else build the slug. */
  function PlanFor(lib: Lib, item: Obj): (p: Plan)
    ensures UfCode(item).None? ==> p.Crash?
    ensures p.Skip? <==> (UfCode(item).Some?
      && (!Truthy(GetOr(item, "nome", JStr(""))) || !Truthy(UfCode(item).value)))
    ensures p.Probe? <==> (UfCode(item).Some?
      && Truthy(GetOr(item, "nome", JStr(""))) && GetOr(item, "nome", JStr("")).JStr?
      && Truthy(UfCode(item).value) && UfCode(item).value.JStr?)
    ensures p.Probe? ==> (Get(item, "nome") == JStr(p.name) && UfCode(item) == Some(JStr(p.uf))
      && p.name != "" && p.uf != "" && p.slug == Slugify(lib, p.name))
  {
    var nome := GetOr(item, "nome", JStr(""));
    match UfCode(item)
    case None => Crash
    case Some(sigla) =>
      if !Truthy(nome) || !Truthy(sigla) then Skip
      else if !nome.JStr? || !sigla.JStr? then Crash
      else Probe(nome.s, sigla.s, Slugify(lib, nome.s))
  }

  /** `sapl.<slug>.<uf>.leg.br`, the first host tried for a municipality. */
  function SaplHost(slug: string, uf: string): string {
    "sapl." + slug + "." + Lower(uf) + ".leg.br"
  }

  /** `<slug>.<uf>.leg.br`, the municipal chamber's own host. */
  function BaseHost(slug: string, uf: string): (r: string)
    ensures SaplHost(slug, uf) == "sapl." + r
  {
    slug + "." + Lower(uf) + ".leg.br"
  }

  function FoundRow(item: Obj, p: Plan, source: string, c: Confirmed): (f: Found)
    requires p.Probe?
    ensures f.saplUrl == c.url && f.httpStatus == c.status && f.source == source
    ensures f.municipio == p.name && f.uf == p.uf && f.ibgeId == GetOr(item, "id", JStr(""))
  {
    Found(GetOr(item, "id", JStr("")), p.name, p.uf, source, c.url, c.status, c.marker, c.title)
  }

  /** The row recorded for a probe outcome under `source`, if it confirmed. */
  function RowsFor(item: Obj, p: Plan, source: string, c: Option<Confirmed>): (r: seq<Found>)
    requires p.Probe?
    requires c.Some? ==> c.value.status == 200 && c.value.url != ""
    ensures |r| <= 1 && (r != [] <==> c.Some?)
    ensures c.Some? ==> r == [FoundRow(item, p, source, c.value)]
    ensures forall f :: f in r ==> f.source == source && f.httpStatus == 200 && f.saplUrl != ""
  {
    match c
    case Some(v) => [FoundRow(item, p, source, v)]
    case None => []
  }

  /** The row for the `sapl.` host, if it confirms. */
  function SaplHostRows(get: Server, item: Obj, p: Plan): (r: seq<Found>)
    requires p.Probe?
    ensures |r| <= 1
    ensures forall f :: f in r ==> f.source == "ibge-heuristic" && f.httpStatus == 200 && f.saplUrl != ""
    ensures r != [] <==> ValidateHost(SaplHost(p.slug, p.uf), get, LooksLikeSapl).Some?
    ensures var v := ValidateHost(SaplHost(p.slug, p.uf), get, LooksLikeSapl);
      v.Some? ==> r == [FoundRow(item, p, "ibge-heuristic", v.value)]
  {
    RowsFor(item, p, "ibge-heuristic", ValidateHost(SaplHost(p.slug, p.uf), get, LooksLikeSapl))
  }

  /** The row for the base host, or else from the portal link scan of that host. */
  function BaseHostRows(lib: Lib, get: Server, item: Obj, p: Plan): (r: seq<Found>)
    requires p.Probe?
    ensures |r| <= 1
    ensures forall f :: f in r ==> f.httpStatus == 200 && f.saplUrl != ""
    ensures forall f :: f in r ==> f.source == "base-host-endpoint" || f.source == "portal-link-scan"
    ensures forall f :: f in r && f.source == "portal-link-scan" ==>
      ValidateHost(BaseHost(p.slug, p.uf), get, LooksLikeSapl).None?
    ensures var v := ValidateHost(BaseHost(p.slug, p.uf), get, LooksLikeSapl);
      v.Some? ==> r == [FoundRow(item, p, "base-host-endpoint", v.value)]
    ensures var v := ValidateHost(BaseHost(p.slug, p.uf), get, LooksLikeSapl);
      var s := PortalScan(lib, get, BaseHost(p.slug, p.uf));
      v.None? ==> (r != [] <==> s.Some?) && (s.Some? ==> r == [FoundRow(item, p, "portal-link-scan", s.value)])
  {
    var base := BaseHost(p.slug, p.uf);
    var v := ValidateHost(base, get, LooksLikeSapl);
    if v.Some? then RowsFor(item, p, "base-host-endpoint", v)
    else RowsFor(item, p, "portal-link-scan", PortalScan(lib, get, base))
  }

  /**
   * The rows one worker reports for a record, in report order: the
   * `sapl.` host, then the base host, or, when the base host does not
   * confirm, the portal link scan. `None` when the worker raises.
   */
  function IbgeWorker(lib: Lib, get: Server, item: Json): (r: Option<seq<Found>>)
    ensures !item.JObj? ==> r.None?
    ensures item.JObj? && PlanFor(lib, item.fields).Skip? ==> r == Some([])
    ensures r.Some? ==> |r.value| <= 2
    ensures r.Some? ==> forall f :: f in r.value ==> f.httpStatus == 200 && f.saplUrl != ""
    ensures r.Some? && r.value != [] ==> item.JObj? && PlanFor(lib, item.fields).Probe?
    ensures item.JObj? && PlanFor(lib, item.fields).Crash? ==> r.None?
    ensures item.JObj? && PlanFor(lib, item.fields).Probe? ==>
      r == Some(SaplHostRows(get, item.fields, PlanFor(lib, item.fields))
                + BaseHostRows(lib, get, item.fields, PlanFor(lib, item.fields)))
  {
    if !item.JObj? then None
    else
      var p := PlanFor(lib, item.fields);
      match p
      case Crash => None
      case Skip => Some([])
      case Probe(_, _, _) => Some(SaplHostRows(get, item.fields, p) + BaseHostRows(lib, get, item.fields, p))
  }

  // ---------------------------------------------------------------------
  // Decoding JSON responses

  /** `[ln.strip() for ln in text.splitlines() if ln.strip()]`. */
  function StrippedLines(text: string): (r: seq<string>)
    ensures forall i :: 0 <= i < |r| ==> r[i] != []
  {
    NonEmptyStripped(SplitLines(text))
  }

  function NonEmptyStripped(lines: seq<string>): (r: seq<string>)
    ensures |r| <= |lines|
    ensures forall i :: 0 <= i < |r| ==> r[i] != []
  {
    NonEmpty(seq(|lines|, i requires 0 <= i < |lines| => Strip(lines[i])))
  }

  /** The non-empty strings of a list, in order. */
  function NonEmpty(xs: seq<string>): (r: seq<string>)
    ensures |r| <= |xs|
    ensures forall i :: 0 <= i < |r| ==> r[i] != []
    decreases |xs|
  {
    if |xs| == 0 then []
    else
      var rest := NonEmpty(xs[1..]);
      if xs[0] == [] then rest
      else
        var r := [xs[0]] + rest;
        assert forall i :: 1 <= i < |r| ==> r[i] == rest[i - 1];
        r
  }

  /** Decodes every line; `None` as soon as one line does not decode. */
  function ParseAll(lib: Lib, lines: seq<string>): (r: Option<seq<Json>>)
    ensures r.Some? <==> forall i :: 0 <= i < |lines| ==> lib.parse(lines[i]).Some?
    ensures r.Some? ==> (|r.value| == |lines|
      && forall i :: 0 <= i < |lines| ==> r.value[i] == lib.parse(lines[i]).value)
    decreases |lines|
  {
    if |lines| == 0 then Some([])
    else
      match lib.parse(lines[0])
      case None => None
      case Some(v) =>
        match ParseAll(lib, lines[1..])
        case None => None
        case Some(vs) => Some([v] + vs)
  }

  /**
   * `fetch_json` of the finder: only a 200 reply is decoded; a body that is
   * not one JSON document is read as NDJSON when every non-blank line
   * decodes, and otherwise as the lines joined into one array.
   */
  function FetchJson(lib: Lib, reply: Reply): (r: Option<Json>)
    ensures !(reply.Got? && reply.status == 200) ==> r.None?
    ensures reply.Got? && reply.status == 200 && lib.parse(reply.text).Some? ==>
      r == lib.parse(reply.text)
    ensures reply.Got? && reply.status == 200 && lib.parse(reply.text).None? ==>
      var lines := StrippedLines(reply.text);
      (lines != [] && (forall i :: 0 <= i < |lines| ==> lib.parse(lines[i]).Some?) ==>
        r == Some(JArr(seq(|lines|, i requires 0 <= i < |lines| => lib.parse(lines[i]).value))))
      && (lines == [] ==> r.None?)
      && ((exists i :: 0 <= i < |lines| && lib.parse(lines[i]).None?) ==>
        var joined := lib.parse("[" + Join(",", lines) + "]");
        r == if joined.Some? && joined.value.JArr? then joined else None)
  {
    match reply
    case Failed => None
    case Got(status, text) =>
      if status != 200 then None
      else
        match lib.parse(text)
        case Some(v) => Some(v)
        case None =>
          var lines := StrippedLines(text);
          var objs := ParseAll(lib, lines);
          if objs.Some? && objs.value != [] then
            assert objs.value == seq(|lines|, i requires 0 <= i < |lines| => lib.parse(lines[i]).value);
            Some(JArr(objs.value))
          else if lines == [] then None
          else
            match lib.parse("[" + Join(",", lines) + "]")
            case Some(JArr(xs)) => Some(JArr(xs))
            case _ => None
  }

  // ---------------------------------------------------------------------
  // The whole IBGE route

  /** Whether the worker raises on a record, as a value. */
  function WorkerRaises(lib: Lib, get: Server): (bad: Json -> bool)
    ensures forall x :: bad(x) == IbgeWorker(lib, get, x).None?
  {
    x => IbgeWorker(lib, get, x).None?
  }

  /** The rows the worker reports for a record, as a value. */
  function WorkerRows(lib: Lib, get: Server): (f: Json -> seq<Found>)
    ensures forall x :: IbgeWorker(lib, get, x).Some? ==> f(x) == IbgeWorker(lib, get, x).value
  {
    x => IbgeWorker(lib, get, x).GetOr([])
  }

  /**
   * The rows the workers report over the records, in record order; `None`
   * if one raises. Its pieces are the workers' own rows: see
   * `ReportAllSingle` and `ReportAllAppend`.
   */
  function ReportAll(lib: Lib, get: Server, items: seq<Json>): (r: Option<seq<Found>>)
    ensures r.Some? <==> forall i :: 0 <= i < |items| ==> IbgeWorker(lib, get, items[i]).Some?
    ensures r.Some? ==> forall f :: f in r.value ==> f.saplUrl != "" && f.httpStatus == 200
    ensures r.Some? ==> forall i, f :: 0 <= i < |items| && f in IbgeWorker(lib, get, items[i]).value ==> f in r.value
    ensures r.Some? ==> |r.value| <= 2 * |items|
  {
    ConcatUnlessBound(items, WorkerRaises(lib, get), WorkerRows(lib, get), 2);
    ReportedRowsConfirmed(lib, get, items);
    ConcatUnless(items, WorkerRaises(lib, get), WorkerRows(lib, get))
  }

  lemma ReportedRowsConfirmed(lib: Lib, get: Server, items: seq<Json>)
    ensures var r := ConcatUnless(items, WorkerRaises(lib, get), WorkerRows(lib, get));
      r.Some? ==> forall f :: f in r.value ==> f.saplUrl != "" && f.httpStatus == 200
  {
    var bad, rows := WorkerRaises(lib, get), WorkerRows(lib, get);
    var r := ConcatUnless(items, bad, rows);
    if r.Some? {
      forall f | f in r.value ensures f.saplUrl != "" && f.httpStatus == 200 {
        var i :| 0 <= i < |items| && f in rows(items[i]);
        assert f in IbgeWorker(lib, get, items[i]).value;
      }
    }
  }

  /** A single record reports exactly what its worker reports. */
  lemma ReportAllSingle(lib: Lib, get: Server, item: Json)
    ensures ReportAll(lib, get, [item]) == IbgeWorker(lib, get, item)
  {
    if IbgeWorker(lib, get, item).Some? {
      ConcatUnlessSingle(item, WorkerRaises(lib, get), WorkerRows(lib, get));
    }
  }

  /**
   * Reporting over two batches is reporting over each in turn: the rows are
   * concatenated in record order, and one raising worker makes the whole
   * run raise.
   */
  lemma ReportAllAppend(lib: Lib, get: Server, a: seq<Json>, b: seq<Json>)
    ensures ReportAll(lib, get, a + b) ==
      if ReportAll(lib, get, a).Some? && ReportAll(lib, get, b).Some?
      then Some(ReportAll(lib, get, a).value + ReportAll(lib, get, b).value)
      else None
  {
    ConcatUnlessAppend(a, b, WorkerRaises(lib, get), WorkerRows(lib, get));
  }

  /** How a discovery route ends: it raised, or the reported rows and the returned list. */
  datatype Outcome = Raised | Done(reported: seq<Found>, results: seq<Found>)

  /**
   * `discover_by_ibge`: nothing when the municipality list cannot be
   * fetched or is empty; otherwise every record is worked (in record order
   * here) and the reported rows are filtered by `dedupe_results`.
   */
  function DiscoverByIbge(lib: Lib, get: Server): (r: Outcome)
    ensures var data := FetchJson(lib, get(IbgeEndpoint));
      (data.None? || !Truthy(data.value)) ==> r == Done([], [])
    ensures var data := FetchJson(lib, get(IbgeEndpoint));
      data.Some? && Truthy(data.value) && !data.value.JArr? ==> r.Raised?
    ensures r.Done? ==> r.results == DedupeResults(r.reported)
    ensures r.Done? ==> forall f :: f in r.results ==> f in r.reported
    ensures var data := FetchJson(lib, get(IbgeEndpoint));
      data.Some? && data.value.JArr? && data.value.items != [] ==>
        (r.Raised? <==> ReportAll(lib, get, data.value.items).None?)
        && (r.Done? ==> r.reported == ReportAll(lib, get, data.value.items).value)
  {
    var data := FetchJson(lib, get(IbgeEndpoint));
    if data.None? || !Truthy(data.value) then Done([], [])
    else if !data.value.JArr? then Raised
    else
      match ReportAll(lib, get, data.value.items)
      case None => Raised
      case Some(rows) => Done(rows, DedupeResults(rows))
  }
}

=== FILE: environment.dfy ===
/**
 * What the pipeline takes from outside: HTTP replies, and the library
 * routines it calls but does not define (JSON decoding, URL joining,
 * Unicode decomposition, `int()` on strings, and two regular-expression
 * scans whose engines are not modelled).
 */
module Environment {
  import opened Wrappers
  import opened JsonValue

  /** An HTTP GET: the transport failed, or a status code and the decoded body. */
  datatype Reply = Failed | Got(status: int, text: string)

  /** The server, as a function from request URL to reply. */
  type Server = string -> Reply

  /** Library behaviour the model is parameterised by. */
  datatype Lib = Lib(
    /** `json.loads`; `None` when it raises. */
    parse: string -> Option<Json>,
    /** `urllib.parse.urljoin(base, ref)`. */
    join: (string, string) -> string,
    /** NFKD decomposition of one character with the combining marks dropped. */
    fold: char -> string,
    /** `int(s)` on a string; `None` when it raises. */
    parseInt: string -> Option<int>,
    /** The matches of the `sapl.<...>.leg.br` host pattern in a page, in page order. */
    scanHosts: string -> seq<string>,
    /** The captured targets of `href="..."` attributes in a page, in page order. */
    scanHrefs: string -> seq<string>)

  /** `"".join(c for c in normalize("NFKD", s) if not combining(c))`. */
  function Fold(lib: Lib, s: string): (r: string)
    ensures (forall c :: lib.fold(c) == [c]) ==> r == s
    decreases |s|
  {
    if |s| == 0 then [] else Fold(lib, s[..|s| - 1]) + lib.fold(s[|s| - 1])
  }

  /** The most characters of a page body `try_get` keeps. */
  const BodyLimit: nat := 20000

  /**
   * `try_get`: a transport error becomes status 0 with an empty body; a
   * body is cut to its first 20000 characters.
   */
  function TryGet(r: Reply): (p: (int, string))
    ensures r.Failed? ==> p == (0, "")
    ensures r.Got? ==> p.0 == r.status
    ensures r.Got? ==> |p.1| == (if |r.text| <= BodyLimit then |r.text| else BodyLimit)
    ensures r.Got? ==> p.1 == r.text[..|p.1|]
  {
    match r
    case Failed => (0, "")
    case Got(status, text) => (status, if |text| <= BodyLimit then text else text[..BodyLimit])
  }
}

=== FILE: experiment_output.dfy ===
/**
 * The experimental extraction's two JSONL writers: the one keyed like
 * `PLWriter` by base and matter id (`experiments/tools/sapl_scrapper/output.py`),
 * the one keyed by the whole record (`.../utils/output.py`), and the latter's
 * `dedupe_file`, which rewrites a finished file keeping one line per value.
 */
module ExperimentOutput {
  import opened Wrappers
  import opened JsonValue
  import Text
  import Environment
  import Dedup
  import ScrapeOutput

  /** A JSONL writer: the keys seen, and the records written in order (`count` is their number). */
  type Writer<K(==)> = Dedup.Log<K, Obj>

  /** What `write` returns along with the new writer state. */
  datatype Written<K(==)> = Written(w: Writer<K>, wrote: bool)

  // ---------------------------------------------------------------------
  // The writer keyed by base and matter id

  /** `JsonlWriter.write` in `output.py`: `True` exactly when the record was written. */
  function WriteById(w: Writer<string>, row: Obj): (r: Written<string>)
    ensures r.wrote <==> ScrapeOutput.PlKey(row).Some? && ScrapeOutput.PlKey(row).value !in w.seen
    ensures !r.wrote ==> r.w == w
    ensures r.wrote ==> r.w.rows == w.rows + [row] && r.w.count == w.count + 1
    ensures Dedup.Consistent(w) ==> Dedup.Consistent(r.w)
  {
    var step := Dedup.Accept(w, ScrapeOutput.PlKey(row), row);
    Written(step.log, step.accepted)
  }

  /** The records of a run offered one after another. */
  function WriteAllById(w: Writer<string>, rows: seq<Obj>): (r: Writer<string>)
    ensures Dedup.Consistent(w) ==> Dedup.Consistent(r)
    decreases |rows|
  {
    if |rows| == 0 then w else WriteById(WriteAllById(w, rows[..|rows| - 1]), rows[|rows| - 1]).w
  }

  /** Writing two batches one after the other is writing their concatenation. */
  lemma {:induction false} WriteAllByIdAppend(w: Writer<string>, a: seq<Obj>, b: seq<Obj>)
    ensures WriteAllById(WriteAllById(w, a), b) == WriteAllById(w, a + b)
    decreases |b|
  {
    if |b| > 0 {
      var b0 := b[..|b| - 1];
      WriteAllByIdAppend(w, a, b0);
      assert (a + b)[..|a + b| - 1] == a + b0;
    } else {
      assert a + b == a;
    }
  }

  /**
   * `count` after a run is the number of distinct keys among the records
   * offered, and the file holds the first record of each key, in order.
   */
  lemma {:induction false} CountIsDistinctIds(rows: seq<Obj>)
    ensures WriteAllById(Dedup.Empty(), rows).rows == Dedup.FirstOccurrences(ScrapeOutput.KeyEntries(rows))
    ensures WriteAllById(Dedup.Empty(), rows).count == |Dedup.KeysOf(ScrapeOutput.KeyEntries(rows))|
    decreases |rows|
  {
    var es := ScrapeOutput.KeyEntries(rows);
    if |rows| > 0 {
      var init := rows[..|rows| - 1];
      CountIsDistinctIds(init);
      assert es[..|es| - 1] == ScrapeOutput.KeyEntries(init);
      Dedup.AcceptAllIsFirstOccurrences(ScrapeOutput.KeyEntries(init));
    }
    Dedup.AcceptAllIsFirstOccurrences(es);
    WriteAllByIdIsAcceptAll(rows);
  }

  lemma {:induction false} WriteAllByIdIsAcceptAll(rows: seq<Obj>)
    ensures WriteAllById(Dedup.Empty(), rows) == Dedup.AcceptAll(Dedup.Empty(), ScrapeOutput.KeyEntries(rows))
    decreases |rows|
  {
    if |rows| > 0 {
      var init := rows[..|rows| - 1];
      WriteAllByIdIsAcceptAll(init);
      assert ScrapeOutput.KeyEntries(rows)[..|rows| - 1] == ScrapeOutput.KeyEntries(init);
    }
  }

  // ---------------------------------------------------------------------
  // The writer keyed by the whole record

  /**
   * `_key` in `utils/output.py`: `json.dumps(row, sort_keys=True)`, which
   * identifies two records exactly when they are the same value; a JSON
   * value always serialises, so the key is never missing.
   */
  function ValueKey(row: Obj): (k: Option<Json>)
    ensures k.Some?
  {
    Some(JObj(row))
  }

  /** The canonical key identifies records exactly: equal keys, equal records. */
  lemma ValueKeyIdentifies(a: Obj, b: Obj)
    ensures ValueKey(a) == ValueKey(b) <==> a == b
  {
  }

  /** `JsonlWriter.write` in `utils/output.py`. */
  function WriteByValue(w: Writer<Json>, row: Obj): (r: Written<Json>)
    ensures r.wrote <==> JObj(row) !in w.seen
    ensures !r.wrote ==> r.w == w
    ensures r.wrote ==> r.w.rows == w.rows + [row] && r.w.count == w.count + 1
    ensures Dedup.Consistent(w) ==> Dedup.Consistent(r.w)
  {
    var step := Dedup.Accept(w, ValueKey(row), row);
    Written(step.log, step.accepted)
  }

  function WriteAllByValue(w: Writer<Json>, rows: seq<Obj>): (r: Writer<Json>)
    ensures Dedup.Consistent(w) ==> Dedup.Consistent(r)
    decreases |rows|
  {
    if |rows| == 0 then w else WriteByValue(WriteAllByValue(w, rows[..|rows| - 1]), rows[|rows| - 1]).w
  }

  function ValueEntries(rows: seq<Obj>): (es: seq<Dedup.Entry<Json, Obj>>)
    ensures |es| == |rows|
    ensures forall i :: 0 <= i < |rows| ==> es[i] == Dedup.Entry(ValueKey(rows[i]), rows[i])
  {
    seq(|rows|, i requires 0 <= i < |rows| => Dedup.Entry(ValueKey(rows[i]), rows[i]))
  }

  lemma {:induction false} WriteAllByValueIsAcceptAll(rows: seq<Obj>)
    ensures WriteAllByValue(Dedup.Empty(), rows) == Dedup.AcceptAll(Dedup.Empty(), ValueEntries(rows))
    decreases |rows|
  {
    if |rows| > 0 {
      var init := rows[..|rows| - 1];
      WriteAllByValueIsAcceptAll(init);
      assert ValueEntries(rows)[..|rows| - 1] == ValueEntries(init);
    }
  }

  /**
   * The value-keyed writer writes the first arrival of each distinct
   * record, in order, and no record twice.
   */
  lemma WriteByValueKeepsDistinct(rows: seq<Obj>)
    ensures WriteAllByValue(Dedup.Empty(), rows).rows == Dedup.FirstOccurrences(ValueEntries(rows))
    ensures forall i, j :: 0 <= i < j < |WriteAllByValue(Dedup.Empty(), rows).rows| ==>
      WriteAllByValue(Dedup.Empty(), rows).rows[i] != WriteAllByValue(Dedup.Empty(), rows).rows[j]
  {
    var es := ValueEntries(rows);
    WriteAllByValueIsAcceptAll(rows);
    Dedup.AcceptAllIsFirstOccurrences(es);
    Dedup.FirstOccurrencesDistinct(es, ValueKey);
  }

  /** Every record offered is in the file: dropping is only of repeats. */
  lemma WriteByValueKeepsEvery(rows: seq<Obj>)
    ensures forall x :: x in rows ==> x in WriteAllByValue(Dedup.Empty(), rows).rows
  {
    var es := ValueEntries(rows);
    WriteAllByValueIsAcceptAll(rows);
    Dedup.AcceptAllIsFirstOccurrences(es);
    Dedup.FirstOccurrencesCover(es, ValueKey);
    var out := WriteAllByValue(Dedup.Empty(), rows).rows;
    forall x | x in rows ensures x in out {
      var i :| 0 <= i < |rows| && rows[i] == x;
      assert es[i].key.Some?;
    }
  }

  // ---------------------------------------------------------------------
  // dedupe_file

  /**
   * The identity of a line: the canonical dump of the value it parses to,
   * or the stripped text itself when it does not parse. The two never
   * meet, since every canonical dump parses.
   */
  datatype LineKey = ValueOf(v: Json) | TextOf(line: string)

  /** What is written back for a kept line: a dict re-dumped, anything else as stripped. */
  datatype OutLine = DictLine(obj: Obj) | SameLine(text: string)

  /** A line with the identity it is kept under (none for a blank line). */
  datatype Kept = Kept(key: Option<LineKey>, line: OutLine)

  /** The entry one line of the file contributes: none for a blank line. */
  function LineEntry(lib: Environment.Lib, raw: string): (e: Dedup.Entry<LineKey, Kept>)
    ensures e.key.None? <==> Text.Strip(raw) == []
    ensures e.row.key == e.key
    ensures e.key.Some? && lib.parse(Text.Strip(raw)).None? ==>
      e.row == Kept(Some(TextOf(Text.Strip(raw))), SameLine(Text.Strip(raw)))
    ensures e.key.Some? && lib.parse(Text.Strip(raw)).Some? ==>
      e.key == Some(ValueOf(lib.parse(Text.Strip(raw)).value))
      && (lib.parse(Text.Strip(raw)).value.JObj? ==> e.row.line == DictLine(lib.parse(Text.Strip(raw)).value.fields))
      && (!lib.parse(Text.Strip(raw)).value.JObj? ==> e.row.line == SameLine(Text.Strip(raw)))
  {
    var line := Text.Strip(raw);
    if line == [] then Dedup.Entry(None, Kept(None, SameLine(line)))
    else match lib.parse(line)
      case None => Dedup.Entry(Some(TextOf(line)), Kept(Some(TextOf(line)), SameLine(line)))
      case Some(v) =>
        var out := if v.JObj? then DictLine(v.fields) else SameLine(line);
        Dedup.Entry(Some(ValueOf(v)), Kept(Some(ValueOf(v)), out))
  }

  function LineEntries(lib: Environment.Lib, lines: seq<string>): (es: seq<Dedup.Entry<LineKey, Kept>>)
    ensures |es| == |lines|
    ensures forall i :: 0 <= i < |lines| ==> es[i] == LineEntry(lib, lines[i])
  {
    seq(|lines|, i requires 0 <= i < |lines| => LineEntry(lib, lines[i]))
  }

  /** The identity a line is kept under. */
  function KeyOfKept(k: Kept): Option<LineKey> {
    k.key
  }

  /**
   * What `dedupe_file` keeps carries pairwise distinct identities, and every
   * non-blank line's identity is among them.
   */
  lemma DedupeKeepsOnePerIdentity(lib: Environment.Lib, lines: seq<string>)
    ensures var out := Dedup.FirstOccurrences(LineEntries(lib, lines));
      forall i, j :: 0 <= i < j < |out| ==> out[i].key != out[j].key
    ensures var out := Dedup.FirstOccurrences(LineEntries(lib, lines));
      forall i :: 0 <= i < |lines| && Text.Strip(lines[i]) != [] ==>
        exists y :: y in out && y.key == LineEntry(lib, lines[i]).key
  {
    var es := LineEntries(lib, lines);
    Dedup.FirstOccurrencesDistinct(es, KeyOfKept);
    Dedup.FirstOccurrencesCover(es, KeyOfKept);
  }

  /**
   * `dedupe_file`: the lines of the finished file in order, keeping the
   * first line of each identity and skipping blank ones; returns the
   * lines written and their count.
   */
  method DedupeFile(lib: Environment.Lib, lines: seq<string>) returns (out: seq<Kept>, kept: nat)
    ensures out == Dedup.FirstOccurrences(LineEntries(lib, lines))
    ensures kept == |out|
  {
    ghost var es := LineEntries(lib, lines);
    var seen: set<LineKey> := {};
    out := [];
    kept := 0;
    var i := 0;
    while i < |lines|
      invariant 0 <= i <= |lines|
      invariant Dedup.Log(seen, out, kept) == Dedup.AcceptAll(Dedup.Empty(), es[..i])
    {
      Dedup.AcceptAllStep(Dedup.Empty(), es, i);
      var line := Text.Strip(lines[i]);
      if line != [] {
        var key: LineKey;
        var written: OutLine;
        match lib.parse(line) {
          case None =>
            key := TextOf(line);
            written := SameLine(line);
          case Some(v) =>
            key := ValueOf(v);
            written := if v.JObj? then DictLine(v.fields) else SameLine(line);
        }
        assert es[i] == Dedup.Entry(Some(key), Kept(Some(key), written));
        if key !in seen {
          seen := seen + {key};
          out := out + [Kept(Some(key), written)];
          kept := kept + 1;
        }
      } else {
        assert es[i].key.None?;
      }
      i := i + 1;
    }
    assert es[..|lines|] == es;
    Dedup.AcceptAllIsFirstOccurrences(es);
  }
}

=== FILE: extraction.dfy ===
/**
 * The extraction engine (`sapl_scrapper/scraper.py`, and its experiments
 * copy `experiments/tools/sapl_scrapper/utils/scraper.py`): deriving the
 * base of a SAPL instance from the url the finder reported, normalising
 * type labels and keeping the "projeto de lei" types, choosing the
 * matter endpoint, building one record per matter, and walking every
 * kept type through the pager.
 */
module Extraction {
  import opened Wrappers
  import opened Text
  import opened JsonValue
  import opened Environment
  import opened Pagination

  // ---------------------------------------------------------------------
  // base_from_sapl_url

  predicate IsScheme(s: string) {
    s == "http://" || s == "https://"
  }

  /** The least index at or after `i` holding `c`, or `|s|` when there is none. */
  function IndexFrom(s: string, c: char, i: nat): (k: nat)
    requires i <= |s|
    ensures i <= k <= |s|
    ensures k < |s| ==> s[k] == c
    ensures forall j :: i <= j < k ==> s[j] != c
    decreases |s| - i
  {
    if i == |s| || s[i] == c then i else IndexFrom(s, c, i + 1)
  }

  /** What `re.match(r"^(https?://[^/]+)(/.*)?$", url)` gives: no match, or the two groups. */
  datatype UrlMatch = NoMatch | Match(root: string, path: string)

  /**
   * The decomposition the pattern accepts: a scheme, a non-empty host
   * without `/` (`[^/]+` also takes line breaks), and either nothing more
   * or a path that starts with `/` and has no line break (`.` stops at
   * one), optionally followed by one final line break (which `$` allows).
   */
  predicate Shaped(url: string, root: string, path: string) {
    && (exists n :: 0 < n < |root| && IsScheme(root[..n]) && forall j :: n <= j < |root| ==> root[j] != '/')
    && (path == [] ==> url == root)
    && (path != [] ==> path[0] == '/' && '\n' !in path && (url == root + path || url == root + path + "\n"))
  }

  /** The regular-expression match of `base_from_sapl_url`, written out. */
  function MatchUrl(url: string): (r: UrlMatch)
    ensures r.Match? ==> Shaped(url, r.root, r.path)
  {
    var n := if StartsWith(url, "https://") then 8 else if StartsWith(url, "http://") then 7 else 0;
    if n == 0 then NoMatch
    else
      assert IsScheme(url[..n]);
      var h := IndexFrom(url, '/', n);
      if h == n then NoMatch
      else if h == |url| then Match(url, [])
      else
        var e := IndexFrom(url, '\n', h);
        if e == |url| || e == |url| - 1 then
          var root, path := url[..h], url[h..e];
          assert root[..n] == url[..n];
          assert forall j :: 0 <= j < |path| ==> path[j] == url[h + j];
          assert path[0] == '/';
          if e == |url| then
            assert url == root + path;
            Match(root, path)
          else
            assert url == root + path + [url[e]];
            Match(root, path)
        else NoMatch
  }

  /** `IndexFrom` is characterised by where the search stops. */
  lemma IndexFromStops(s: string, c: char, i: nat, k: nat)
    requires i <= k <= |s|
    requires forall j :: i <= j < k ==> s[j] != c
    requires k < |s| ==> s[k] == c
    ensures IndexFrom(s, c, i) == k
  {
  }

  /** The scheme test of `MatchUrl` picks the scheme a shaped root starts with. */
  lemma SchemeOfShaped(url: string, root: string, n: nat)
    requires 0 < n < |root| <= |url| && url[..|root|] == root && IsScheme(root[..n])
    ensures n == if StartsWith(url, "https://") then 8 else if StartsWith(url, "http://") then 7 else 0
  {
    assert url[..n] == root[..n];
    if root[..n] == "http://" {
      assert url[4] == root[..n][4];
    }
  }

  /** Whenever a url has the accepted shape, the match finds exactly that decomposition. */
  lemma MatchUrlComplete(url: string, root: string, path: string)
    requires Shaped(url, root, path)
    ensures MatchUrl(url) == Match(root, path)
  {
    var n :| 0 < n < |root| && IsScheme(root[..n]) && forall j :: n <= j < |root| ==> root[j] != '/';
    ShapedLayout(url, root, path);
    SchemeOfShaped(url, root, n);
    HostStops(url, root, n);
    if path != [] {
      assert url[|root|..|root| + |path|] == path by {
        assert url[|root|..|root| + |path|] == url[..|root| + |path|][|root|..];
      }
      PathStops(url, |root|, path);
    }
  }

  /** Where the parts of a shaped url sit in it. */
  lemma ShapedLayout(url: string, root: string, path: string)
    requires Shaped(url, root, path)
    ensures |root| <= |url| && url[..|root|] == root
    ensures path == [] ==> url == root
    ensures path != [] ==> (|root| + |path| <= |url| <= |root| + |path| + 1
      && url[..|root| + |path|] == root + path && url[|root|] == '/'
      && (|url| == |root| + |path| + 1 ==> url[|url| - 1] == '\n'))
  {
    if path != [] {
      assert (root + path)[|root|] == path[0];
      if url == root + path + "\n" {
        assert url[..|root| + |path|] == root + path;
      }
    }
  }

  /** The host of a shaped url ends where the root does. */
  lemma HostStops(url: string, root: string, n: nat)
    requires 0 < n < |root| <= |url| && url[..|root|] == root
    requires forall j :: n <= j < |root| ==> root[j] != '/'
    requires |root| < |url| ==> url[|root|] == '/'
    ensures IndexFrom(url, '/', n) == |root|
  {
    assert forall j :: n <= j < |root| ==> url[j] == root[j];
    IndexFromStops(url, '/', n, |root|);
  }

  /** The path of a shaped url ends at its final line break, or at the end. */
  lemma PathStops(url: string, start: nat, path: string)
    requires '\n' !in path
    requires start + |path| <= |url| <= start + |path| + 1
    requires url[start..start + |path|] == path
    requires |url| == start + |path| + 1 ==> url[|url| - 1] == '\n'
    ensures IndexFrom(url, '\n', start) == start + |path|
  {
    forall j | start <= j < start + |path| ensures url[j] != '\n' {
      assert url[j] == path[j - start];
    }
    IndexFromStops(url, '\n', start, start + |path|);
  }

  /** The two groups of a match together are the url, less the final line break the pattern allows. */
  lemma MatchSpansUrl(url: string)
    requires MatchUrl(url).Match?
    ensures var m := MatchUrl(url); |m.root + m.path| <= |url| && url[..|m.root + m.path|] == m.root + m.path
  {
    var m := MatchUrl(url);
    assert Shaped(url, m.root, m.path);
  }

  /** A root followed by a prefix of a path that starts the url also starts the url. */
  lemma RootPrefixOfUrl(url: string, root: string, path: string, prefix: string)
    requires |root + path| <= |url| && url[..|root + path|] == root + path
    requires |prefix| <= |path| && path[..|prefix|] == prefix
    ensures |root + prefix| <= |url| && url[..|root + prefix|] == root + prefix
  {
    assert (root + path)[..|root + prefix|] == root + prefix;
  }

  /** A prefix of a prefix of the url is a prefix of the url. */
  lemma PrefixThrough(url: string, x: string, y: string)
    requires |x| <= |url| && url[..|x|] == x
    requires |y| <= |x| && x[..|y|] == y
    ensures url[..|y|] == y
  {
    assert url[..|y|] == url[..|x|][..|y|];
  }

  /**
   * `base_from_sapl_url`: the matched root followed by the path up to the
   * first `/materia/`, or the whole path when it has none; a url the
   * pattern rejects is kept as a whole. Trailing slashes are dropped.
   */
  function BaseFromSaplUrl(url: string): (b: string)
    ensures |b| <= |url| && b == url[..|b|]
    ensures |b| == 0 || b[|b| - 1] != '/'
    ensures MatchUrl(url).NoMatch? ==> b == RStripSlash(url)
    ensures MatchUrl(url).Match? && !Contains(MatchUrl(url).path, "/materia/") ==>
      b == RStripSlash(MatchUrl(url).root + MatchUrl(url).path)
  {
    match MatchUrl(url)
    case NoMatch => RStripSlash(url)
    case Match(root, path) =>
      var idx := Find(path, "/materia/");
      var prefix := if idx >= 0 then path[..idx] else path;
      MatchSpansUrl(url);
      RootPrefixOfUrl(url, root, path, prefix);
      var b := RStripSlash(root + prefix);
      PrefixThrough(url, root + prefix, b);
      b
  }

  /**
   * The base is the url cut just before its first `/materia/`, with
   * trailing slashes dropped: both docstring examples are instances.
   */
  lemma BaseCutsAtFirstMateria(scheme: string, host: string, prefix: string, rest: string)
    requires IsScheme(scheme) && host != [] && '/' !in host
    requires prefix == [] || prefix[0] == '/'
    requires '\n' !in prefix && '\n' !in rest
    requires !Contains(prefix + "/materia", "/materia/")
    ensures BaseFromSaplUrl(scheme + host + prefix + "/materia/" + rest) == RStripSlash(scheme + host + prefix)
  {
    var root := scheme + host;
    var path := prefix + "/materia/" + rest;
    var url := scheme + host + prefix + "/materia/" + rest;
    assert url == root + path;
    NoBreakInPath(prefix, rest);
    RootShaped(scheme, host, path);
    MatchUrlComplete(url, root, path);
    FirstMateriaAfterPrefix(prefix, rest);
    assert path[..|prefix|] == prefix;
    assert root + prefix == scheme + host + prefix;
  }

  /**
   * Without any `/materia/` in the path the whole url is the base, with
   * trailing slashes dropped: `https://host/sapl/` gives `https://host/sapl`.
   */
  lemma BaseKeepsPathWithoutMateria(scheme: string, host: string, path: string)
    requires IsScheme(scheme) && host != [] && '/' !in host
    requires path == [] || path[0] == '/'
    requires '\n' !in path
    requires !Contains(path, "/materia/")
    ensures BaseFromSaplUrl(scheme + host + path) == RStripSlash(scheme + host + path)
  {
    var root := scheme + host;
    assert scheme + host + path == root + path;
    RootShaped(scheme, host, path);
    MatchUrlComplete(root + path, root, path);
  }

  /** A path built from break-free parts has no line break. */
  lemma NoBreakInPath(prefix: string, rest: string)
    requires '\n' !in prefix && '\n' !in rest
    ensures '\n' !in prefix + "/materia/" + rest
  {
    var path := prefix + "/materia/" + rest;
    forall j | 0 <= j < |path| ensures path[j] != '\n' {
      if j < |prefix| {
        assert path[j] == prefix[j];
      } else if j >= |prefix| + 9 {
        assert path[j] == rest[j - |prefix| - 9];
      }
    }
  }

  /** A scheme, a host without `/` and a break-free path starting with `/` have the accepted shape. */
  lemma RootShaped(scheme: string, host: string, path: string)
    requires IsScheme(scheme) && host != [] && '/' !in host
    requires (path == [] || path[0] == '/') && '\n' !in path
    ensures Shaped(scheme + host + path, scheme + host, path)
  {
    var root := scheme + host;
    assert root + [] == root;
    assert root[..|scheme|] == scheme;
    assert forall j :: |scheme| <= j < |root| ==> root[j] == host[j - |scheme|];
  }

  /** When the prefix and the start of the marker hold no `/materia/`, the first one follows the prefix. */
  lemma FirstMateriaAfterPrefix(prefix: string, rest: string)
    requires !Contains(prefix + "/materia", "/materia/")
    ensures Find(prefix + "/materia/" + rest, "/materia/") == |prefix|
  {
    var path := prefix + "/materia/" + rest;
    assert OccursAt(path, "/materia/", |prefix|) by {
      assert path[|prefix|..|prefix| + 9] == "/materia/";
    }
    forall k: nat | k < |prefix| ensures !OccursAt(path, "/materia/", k) {
      assert !OccursAt(prefix + "/materia", "/materia/", k);
      assert path[k..k + 9] == (prefix + "/materia")[k..k + 9];
    }
  }

  // ---------------------------------------------------------------------
  // Label normalisation and the type filter

  /** The characters `re.sub(r"[^a-z0-9 ]+", " ", s)` leaves alone. */
  predicate Kept(c: char) {
    IsAsciiLowerAlnum(c) || c == ' '
  }

  /** `re.sub(r"[^a-z0-9 ]+", " ", s)`: every maximal run of other characters becomes one space. */
  function Collapse(s: string): (r: string)
    ensures |r| <= |s|
    ensures forall i :: 0 <= i < |r| ==> Kept(r[i])
    decreases |s|
  {
    if |s| == 0 then []
    else
      var init := s[..|s| - 1];
      var c := s[|s| - 1];
      if Kept(c) then Collapse(init) + [c]
      else if |s| >= 2 && !Kept(s[|s| - 2]) then Collapse(init)
      else Collapse(init) + [' ']
  }

  /** A text already in `[a-z0-9 ]` is left as it is. */
  lemma {:induction false} CollapseOfKept(s: string)
    requires forall i :: 0 <= i < |s| ==> Kept(s[i])
    ensures Collapse(s) == s
    decreases |s|
  {
    if |s| > 0 {
      CollapseOfKept(s[..|s| - 1]);
      assert s == s[..|s| - 1] + [s[|s| - 1]];
    }
  }

  /** Collapsing keeps every letter and digit, in order. */
  lemma {:induction false} CollapseKeepsAlnum(s: string)
    ensures Filter(Collapse(s), IsAsciiLowerAlnum) == Filter(s, IsAsciiLowerAlnum)
    decreases |s|
  {
    if |s| > 0 {
      var init := s[..|s| - 1];
      var c := s[|s| - 1];
      CollapseKeepsAlnum(init);
      var ci := Collapse(init);
      assert (ci + [c])[..|ci|] == ci;
      assert (ci + [' '])[..|ci|] == ci;
    }
  }

  /**
   * `norm`: NFKD decomposition, non-ASCII characters dropped, lower-cased,
   * and runs outside `[a-z0-9 ]` replaced by one space.
   */
  function Norm(lib: Lib, txt: string): (r: string)
    ensures forall i :: 0 <= i < |r| ==> Kept(r[i])
  {
    Collapse(Lower(Filter(Fold(lib, txt), IsAscii)))
  }

  /** On a plain label (letters, digits and spaces, nothing to decompose) `norm` only lower-cases. */
  lemma NormOfPlainLabel(lib: Lib, txt: string)
    requires forall c :: lib.fold(c) == [c]
    requires forall i :: 0 <= i < |txt| ==> Kept(LowerChar(txt[i])) && IsAscii(txt[i])
    ensures Norm(lib, txt) == Lower(txt)
  {
    FilterAllOrNone(txt, IsAscii);
    CollapseOfKept(Lower(txt));
  }

  /** `" ".join(str(t.get(k, "")) for k in ("sigla", "descricao", "nome"))`. */
  function Label(t: Obj): string {
    PyStr(GetOr(t, "sigla", JStr(""))) + " " + PyStr(GetOr(t, "descricao", JStr(""))) + " "
      + PyStr(GetOr(t, "nome", JStr("")))
  }

  predicate IsPlType(lib: Lib, t: Obj) {
    Contains(Norm(lib, Label(t)), "projeto de lei")
  }

  /** A kept type: `{"id": t.get("id") or t.get("pk"), "rotulo": label}`. */
  datatype PlType = PlType(id: Json, rotulo: string)

  function ToPlType(t: Obj): (p: PlType)
    ensures Truthy(Get(t, "id")) ==> p.id == t["id"]
    ensures !Truthy(Get(t, "id")) ==> p.id == Get(t, "pk")
  {
    PlType(Or(Get(t, "id"), Get(t, "pk")), Label(t))
  }

  /** The tail of `list_tipos_pl`: the types whose normalised label mentions "projeto de lei", in listing order. */
  function KeepPlTypes(lib: Lib, ts: seq<Obj>): (r: seq<PlType>)
    ensures |r| <= |ts|
    ensures forall p :: p in r ==> exists t :: t in ts && IsPlType(lib, t) && p == ToPlType(t)
    ensures forall t :: t in ts && IsPlType(lib, t) ==> ToPlType(t) in r
  {
    var r := KeepAs(ts, t => IsPlType(lib, t), ToPlType);
    assert forall p :: p in r ==> exists t :: t in ts && IsPlType(lib, t) && p == ToPlType(t);
    r
  }

  /** `[f(x) for x in xs if keep(x)]`. */
  function KeepAs<A, B>(xs: seq<A>, keep: A -> bool, f: A -> B): (r: seq<B>)
    ensures |r| <= |xs|
    ensures forall y :: y in r ==> exists x :: x in xs && keep(x) && y == f(x)
    ensures forall x :: x in xs && keep(x) ==> f(x) in r
    decreases |xs|
  {
    if |xs| == 0 then []
    else
      var init := xs[..|xs| - 1];
      var x := xs[|xs| - 1];
      assert forall z :: z in init ==> z in xs;
      assert forall z :: z in xs ==> z in init || z == x;
      KeepAs(init, keep, f) + (if keep(x) then [f(x)] else [])
  }

  lemma KeepAsSingle<A, B>(x: A, keep: A -> bool, f: A -> B)
    ensures KeepAs([x], keep, f) == if keep(x) then [f(x)] else []
  {
    assert [x][..0] == [];
  }

  /** Filtering two runs is filtering each, in order: nothing is reordered, dropped twice or repeated. */
  lemma {:induction false} KeepAsAppend<A, B>(a: seq<A>, b: seq<A>, keep: A -> bool, f: A -> B)
    ensures KeepAs(a + b, keep, f) == KeepAs(a, keep, f) + KeepAs(b, keep, f)
    decreases |b|
  {
    if |b| == 0 {
      assert a + b == a;
    } else {
      var b0 := b[..|b| - 1];
      var x := b[|b| - 1];
      var tail := if keep(x) then [f(x)] else [];
      KeepAsAppend(a, b0, keep, f);
      assert (a + b)[..|a + b| - 1] == a + b0;
      assert (a + b)[|a + b| - 1] == x;
      assert KeepAs(a + b, keep, f) == KeepAs(a + b0, keep, f) + tail;
      assert KeepAs(b, keep, f) == KeepAs(b0, keep, f) + tail;
      assert KeepAs(a, keep, f) + KeepAs(b0, keep, f) + tail == KeepAs(a, keep, f) + (KeepAs(b0, keep, f) + tail);
    }
  }

  /** One type is kept, converted, exactly when its label mentions "projeto de lei". */
  lemma KeepPlTypesSingle(lib: Lib, t: Obj)
    ensures KeepPlTypes(lib, [t]) == if IsPlType(lib, t) then [ToPlType(t)] else []
  {
    KeepAsSingle(t, t => IsPlType(lib, t), ToPlType);
  }

  /** The kept types of a listing are those of its parts, in listing order. */
  lemma KeepPlTypesAppend(lib: Lib, a: seq<Obj>, b: seq<Obj>)
    ensures KeepPlTypes(lib, a + b) == KeepPlTypes(lib, a) + KeepPlTypes(lib, b)
  {
    KeepAsAppend(a, b, t => IsPlType(lib, t), ToPlType);
  }

  // ---------------------------------------------------------------------
  // Endpoint choice

  /** `try_json(...) is not None`: a 200 reply whose JSON body is not `null`. */
  predicate Answers(api: Api, u: string) {
    api(u, map["page_size" := JInt(1)]).Some? && api(u, map["page_size" := JInt(1)]).value != JNull
  }

  /** The first url of `us` that answers. */
  function FirstAnswering(api: Api, us: seq<string>): (r: Option<string>)
    ensures r.None? <==> forall i :: 0 <= i < |us| ==> !Answers(api, us[i])
    ensures r.Some? ==> exists i :: (0 <= i < |us| && us[i] == r.value && Answers(api, us[i])
      && forall j :: 0 <= j < i ==> !Answers(api, us[j]))
    decreases |us|
  {
    if |us| == 0 then None
    else if Answers(api, us[0]) then Some(us[0])
    else
      var r := FirstAnswering(api, us[1..]);
      if r.Some? then
        var i :| 0 <= i < |us[1..]| && us[1..][i] == r.value && Answers(api, us[1..][i])
          && forall j :: 0 <= j < i ==> !Answers(api, us[1..][j]);
        assert us[i + 1] == r.value;
        assert forall j :: 1 <= j < i + 1 ==> us[j] == us[1..][j - 1];
        r
      else
        assert forall i :: 1 <= i < |us| ==> us[i] == us[1..][i - 1];
        r
  }

  /** The matter endpoints tried, in order. */
  function EndpointUrls(base: string): seq<string> {
    [RStripSlash(base) + "/api/materia/", RStripSlash(base) + "/api/materia/materialegislativa/"]
  }

  /** `pick_materia_endpoint`: the generic endpoint when it answers, else the specific one, else none. */
  function PickEndpoint(api: Api, base: string): (r: Option<string>)
    ensures Answers(api, EndpointUrls(base)[0]) ==> r == Some(EndpointUrls(base)[0])
    ensures !Answers(api, EndpointUrls(base)[0]) && Answers(api, EndpointUrls(base)[1]) ==>
      r == Some(EndpointUrls(base)[1])
    ensures r.None? <==> !Answers(api, EndpointUrls(base)[0]) && !Answers(api, EndpointUrls(base)[1])
  {
    FirstAnswering(api, EndpointUrls(base))
  }

  // ---------------------------------------------------------------------
  // One record

  /** `build_link_publico`. */
  function LinkPublico(base: string, mid: Json): (u: string)
    ensures u != []
    ensures EndsWith(u, "/acompanhar-materia/")
  {
    RStripSlash(base) + "/materia/" + PyStr(mid) + "/acompanhar-materia/"
  }

  /**
   * A public link carries its base: cutting it at the first `/materia/`
   * gives back the base it was built from, for any base with the
   * accepted shape and no `/materia/` of its own.
   */
  lemma BaseOfLinkPublico(scheme: string, host: string, prefix: string, mid: Json)
    requires IsScheme(scheme) && host != [] && '/' !in host
    requires prefix == [] || (prefix[0] == '/' && prefix[|prefix| - 1] != '/')
    requires '\n' !in prefix && '\n' !in PyStr(mid)
    requires !Contains(prefix + "/materia", "/materia/")
    ensures BaseFromSaplUrl(LinkPublico(scheme + host + prefix, mid)) == scheme + host + prefix
  {
    var rest := PyStr(mid) + "/acompanhar-materia/";
    LinkPublicoSpelled(scheme, host, prefix, mid);
    NoBreakAfter(PyStr(mid), "/acompanhar-materia/");
    BaseCutsAtFirstMateria(scheme, host, prefix, rest);
    NoTrailingSlash(scheme, host, prefix);
  }

  /** The public link of a base that needs no stripping, written out. */
  lemma LinkPublicoSpelled(scheme: string, host: string, prefix: string, mid: Json)
    requires host != [] && '/' !in host
    requires prefix == [] || prefix[|prefix| - 1] != '/'
    ensures LinkPublico(scheme + host + prefix, mid)
      == scheme + host + prefix + "/materia/" + (PyStr(mid) + "/acompanhar-materia/")
  {
    NoTrailingSlash(scheme, host, prefix);
  }

  /** A base whose host and prefix do not end in `/` is its own `rstrip("/")`. */
  lemma NoTrailingSlash(scheme: string, host: string, prefix: string)
    requires host != [] && '/' !in host
    requires prefix == [] || prefix[|prefix| - 1] != '/'
    ensures RStripSlash(scheme + host + prefix) == scheme + host + prefix
  {
    var base := scheme + host + prefix;
    if prefix == [] {
      assert base[|base| - 1] == host[|host| - 1];
    } else {
      assert base[|base| - 1] == prefix[|prefix| - 1];
    }
  }

  /** Appending a break-free tail to break-free text keeps it break-free. */
  lemma NoBreakAfter(a: string, b: string)
    requires '\n' !in a && '\n' !in b
    ensures '\n' !in a + b
  {
    forall j | 0 <= j < |a + b| ensures (a + b)[j] != '\n' {
      if j < |a| {
        assert (a + b)[j] == a[j];
      } else {
        assert (a + b)[j] == b[j - |a|];
      }
    }
  }

  /** The url of the latest-movement resource of a matter. */
  function TramitacaoUrl(base: string, mid: Json): string {
    RStripSlash(base) + "/api/materia/materialegislativa/" + PyStr(mid) + "/ultima_tramitacao/"
  }

  /** `ultima_tramitacao`: the decoded dict of a 200 reply, and `{}` for anything else. */
  function UltimaTramitacao(api: Api, base: string, mid: Json): (m: Obj)
    ensures api(TramitacaoUrl(base, mid), map[]).Some? && api(TramitacaoUrl(base, mid), map[]).value.JObj? ==>
      m == api(TramitacaoUrl(base, mid), map[]).value.fields
    ensures api(TramitacaoUrl(base, mid), map[]).None? || !api(TramitacaoUrl(base, mid), map[]).value.JObj? ==>
      m == map[]
  {
    match api(TramitacaoUrl(base, mid), map[])
    case Some(JObj(m)) => m
    case _ => map[]
  }

  predicate NonEmptyText(v: Json) {
    v.JStr? && v.s != []
  }

  /** The first of `keys` whose value is a non-empty string, or `""`. */
  function FirstText(m: Obj, keys: seq<string>): (r: string)
    ensures r == [] <==> forall i :: 0 <= i < |keys| ==> !NonEmptyText(Get(m, keys[i]))
    ensures r != [] ==> exists i :: (0 <= i < |keys| && Get(m, keys[i]) == JStr(r)
      && forall j :: 0 <= j < i ==> !NonEmptyText(Get(m, keys[j])))
    decreases |keys|
  {
    if |keys| == 0 then []
    else if NonEmptyText(Get(m, keys[0])) then Get(m, keys[0]).s
    else
      var r := FirstText(m, keys[1..]);
      assert forall i :: 1 <= i < |keys| ==> keys[i] == keys[1..][i - 1];
      if r != [] then
        var i :| 0 <= i < |keys[1..]| && Get(m, keys[1..][i]) == JStr(r)
          && forall j :: 0 <= j < i ==> !NonEmptyText(Get(m, keys[1..][j]));
        assert Get(m, keys[i + 1]) == JStr(r);
        r
      else r
  }

  const DateKeys: seq<string> := ["data_tramitacao", "data", "data_registro"]
  const StatusKeys: seq<string> := ["status", "texto", "descricao"]

  /** `extract_tramitacao_fields`: the first non-empty date and the first non-empty status. */
  function TramitacaoFields(tram: Obj): (ds: (string, string))
    ensures ds.0 == [] <==> forall i :: 0 <= i < |DateKeys| ==> !NonEmptyText(Get(tram, DateKeys[i]))
    ensures ds.1 == [] <==> forall i :: 0 <= i < |StatusKeys| ==> !NonEmptyText(Get(tram, StatusKeys[i]))
    ensures NonEmptyText(Get(tram, "data_tramitacao")) ==> ds.0 == tram["data_tramitacao"].s
    ensures NonEmptyText(Get(tram, "status")) ==> ds.1 == tram["status"].s
  {
    (FirstText(tram, DateKeys), FirstText(tram, StatusKeys))
  }

  /** The fourteen fields every record of `collect_pls_for_base` has. */
  const RowKeys: set<string> := {
    "sapl_base", "sapl_url", "municipio", "uf", "tipo_id", "tipo_label", "materia_id", "numero", "ano",
    "ementa", "data_apresentacao", "em_tramitacao", "situacao", "link_publico"}

  /**
   * The record of one matter before the movement fields: the base twice,
   * the caller's place, the type, the matter's own fields with their
   * fallbacks, and the public link when there is an id.
   */
  function BaseRow(base: string, municipio: Json, uf: Json, tipo: PlType, m: Obj): (row: Obj)
    ensures "sapl_base" in row && "sapl_url" in row && "municipio" in row && "uf" in row
    ensures "materia_id" in row && "tipo_id" in row && "tipo_label" in row && "link_publico" in row
    ensures "ementa" in row && "data_apresentacao" in row && "situacao" in row
    ensures row["sapl_base"] == JStr(base) && row["sapl_url"] == JStr(base)
    ensures row["municipio"] == municipio && row["uf"] == uf
    ensures row["materia_id"] == Get(m, "id") && row["tipo_id"] == tipo.id && row["tipo_label"] == JStr(tipo.rotulo)
    ensures row["link_publico"] == JStr("") <==> Get(m, "id") == JNull
    ensures Get(m, "id") != JNull ==> row["link_publico"] == JStr(LinkPublico(base, Get(m, "id")))
  {
    var mid := Get(m, "id");
    map[
      "sapl_base" := JStr(base), "sapl_url" := JStr(base), "municipio" := municipio, "uf" := uf,
      "tipo_id" := tipo.id, "tipo_label" := JStr(tipo.rotulo), "materia_id" := mid,
      "numero" := Get(m, "numero"), "ano" := Get(m, "ano"),
      "ementa" := Or(Get(m, "ementa"), Get(m, "observacao")),
      "data_apresentacao" := Or(Get(m, "data_apresentacao"), Get(m, "data_recebimento")),
      "em_tramitacao" := Get(m, "em_tramitacao"),
      "situacao" := Or(Get(m, "status"), Get(m, "situacao")),
      "link_publico" := JStr(if mid.JNull? then "" else LinkPublico(base, mid))]
  }

  /** A record has exactly the fourteen base fields. */
  lemma BaseRowKeys(base: string, municipio: Json, uf: Json, tipo: PlType, m: Obj)
    ensures BaseRow(base, municipio, uf, tipo, m).Keys == RowKeys
  {
  }

  /**
   * The three fields with a fallback take the matter's first field when
   * it is truthy, and the second one otherwise (`a or b`).
   */
  lemma BaseRowFallbacks(base: string, municipio: Json, uf: Json, tipo: PlType, m: Obj)
    ensures var row := BaseRow(base, municipio, uf, tipo, m);
      && (Truthy(Get(m, "ementa")) ==> row["ementa"] == m["ementa"])
      && (!Truthy(Get(m, "ementa")) ==> row["ementa"] == Get(m, "observacao"))
      && (Truthy(Get(m, "data_apresentacao")) ==> row["data_apresentacao"] == m["data_apresentacao"])
      && (!Truthy(Get(m, "data_apresentacao")) ==> row["data_apresentacao"] == Get(m, "data_recebimento"))
      && (Truthy(Get(m, "status")) ==> row["situacao"] == m["status"])
      && (!Truthy(Get(m, "status")) ==> row["situacao"] == Get(m, "situacao"))
  {
  }

  /**
   * The movement fields of a record, from the latest movement: the
   * movement itself, and its date and status when those are non-empty.
   * Every movement field name starts with `u`, which no base field does.
   */
  function Movement(tram: Obj): (mv: Obj)
    ensures forall k :: k in mv ==> |k| > 0 && k[0] == 'u'
    ensures "ultima_tramitacao" in mv && mv["ultima_tramitacao"] == JObj(tram)
  {
    var ds := TramitacaoFields(tram);
    map["ultima_tramitacao" := JObj(tram)] + TextField("ultima_tramitacao_data", ds.0)
      + TextField("ultima_tramitacao_status", ds.1)
  }

  /** The one-field record `{k: s}` when `s` is non-empty, else no field. */
  function TextField(k: string, s: string): (m: Obj)
    ensures m.Keys <= {k}
    ensures k in m <==> s != []
    ensures k in m ==> m[k] == JStr(s)
  {
    if s != [] then map[k := JStr(s)] else map[]
  }

  /** The date and status fields are present exactly when non-empty, and hold the extracted values. */
  lemma MovementFields(tram: Obj)
    ensures var mv := Movement(tram);
      && ("ultima_tramitacao_data" in mv <==> TramitacaoFields(tram).0 != [])
      && ("ultima_tramitacao_data" in mv ==> mv["ultima_tramitacao_data"] == JStr(TramitacaoFields(tram).0))
      && ("ultima_tramitacao_status" in mv <==> TramitacaoFields(tram).1 != [])
      && ("ultima_tramitacao_status" in mv ==> mv["ultima_tramitacao_status"] == JStr(TramitacaoFields(tram).1))
  {
    var ds := TramitacaoFields(tram);
    var date := TextField("ultima_tramitacao_data", ds.0);
    var status := TextField("ultima_tramitacao_status", ds.1);
    assert "ultima_tramitacao_data" != "ultima_tramitacao_status" by {
      assert |"ultima_tramitacao_data"| != |"ultima_tramitacao_status"|;
    }
    assert "ultima_tramitacao_data" !in status && "ultima_tramitacao_status" !in date;
  }

  /**
   * The record `collect_pls_for_base` yields for one matter: the base
   * fields, joined by the movement fields when movements are asked for
   * and the matter has an id.
   */
  function ToolsRow(api: Api, base: string, municipio: Json, uf: Json, tipo: PlType, m: Obj, withTram: bool): Obj {
    var row := BaseRow(base, municipio, uf, tipo, m);
    var mid := Get(m, "id");
    if withTram && !mid.JNull? then row + Movement(UltimaTramitacao(api, base, mid)) else row
  }

  /** A base field, whose name does not start with `u`, keeps its value in the record. */
  lemma ToolsRowKeepsBase(api: Api, base: string, municipio: Json, uf: Json, tipo: PlType, m: Obj, withTram: bool, k: string)
    requires k in BaseRow(base, municipio, uf, tipo, m) && |k| > 0 && k[0] != 'u'
    ensures var row := ToolsRow(api, base, municipio, uf, tipo, m, withTram);
      k in row && row[k] == BaseRow(base, municipio, uf, tipo, m)[k]
  {
    if withTram && Get(m, "id") != JNull {
      var mv := Movement(UltimaTramitacao(api, base, Get(m, "id")));
      assert k !in mv;
    }
  }

  /**
   * With movements asked for and an id present, the record carries every
   * movement field; otherwise it is the base record.
   */
  lemma ToolsRowMovement(api: Api, base: string, municipio: Json, uf: Json, tipo: PlType, m: Obj, withTram: bool)
    ensures var row := ToolsRow(api, base, municipio, uf, tipo, m, withTram);
      && (withTram && Get(m, "id") != JNull ==>
            var mv := Movement(UltimaTramitacao(api, base, Get(m, "id")));
            forall k :: k in mv ==> k in row && row[k] == mv[k])
      && (!(withTram && Get(m, "id") != JNull) ==> row == BaseRow(base, municipio, uf, tipo, m))
  {
  }

  /** The six-field record of the experiments copy. */
  function ExpRow(base: string, municipio: Json, uf: Json, ibge: Json, m: Obj): (row: Obj)
    ensures "municipio" in row && "uf" in row && "ibge_id" in row && "link_publico" in row
    ensures row["municipio"] == municipio && row["uf"] == uf && row["ibge_id"] == ibge
    ensures row["link_publico"] == JStr("") <==> Get(m, "id") == JNull
    ensures Get(m, "id") != JNull ==> row["link_publico"] == JStr(LinkPublico(base, Get(m, "id")))
  {
    var mid := Get(m, "id");
    map[
      "municipio" := municipio, "uf" := uf, "ibge_id" := ibge,
      "ementa" := Or(Get(m, "ementa"), Get(m, "observacao")),
      "data_apresentacao" := Or(Get(m, "data_apresentacao"), Get(m, "data_recebimento")),
      "link_publico" := JStr(if mid.JNull? then "" else LinkPublico(base, mid))]
  }

  /** The experiments record has six fields, two of them with the same fallbacks as the full record. */
  lemma ExpRowFields(base: string, municipio: Json, uf: Json, ibge: Json, m: Obj)
    ensures var row := ExpRow(base, municipio, uf, ibge, m);
      && row.Keys == {"municipio", "uf", "ibge_id", "ementa", "data_apresentacao", "link_publico"}
      && (Truthy(Get(m, "ementa")) ==> row["ementa"] == m["ementa"])
      && (!Truthy(Get(m, "ementa")) ==> row["ementa"] == Get(m, "observacao"))
      && (Truthy(Get(m, "data_apresentacao")) ==> row["data_apresentacao"] == m["data_apresentacao"])
      && (!Truthy(Get(m, "data_apresentacao")) ==> row["data_apresentacao"] == Get(m, "data_recebimento"))
  {
  }

  // ---------------------------------------------------------------------
  // collect_pls_for_base

  /** One matter the walk reached, with the type it was listed under. */
  datatype Source = Source(tipo: PlType, matter: Obj)

  /** The matters reached for one base, in order, and how the walk ended. */
  datatype Walk = Walk(sources: seq<Source>, end: End)

  /** The pager parameters for one type. */
  function TypeParams(id: Json, pageSize: int): Params {
    map["tipo" := id, "page_size" := JInt(pageSize)]
  }

  /**
   * The matters of one type, paged with that type's parameters: one source
   * per item the pager yields, in the pager's order, each under this type,
   * and the walk ends as the pager did.
   */
  function TypeWalk(api: Api, lib: Lib, v: Variant, endpoint: string, pageSize: int, t: PlType, fuel: nat): (w: Walk)
    ensures forall i :: 0 <= i < |w.sources| ==> w.sources[i].tipo == t
    ensures var p := Pager(api, lib, v, endpoint, TypeParams(t.id, pageSize), fuel);
      && |w.sources| == |p.items|
      && (forall i :: 0 <= i < |p.items| ==> w.sources[i] == Source(t, p.items[i]))
      && w.end == p.end
  {
    var p := Pager(api, lib, v, endpoint, TypeParams(t.id, pageSize), fuel);
    Walk(seq(|p.items|, i requires 0 <= i < |p.items| => Source(t, p.items[i])), p.end)
  }

  /**
   * The loop over the kept types: a type without a truthy id is skipped;
   * every other type is paged in turn; an exception from the pager ends
   * the generator. `ForTypesSingle` and `ForTypesAppend` give the order.
   */
  function ForTypes(api: Api, lib: Lib, v: Variant, endpoint: string, pageSize: int, ts: seq<PlType>, fuel: nat): (w: Walk)
    ensures forall i :: 0 <= i < |w.sources| ==> w.sources[i].tipo in ts && Truthy(w.sources[i].tipo.id)
    ensures (forall j :: 0 <= j < |ts| ==> !Truthy(ts[j].id)) ==> w == Walk([], Finished)
    decreases |ts|
  {
    if |ts| == 0 then Walk([], Finished)
    else
      assert forall j :: 1 <= j < |ts| ==> ts[j] == ts[1..][j - 1];
      if !Truthy(ts[0].id) then ForTypes(api, lib, v, endpoint, pageSize, ts[1..], fuel)
      else
        var w := TypeWalk(api, lib, v, endpoint, pageSize, ts[0], fuel);
        if !w.end.Finished? then w
        else
          var rest := ForTypes(api, lib, v, endpoint, pageSize, ts[1..], fuel);
          Walk(w.sources + rest.sources, rest.end)
  }

  /**
   * One type alone: skipped without a truthy id, otherwise exactly that
   * type's walk.
   */
  lemma ForTypesSingle(api: Api, lib: Lib, v: Variant, endpoint: string, pageSize: int, t: PlType, fuel: nat)
    ensures ForTypes(api, lib, v, endpoint, pageSize, [t], fuel)
      == if Truthy(t.id) then TypeWalk(api, lib, v, endpoint, pageSize, t, fuel) else Walk([], Finished)
  {
    assert [t][1..] == [];
    var w := TypeWalk(api, lib, v, endpoint, pageSize, t, fuel);
    assert w.sources + [] == w.sources;
  }

  /**
   * Two runs of types in sequence: the second is paged only when the first
   * finished, and then its sources follow the first's and its end is the
   * end of the whole loop.
   */
  lemma {:induction false} ForTypesAppend(api: Api, lib: Lib, v: Variant, endpoint: string, pageSize: int,
                                         a: seq<PlType>, b: seq<PlType>, fuel: nat)
    ensures var wa := ForTypes(api, lib, v, endpoint, pageSize, a, fuel);
      var wb := ForTypes(api, lib, v, endpoint, pageSize, b, fuel);
      ForTypes(api, lib, v, endpoint, pageSize, a + b, fuel)
        == if wa.end.Finished? then Walk(wa.sources + wb.sources, wb.end) else wa
    decreases |a|
  {
    var wb := ForTypes(api, lib, v, endpoint, pageSize, b, fuel);
    if |a| == 0 {
      assert a + b == b;
      assert [] + wb.sources == wb.sources;
    } else {
      var a1 := a[1..];
      assert (a + b)[0] == a[0];
      assert (a + b)[1..] == a1 + b;
      ForTypesAppend(api, lib, v, endpoint, pageSize, a1, b, fuel);
      if Truthy(a[0].id) {
        var w := TypeWalk(api, lib, v, endpoint, pageSize, a[0], fuel);
        var w1 := ForTypes(api, lib, v, endpoint, pageSize, a1, fuel);
        if w.end.Finished? && w1.end.Finished? {
          assert w.sources + w1.sources + wb.sources == w.sources + (w1.sources + wb.sources);
        }
      }
    }
  }

  /** The kept types that carry a truthy id, in order. */
  function Identified(ts: seq<PlType>): (r: seq<PlType>)
    ensures forall j :: 0 <= j < |r| ==> Truthy(r[j].id)
    ensures forall t :: t in ts && Truthy(t.id) ==> t in r
    ensures forall t :: t in r ==> t in ts
    decreases |ts|
  {
    if |ts| == 0 then []
    else (if Truthy(ts[0].id) then [ts[0]] else []) + Identified(ts[1..])
  }

  /** Filtering two runs of types keeps each run's identified types, first run first. */
  lemma {:induction false} IdentifiedAppend(a: seq<PlType>, b: seq<PlType>)
    ensures Identified(a + b) == Identified(a) + Identified(b)
    decreases |a|
  {
    if |a| == 0 {
      assert a + b == b;
    } else {
      assert (a + b)[0] == a[0];
      assert (a + b)[1..] == a[1..] + b;
      IdentifiedAppend(a[1..], b);
      var h := if Truthy(a[0].id) then [a[0]] else [];
      assert h + (Identified(a[1..]) + Identified(b)) == (h + Identified(a[1..])) + Identified(b);
    }
  }

  /** Types without a truthy id make no request and contribute nothing. */
  lemma {:induction false} UnidentifiedTypesSkipped(api: Api, lib: Lib, v: Variant, endpoint: string, pageSize: int,
                                                   ts: seq<PlType>, fuel: nat)
    ensures ForTypes(api, lib, v, endpoint, pageSize, ts, fuel)
      == ForTypes(api, lib, v, endpoint, pageSize, Identified(ts), fuel)
    decreases |ts|
  {
    if |ts| > 0 {
      UnidentifiedTypesSkipped(api, lib, v, endpoint, pageSize, ts[1..], fuel);
      if Truthy(ts[0].id) {
        var its := Identified(ts);
        assert its == [ts[0]] + Identified(ts[1..]);
        assert its[0] == ts[0] && its[1..] == Identified(ts[1..]);
        var w := TypeWalk(api, lib, v, endpoint, pageSize, ts[0], fuel);
        var rest := ForTypes(api, lib, v, endpoint, pageSize, ts[1..], fuel);
        assert ForTypes(api, lib, v, endpoint, pageSize, ts, fuel)
          == if !w.end.Finished? then w else Walk(w.sources + rest.sources, rest.end);
        assert ForTypes(api, lib, v, endpoint, pageSize, its, fuel)
          == if !w.end.Finished? then w else Walk(w.sources + rest.sources, rest.end);
      } else {
        assert Identified(ts) == Identified(ts[1..]);
        assert ForTypes(api, lib, v, endpoint, pageSize, ts, fuel)
          == ForTypes(api, lib, v, endpoint, pageSize, ts[1..], fuel);
      }
    }
  }

  /**
   * The walk of `collect_pls_for_base`: nothing when no matter endpoint
   * answers; an exception in the type listing ends it before any matter;
   * otherwise the kept types are paged in listing order.
   */
  function WalkBase(api: Api, lib: Lib, v: Variant, base: string, pageSize: int, fuel: nat): (w: Walk)
    ensures PickEndpoint(api, base).None? ==> w == Walk([], Finished)
    ensures var listing := ListTypePages(api, lib, v, base, fuel);
      PickEndpoint(api, base).Some? ==>
        if listing.end.Finished? then
          w == ForTypes(api, lib, v, PickEndpoint(api, base).value, pageSize, KeepPlTypes(lib, listing.types), fuel)
        else w == Walk([], listing.end)
    ensures !ListTypePages(api, lib, v, base, fuel).end.Finished? ==> w.sources == []
    ensures forall i :: 0 <= i < |w.sources| ==>
      w.sources[i].tipo in KeepPlTypes(lib, ListTypePages(api, lib, v, base, fuel).types)
      && Truthy(w.sources[i].tipo.id)
  {
    match PickEndpoint(api, base)
    case None => Walk([], Finished)
    case Some(endpoint) =>
      var listing := ListTypePages(api, lib, v, base, fuel);
      if !listing.end.Finished? then Walk([], listing.end)
      else ForTypes(api, lib, v, endpoint, pageSize, KeepPlTypes(lib, listing.types), fuel)
  }

  /** The records yielded for one base, and how the generator ended. */
  datatype Collected = Collected(rows: seq<Obj>, end: End)

  /**
   * `sapl_scrapper/scraper.py` `collect_pls_for_base`: one record per
   * matter reached; every record belongs to the base, names a kept type
   * with a truthy id, and has an empty public link exactly when the
   * matter has no id.
   */
  function Collect(api: Api, lib: Lib, base: string, municipio: Json, uf: Json, pageSize: int,
                   withTram: bool, fuel: nat): (r: Collected)
    ensures var w := WalkBase(api, lib, Tools, base, pageSize, fuel);
      |r.rows| == |w.sources| && r.end == w.end
    ensures PickEndpoint(api, base).None? ==> r == Collected([], Finished)
    ensures forall i :: 0 <= i < |r.rows| ==>
      && "sapl_base" in r.rows[i] && "tipo_id" in r.rows[i] && "link_publico" in r.rows[i] && "materia_id" in r.rows[i]
      && r.rows[i]["sapl_base"] == JStr(base) && Truthy(r.rows[i]["tipo_id"])
      && (r.rows[i]["link_publico"] == JStr("") <==> r.rows[i]["materia_id"] == JNull)
    ensures var w := WalkBase(api, lib, Tools, base, pageSize, fuel);
      forall i :: 0 <= i < |r.rows| ==>
        r.rows[i] == ToolsRow(api, base, municipio, uf, w.sources[i].tipo, w.sources[i].matter, withTram)
  {
    var w := WalkBase(api, lib, Tools, base, pageSize, fuel);
    var rows := ToolsRows(api, base, municipio, uf, w.sources, withTram);
    assert forall i :: 0 <= i < |rows| ==>
      && "sapl_base" in rows[i] && "tipo_id" in rows[i] && "link_publico" in rows[i] && "materia_id" in rows[i]
      && rows[i]["sapl_base"] == JStr(base) && Truthy(rows[i]["tipo_id"])
      && (rows[i]["link_publico"] == JStr("") <==> rows[i]["materia_id"] == JNull) by {
      forall i | 0 <= i < |rows|
        ensures && "sapl_base" in rows[i] && "tipo_id" in rows[i] && "link_publico" in rows[i] && "materia_id" in rows[i]
          && rows[i]["sapl_base"] == JStr(base) && Truthy(rows[i]["tipo_id"])
          && (rows[i]["link_publico"] == JStr("") <==> rows[i]["materia_id"] == JNull)
      {
        var t, m := w.sources[i].tipo, w.sources[i].matter;
        ToolsRowKeepsBase(api, base, municipio, uf, t, m, withTram, "sapl_base");
        ToolsRowKeepsBase(api, base, municipio, uf, t, m, withTram, "tipo_id");
        ToolsRowKeepsBase(api, base, municipio, uf, t, m, withTram, "materia_id");
        ToolsRowKeepsBase(api, base, municipio, uf, t, m, withTram, "link_publico");
      }
    }
    Collected(rows, w.end)
  }

  /** The full record of each walked matter, in walk order. */
  function ToolsRows(api: Api, base: string, municipio: Json, uf: Json, sources: seq<Source>, withTram: bool): (rows: seq<Obj>)
    ensures |rows| == |sources|
    ensures forall i :: 0 <= i < |sources| ==>
      rows[i] == ToolsRow(api, base, municipio, uf, sources[i].tipo, sources[i].matter, withTram)
  {
    seq(|sources|, i requires 0 <= i < |sources| =>
      ToolsRow(api, base, municipio, uf, sources[i].tipo, sources[i].matter, withTram))
  }

  /** The six-field record of each walked matter, in walk order. */
  function ExpRows(base: string, municipio: Json, uf: Json, ibge: Json, sources: seq<Source>): (rows: seq<Obj>)
    ensures |rows| == |sources|
    ensures forall i :: 0 <= i < |sources| ==> rows[i] == ExpRow(base, municipio, uf, ibge, sources[i].matter)
  {
    seq(|sources|, i requires 0 <= i < |sources| => ExpRow(base, municipio, uf, ibge, sources[i].matter))
  }

  /**
   * `experiments/tools/sapl_scrapper/utils/scraper.py`
   * `collect_pls_for_base`: the same walk with the experiments pager and
   * listing, yielding six-field records that carry the caller's place.
   */
  function CollectExperiments(api: Api, lib: Lib, base: string, municipio: Json, uf: Json, ibge: Json,
                              pageSize: int, fuel: nat): (r: Collected)
    ensures var w := WalkBase(api, lib, Experiments, base, pageSize, fuel);
      |r.rows| == |w.sources| && r.end == w.end
    ensures PickEndpoint(api, base).None? ==> r == Collected([], Finished)
    ensures forall i :: 0 <= i < |r.rows| ==>
      "municipio" in r.rows[i] && "uf" in r.rows[i] && "ibge_id" in r.rows[i]
      && r.rows[i]["municipio"] == municipio && r.rows[i]["uf"] == uf && r.rows[i]["ibge_id"] == ibge
    ensures var w := WalkBase(api, lib, Experiments, base, pageSize, fuel);
      forall i :: 0 <= i < |r.rows| ==> r.rows[i] == ExpRow(base, municipio, uf, ibge, w.sources[i].matter)
  {
    var w := WalkBase(api, lib, Experiments, base, pageSize, fuel);
    Collected(ExpRows(base, municipio, uf, ibge, w.sources), w.end)
  }
}

=== FILE: finder_experiment.dfy ===
/**
 * The standalone IBGE finder (`experiments/tools/sapl_finder/sapl_finder.py`):
 * its slug, its accent-insensitive fingerprint, its JSON fetch, the
 * record filter, and the run statistics kept next to the JSONL writer.
 */
module FinderExperiment {
  import opened Wrappers
  import opened Text
  import opened JsonValue
  import opened Environment
  import opened Lists
  import Dedup
  import Discovery

  /** The unaccented fingerprints of this script, tried in this order. */
  const ExpMarkers: seq<string> :=
    ["SAPL - Interlegis", "Pesquisar Materia Legislativa", "Materias Legislativas", "> SAPL <"]

  // ---------------------------------------------------------------------
  // The slug as written

  /**
   * Step one as written: the class `[^a-z0-9\\s-]` in a raw string keeps
   * letters, digits, backslash and hyphen, so white space becomes a space.
   */
  function ExpKeep(c: char): char {
    if IsAsciiLowerAlnum(c) || c == '\\' || c == '-' then c else ' '
  }

  predicate IsLetterS(c: char) { c == 's' }

  /**
   * Step two as written: the pattern `\\s+` in a raw string matches a
   * backslash followed by a run of `s`, and removes it.
   */
  function DropBackslashS(s: string): (r: string)
    ensures |r| <= |s|
    ensures '\\' !in s ==> r == s
    decreases |s|
  {
    if |s| == 0 then []
    else if s[0] == '\\' && |s| > 1 && s[1] == 's' then DropBackslashS(TrimStart(s[1..], IsLetterS))
    else [s[0]] + DropBackslashS(s[1..])
  }

  /** `slugify` of this script, as written. */
  function ExpSlugify(lib: Lib, city: string): (r: string)
    ensures forall c :: c in r ==> c != '-'
  {
    Filter(DropBackslashS(Discovery.MapChars(Lower(Fold(lib, city)), ExpKeep)), Discovery.NotHyphen)
  }

  /** A library whose decomposition leaves every character as it is. */
  function PlainLib(): (lib: Lib)
    ensures forall c :: lib.fold(c) == [c]
  {
    Lib(s => None, (a, b) => b, c => [c], s => None, s => [], s => [])
  }

  /**
   * The slug as written keeps the space of a two-word name, so the host
   * it builds (`sapl.sao paulo.sp.leg.br`) is not a host name; the finder's
   * own slug has no space.
   */
  lemma ExpSlugifyKeepsSpaces()
    ensures ExpSlugify(PlainLib(), "Sao Paulo") == "sao paulo"
    ensures ' ' !in Discovery.Slugify(PlainLib(), "Sao Paulo")
  {
    ExpSlugifySaoPaulo();
  }

  lemma ExpSlugifySaoPaulo()
    ensures ExpSlugify(PlainLib(), "Sao Paulo") == "sao paulo"
  {
    var lib := PlainLib();
    var low := "sao paulo";
    assert Fold(lib, "Sao Paulo") == "Sao Paulo";
    LowerSaoPaulo();
    var m := Discovery.MapChars(low, ExpKeep);
    assert m == low by {
      assert forall i :: 0 <= i < |low| ==> m[i] == low[i];
    }
    assert '\\' !in m by {
      assert forall i :: 0 <= i < |low| ==> low[i] != '\\';
    }
    assert forall i :: 0 <= i < |low| ==> Discovery.NotHyphen(low[i]);
    FilterAllOrNone(low, Discovery.NotHyphen);
  }

  lemma LowerSaoPaulo()
    ensures Lower("Sao Paulo") == "sao paulo"
  {
    var r := Lower("Sao Paulo");
    assert forall i :: 0 <= i < 9 ==> r[i] == "sao paulo"[i];
  }

  /** The host the script builds for `Sao Paulo`/`SP` contains a space. */
  lemma ExpHostHasSpace()
    ensures ' ' in Discovery.SaplHost(ExpSlugify(PlainLib(), "Sao Paulo"), "SP")
  {
    ExpSlugifySaoPaulo();
    var slug := "sao paulo";
    assert slug[3] == ' ';
    InfixMember("sapl.", slug, "." + Lower("SP") + ".leg.br", 3);
  }

  lemma InfixMember(a: string, b: string, c: string, k: nat)
    requires k < |b|
    ensures b[k] in a + b + c
  {
    assert (a + b + c)[|a| + k] == b[k];
  }

  // ---------------------------------------------------------------------
  // Fingerprint and fetch

  /**
   * `looks_like_sapl` of this script: the markers are searched in the
   * lower-cased page after decomposition with the combining marks dropped.
   */
  function ExpLooksLikeSapl(lib: Lib, html: string): (v: Discovery.Verdict)
    ensures v.ok <==>
      (exists j :: 0 <= j < |ExpMarkers| && Contains(Fold(lib, Lower(html)), Lower(ExpMarkers[j])))
      || Discovery.TitleMentionsSapl(html)
    ensures forall k :: Discovery.FirstMarkerAt(ExpMarkers, Fold(lib, Lower(html)), k) ==>
      v == Discovery.Verdict(true, ExpMarkers[k])
    ensures Discovery.NoMarker(ExpMarkers, Fold(lib, Lower(html))) && Discovery.TitleMentionsSapl(html) ==>
      v == Discovery.Verdict(true, Discovery.TitleEvidence)
    ensures Discovery.NoMarker(ExpMarkers, Fold(lib, Lower(html))) && !Discovery.TitleMentionsSapl(html) ==>
      v == Discovery.Verdict(false, "")
  {
    Discovery.Fingerprint(ExpMarkers, s => Fold(lib, s), html)
  }

  /** With an identity decomposition the fingerprint is the finder's, up to marker spelling. */
  lemma ExpLooksLikeSaplPlain(html: string)
    ensures ExpLooksLikeSapl(PlainLib(), html).ok <==>
      (exists j :: 0 <= j < |ExpMarkers| && Contains(Lower(html), Lower(ExpMarkers[j])))
      || Discovery.TitleMentionsSapl(html)
  {
    assert Fold(PlainLib(), Lower(html)) == Lower(html);
  }

  /** `fetch_json` of this script: a 200 reply decoded as one JSON document, with no fallback. */
  function ExpFetchJson(lib: Lib, reply: Reply): (r: Option<Json>)
    ensures r.Some? ==> reply.Got? && reply.status == 200 && r == lib.parse(reply.text)
    ensures reply.Got? && reply.status == 200 ==> r == lib.parse(reply.text)
  {
    if reply.Got? && reply.status == 200 then lib.parse(reply.text) else None
  }

  /** Where the script's fetch decodes, the finder's fetch agrees. */
  lemma FetchJsonExtends(lib: Lib, reply: Reply)
    requires ExpFetchJson(lib, reply).Some?
    ensures Discovery.FetchJson(lib, reply) == ExpFetchJson(lib, reply)
  {
  }

  // ---------------------------------------------------------------------
  // The JSONL writer

  /** `JsonlWriter`: the lines written so far and the counter. */
  datatype JsonlWriter = JsonlWriter(lines: seq<Discovery.Found>, count: nat)

  /** `JsonlWriter.write`: one more line, one more count; no deduplication. */
  function Write(w: JsonlWriter, row: Discovery.Found): (w': JsonlWriter)
    ensures w'.lines == w.lines + [row]
    ensures w'.count == w.count + 1
    ensures w.count == |w.lines| ==> w'.count == |w'.lines|
  {
    JsonlWriter(w.lines + [row], w.count + 1)
  }

  // ---------------------------------------------------------------------
  // Records and the run

  /**
   * The filter `item.get("nome") and get_uf_code(item)`: the state code is
   * only read for named records. `None` where it raises.
   */
  function ValidItems(items: seq<Json>): (r: Option<seq<Obj>>)
    ensures r.Some? ==> |r.value| <= |items|
    ensures r.None? <==> exists i :: 0 <= i < |items| && FilterRaises(items[i])
    ensures r.Some? ==> forall m :: m in r.value ==> Valid(m)
    decreases |items|
  {
    if |items| == 0 then Some([])
    else
      var init := items[..|items| - 1];
      var last := items[|items| - 1];
      assert forall i :: 0 <= i < |init| ==> init[i] == items[i];
      var prev := ValidItems(init);
      if prev.None? || FilterRaises(last) then None
      else
        var m := last.fields;
        Some(prev.value + (if Valid(m) then [m] else []))
  }

  /** When the filter does not raise, it keeps exactly the valid records. */
  lemma {:induction false} ValidItemsKeepsValid(items: seq<Json>)
    requires ValidItems(items).Some?
    ensures forall m :: m in ValidItems(items).value ==> JObj(m) in items && Valid(m)
    ensures forall i :: 0 <= i < |items| && items[i].JObj? && Valid(items[i].fields) ==>
      items[i].fields in ValidItems(items).value
    decreases |items|
  {
    if |items| > 0 {
      var init := items[..|items| - 1];
      var last := items[|items| - 1];
      assert items == init + [last];
      ValidItemsKeepsValid(init);
    }
  }

  /** A record the script works: named, with a state code. */
  predicate Valid(m: Obj) {
    Truthy(Get(m, "nome")) && Discovery.UfCode(m).Some? && Truthy(Discovery.UfCode(m).value)
  }

  /** Filtering this record raises. */
  predicate FilterRaises(item: Json) {
    !item.JObj? || (Truthy(Get(item.fields, "nome")) && Discovery.UfCode(item.fields).None?)
  }

  /** One `check_host`: the row for `host` if it confirms. */
  function CheckHost(lib: Lib, get: Server, host: string, item: Obj, name: string, uf: string, source: string): (r: seq<Discovery.Found>)
    ensures |r| <= 1
    ensures forall f :: f in r ==> f.source == source && f.httpStatus == 200 && f.saplUrl != ""
    ensures r != [] <==> Discovery.ValidateHost(host, get, h => ExpLooksLikeSapl(lib, h)).Some?
    ensures var c := Discovery.ValidateHost(host, get, h => ExpLooksLikeSapl(lib, h));
      c.Some? ==> (r[0].saplUrl == c.value.url && r[0].httpStatus == c.value.status
        && r[0].marker == c.value.marker && r[0].title == c.value.title
        && r[0].ibgeId == GetOr(item, "id", JStr("")) && r[0].municipio == name && r[0].uf == uf)
  {
    match Discovery.ValidateHost(host, get, h => ExpLooksLikeSapl(lib, h))
    case Some(c) =>
      [Discovery.Found(GetOr(item, "id", JStr("")), name, uf, source, c.url, c.status, c.marker, c.title)]
    case None => []
  }

  /** What one worker did: the probes it counted and the rows it reported. */
  datatype WorkerRun = WorkerRun(tested: nat, rows: seq<Discovery.Found>)

  /**
   * One worker on a valid record: both hosts are probed and counted, with
   * the script's own slug (so a two-word name gives a host with a space, see
   * `ExpHostHasSpace`). `None` where it raises (a name or state code that is
   * not a string).
   */
  function ExpWorker(lib: Lib, get: Server, item: Obj): (r: Option<WorkerRun>)
    requires Discovery.UfCode(item).Some?
    ensures r.Some? ==> r.value.tested == 2 && |r.value.rows| <= 2
    ensures r.Some? ==> forall f :: f in r.value.rows ==> f.httpStatus == 200 && f.saplUrl != ""
    ensures r.None? <==> !GetOr(item, "nome", JStr("")).JStr? || !Discovery.UfCode(item).value.JStr?
    ensures r.Some? ==>
      var name := GetOr(item, "nome", JStr("")).s;
      var uf := Discovery.UfCode(item).value.s;
      var slug := ExpSlugify(lib, name);
      r.value.rows ==
        CheckHost(lib, get, Discovery.SaplHost(slug, uf), item, name, uf, "ibge-heuristic")
        + CheckHost(lib, get, Discovery.BaseHost(slug, uf), item, name, uf, "base-host-endpoint")
  {
    var nome := GetOr(item, "nome", JStr(""));
    var sigla := Discovery.UfCode(item).value;
    if !nome.JStr? || !sigla.JStr? then None
    else
      var slug := ExpSlugify(lib, nome.s);
      var a := CheckHost(lib, get, Discovery.SaplHost(slug, sigla.s), item, nome.s, sigla.s, "ibge-heuristic");
      var b := CheckHost(lib, get, Discovery.BaseHost(slug, sigla.s), item, nome.s, sigla.s, "base-host-endpoint");
      Some(WorkerRun(2, a + b))
  }

  /** The worker as a value, on the records it accepts. */
  function Worker(lib: Lib, get: Server): (work: Obj -> Option<WorkerRun>)
    ensures forall m :: Discovery.UfCode(m).Some? ==> work(m) == ExpWorker(lib, get, m)
    ensures forall m :: work(m).Some? ==>
      work(m).value.tested == 2 && forall f :: f in work(m).value.rows ==> f.saplUrl != ""
  {
    m => if Discovery.UfCode(m).Some? then ExpWorker(lib, get, m) else None
  }

  /** Whether a worker raises on a record, as a value. */
  function RunFails(work: Obj -> Option<WorkerRun>): (bad: Obj -> bool)
    ensures forall m :: bad(m) == work(m).None?
  {
    m => work(m).None?
  }

  /** The rows a worker confirms on a record, as a value. */
  function RunRows(work: Obj -> Option<WorkerRun>): (f: Obj -> seq<Discovery.Found>)
    ensures forall m :: work(m).Some? ==> f(m) == work(m).value.rows
  {
    m => if work(m).Some? then work(m).value.rows else []
  }

  /**
   * Every worker run over the records, in record order; `None` as soon as
   * one raises. The rows are the workers' rows concatenated in order.
   */
  function RunAll(items: seq<Obj>, work: Obj -> Option<WorkerRun>): (r: Option<WorkerRun>)
    ensures r.Some? <==> forall i :: 0 <= i < |items| ==> work(items[i]).Some?
    ensures r.Some? ==> Some(r.value.rows) == ConcatUnless(items, RunFails(work), RunRows(work))
    ensures (forall m :: m in items && work(m).Some? ==> work(m).value.tested == 2) ==>
      (r.Some? ==> r.value.tested == 2 * |items|)
    ensures (forall m, f :: m in items && work(m).Some? && f in work(m).value.rows ==> f.saplUrl != "") ==>
      (r.Some? ==> forall f :: f in r.value.rows ==> f.saplUrl != "")
    decreases |items|
  {
    if |items| == 0 then Some(WorkerRun(0, []))
    else
      var first, rest := items[0], items[1..];
      assert forall i :: 1 <= i < |items| ==> rest[i - 1] == items[i];
      assert forall m :: m in rest ==> m in items;
      match work(first)
      case None => None
      case Some(w) =>
        match RunAll(rest, work)
        case None => None
        case Some(more) => Some(WorkerRun(w.tested + more.tested, w.rows + more.rows))
  }

  /** One record's run is its worker's run. */
  lemma RunAllSingle(m: Obj, work: Obj -> Option<WorkerRun>)
    ensures RunAll([m], work) == work(m)
  {
    assert [m][1..] == [];
    if work(m).Some? {
      assert work(m).value.rows + [] == work(m).value.rows;
      assert work(m).value.tested + 0 == work(m).value.tested;
    }
  }

  /**
   * Running two batches: the run raises iff either batch does, and
   * otherwise its rows are the first batch's followed by the second's.
   */
  lemma RunAllAppend(a: seq<Obj>, b: seq<Obj>, work: Obj -> Option<WorkerRun>)
    ensures RunAll(a + b, work).Some? <==> RunAll(a, work).Some? && RunAll(b, work).Some?
    ensures RunAll(a + b, work).Some? ==>
      RunAll(a + b, work).value.rows == RunAll(a, work).value.rows + RunAll(b, work).value.rows
  {
    ConcatUnlessAppend(a, b, RunFails(work), RunRows(work));
  }

  /** The worker value agrees with `ExpWorker` on every valid record. */
  lemma WorkerAgrees(lib: Lib, get: Server, items: seq<Obj>)
    requires forall m :: m in items ==> Discovery.UfCode(m).Some?
    ensures forall i :: 0 <= i < |items| ==> Worker(lib, get)(items[i]) == ExpWorker(lib, get, items[i])
  {
    forall i | 0 <= i < |items|
      ensures Worker(lib, get)(items[i]) == ExpWorker(lib, get, items[i])
    {
      assert items[i] in items;
    }
  }

  /**
   * All workers over the valid records, in record order: two hosts tested
   * per record, and the rows are the workers' rows concatenated in order
   * (see `ExpWorkAllSingle` and `ExpWorkAllAppend`).
   */
  function ExpWorkAll(lib: Lib, get: Server, items: seq<Obj>): (r: Option<WorkerRun>)
    requires forall m :: m in items ==> Discovery.UfCode(m).Some?
    ensures r.Some? <==> forall i :: 0 <= i < |items| ==> ExpWorker(lib, get, items[i]).Some?
    ensures r.Some? ==> r.value.tested == 2 * |items|
    ensures r.Some? ==> forall f :: f in r.value.rows ==> f.saplUrl != ""
    ensures r.Some? ==> forall i, f :: 0 <= i < |items| && f in ExpWorker(lib, get, items[i]).value.rows ==>
      f in r.value.rows
    ensures r.Some? ==> forall f :: f in r.value.rows ==>
      exists i :: 0 <= i < |items| && f in ExpWorker(lib, get, items[i]).value.rows
  {
    WorkerAgrees(lib, get, items);
    RunAll(items, Worker(lib, get))
  }

  /** One record's run is its worker's run. */
  lemma ExpWorkAllSingle(lib: Lib, get: Server, m: Obj)
    requires Discovery.UfCode(m).Some?
    ensures ExpWorkAll(lib, get, [m]) == ExpWorker(lib, get, m)
  {
    RunAllSingle(m, Worker(lib, get));
  }

  /**
   * Running two batches of valid records: the run raises iff either batch
   * does, and otherwise its rows are the first batch's followed by the
   * second's.
   */
  lemma ExpWorkAllAppend(lib: Lib, get: Server, a: seq<Obj>, b: seq<Obj>)
    requires forall m :: m in a ==> Discovery.UfCode(m).Some?
    requires forall m :: m in b ==> Discovery.UfCode(m).Some?
    ensures ExpWorkAll(lib, get, a + b).Some? <==> ExpWorkAll(lib, get, a).Some? && ExpWorkAll(lib, get, b).Some?
    ensures ExpWorkAll(lib, get, a + b).Some? ==>
      ExpWorkAll(lib, get, a + b).value.rows == ExpWorkAll(lib, get, a).value.rows + ExpWorkAll(lib, get, b).value.rows
  {
    RunAllAppend(a, b, Worker(lib, get));
  }

  /** The statistics `discover_by_ibge` returns, and the writer it fed. */
  datatype Stats = Stats(tested: nat, found: nat, total: nat, writer: JsonlWriter)

  /** `register_result` over the reported rows: write each URL once. */
  function Register(rows: seq<Discovery.Found>): (r: (Dedup.Log<string, Discovery.Found>, JsonlWriter))
    ensures r.0 == Dedup.AcceptAll(Dedup.Empty(), Discovery.UrlEntries(rows))
    ensures r.1.lines == r.0.rows && r.1.count == r.0.count
    decreases |rows|
  {
    if |rows| == 0 then (Dedup.Empty(), JsonlWriter([], 0))
    else
      var init := rows[..|rows| - 1];
      var row := rows[|rows| - 1];
      var prev := Register(init);
      var es := Discovery.UrlEntries(rows);
      assert es[..|es| - 1] == Discovery.UrlEntries(init);
      var step := Dedup.Accept(prev.0, Discovery.UrlKey(row), row);
      if step.accepted then (step.log, Write(prev.1, row)) else (step.log, prev.1)
  }

  /** The run outcome: it raised, or the statistics. */
  datatype Run = RunRaised | RunDone(stats: Stats)

  /**
   * `discover_by_ibge` of this script: zero statistics when the list cannot
   * be fetched or is empty; a reply that is not a list, a filter that
   * raises or a worker that raises ends the run; otherwise two probes per
   * valid record, and each confirmed URL written once.
   */
  function ExpDiscover(lib: Lib, get: Server): (r: Run)
    ensures var data := ExpFetchJson(lib, get(Discovery.IbgeEndpoint));
      data.None? || !Truthy(data.value) ==> r == RunDone(Stats(0, 0, 0, JsonlWriter([], 0)))
    ensures var data := ExpFetchJson(lib, get(Discovery.IbgeEndpoint));
      data.Some? && Truthy(data.value) ==>
        (r.RunRaised? <==>
          (!data.value.JArr? || ValidItems(data.value.items).None?
           || ExpWorkAll(lib, get, ValidItems(data.value.items).value).None?))
    ensures var data := ExpFetchJson(lib, get(Discovery.IbgeEndpoint));
      data.Some? && Truthy(data.value) && r.RunDone? ==>
        && data.value.JArr? && ValidItems(data.value.items).Some?
        && ExpWorkAll(lib, get, ValidItems(data.value.items).value).Some?
        && var valid := ValidItems(data.value.items).value;
           var w := ExpWorkAll(lib, get, valid).value;
           && r.stats.total == 2 * |valid|
           && r.stats.tested == w.tested
           && r.stats.writer.lines == Discovery.DedupeResults(w.rows)
           && r.stats.found == |r.stats.writer.lines|
  {
    var data := ExpFetchJson(lib, get(Discovery.IbgeEndpoint));
    if data.None? || !Truthy(data.value) then RunDone(Stats(0, 0, 0, JsonlWriter([], 0)))
    else if !data.value.JArr? then RunRaised
    else
      match ValidItems(data.value.items)
      case None => RunRaised
      case Some(valid) =>
        ValidItemsKeepsValid(data.value.items);
        match ExpWorkAll(lib, get, valid)
        case None => RunRaised
        case Some(w) =>
          var reg := Register(w.rows);
          RegisterIsDedupe(w.rows);
          RunDone(Stats(w.tested, reg.0.count, 2 * |valid|, reg.1))
  }

  /**
   * At the end of a run every counted candidate was tested
   * (`tested == total`), `found` equals the writer's count and its number
   * of lines, and the written URLs are pairwise distinct.
   */
  lemma ExpDiscoverStats(lib: Lib, get: Server)
    requires ExpDiscover(lib, get).RunDone?
    ensures var s := ExpDiscover(lib, get).stats;
      s.tested == s.total && s.found == s.writer.count && s.writer.count == |s.writer.lines|
      && Dedup.DistinctKeys(s.writer.lines, Discovery.UrlKey)
  {
    var data := ExpFetchJson(lib, get(Discovery.IbgeEndpoint));
    if data.Some? && Truthy(data.value) {
      var valid := ValidItems(data.value.items).value;
      ValidItemsKeepsValid(data.value.items);
      var w := ExpWorkAll(lib, get, valid).value;
      RegisterIsDedupe(w.rows);
    }
  }

  /** The writer fed by `register_result` holds the deduplicated rows, counted. */
  lemma RegisterIsDedupe(rows: seq<Discovery.Found>)
    ensures Register(rows).1.lines == Discovery.DedupeResults(rows)
    ensures Register(rows).1.count == |Register(rows).1.lines|
  {
    Dedup.AcceptAllIsFirstOccurrences(Discovery.UrlEntries(rows));
  }
}

=== FILE: finder_output.dfy ===
/**
 * The finder's output stage (`sapl_finder/output.py`): the progress writer
 * that persists each confirmed endpoint once, its CSV projection and its
 * sorted aggregate, the batch `write_outputs`, and the writer of
 * certificate-search candidates.
 */
module FinderOutput {
  import opened Wrappers
  import opened JsonValue
  import Dedup
  import Ordering
  import Csv

  /** The CSV header, which is also the projection order of every data row. */
  const Header: seq<string> :=
    ["ibge_id", "municipio", "uf", "source", "sapl_url", "http_status", "marker", "title"]

  // ---------------------------------------------------------------------
  // Projection and order

  /** One data row of the CSV: the header fields in header order, a missing field empty. */
  function CsvRow(row: Obj): (r: seq<string>)
    ensures |r| == |Header|
    ensures forall i :: 0 <= i < |Header| && Header[i] !in row ==> r[i] == ""
    ensures forall i :: 0 <= i < |Header| && Header[i] in row ==> r[i] == Csv.Cell(row[Header[i]])
  {
    Csv.Project(Header, row)
  }

  /** A text field of the sort key: `x.get(k, "")` for string values. */
  function KeyText(row: Obj, k: string): (s: string)
    ensures k !in row ==> s == ""
    ensures k in row && row[k].JStr? ==> s == row[k].s
  {
    match GetOr(row, k, JStr(""))
    case JStr(s) => s
    case _ => ""
  }

  /** The ordering of both aggregate views: `(uf, municipio, sapl_url)`. */
  function SortKey(row: Obj): (k: seq<string>)
    ensures |k| == 3
    ensures k[0] == KeyText(row, "uf") && k[1] == KeyText(row, "municipio") && k[2] == KeyText(row, "sapl_url")
  {
    [KeyText(row, "uf"), KeyText(row, "municipio"), KeyText(row, "sapl_url")]
  }

  /** The rows in `SortKey` order. */
  function Sorted(rows: seq<Obj>): (r: seq<Obj>)
    ensures Ordering.SortedByKey(r, SortKey)
    ensures multiset(r) == multiset(rows)
    ensures |r| == |rows|
  {
    var r := Ordering.SortByKey(rows, SortKey);
    assert |r| == |multiset(r)| == |multiset(rows)| == |rows|;
    r
  }

  /** What `write_outputs` puts in its two files. */
  datatype Files = Files(csv: seq<seq<string>>, json: seq<Obj>)

  /** `write_outputs`: the sorted rows to JSON, and the header plus their projections to CSV. */
  function WriteOutputs(found: seq<Obj>): (f: Files)
    ensures Ordering.SortedByKey(f.json, SortKey)
    ensures multiset(f.json) == multiset(found)
    ensures |f.json| == |found| && |f.csv| == |found| + 1 && f.csv[0] == Header
    ensures forall i :: 0 <= i < |f.json| ==> f.csv[i + 1] == CsvRow(f.json[i])
  {
    var data := Sorted(found);
    Files([Header] + seq(|data|, i requires 0 <= i < |data| => CsvRow(data[i])), data)
  }

  // ---------------------------------------------------------------------
  // ProgressWriter

  /**
   * `ProgressWriter`: the dedup log keyed by `sapl_url`, the CSV lines
   * written (header first), and the JSONL lines when that file was asked for.
   */
  datatype Progress = Progress(log: Dedup.Log<Json, Obj>, csv: seq<seq<string>>, jsonl: Option<seq<Obj>>)

  /** The writer just constructed. */
  function NewProgress(withJsonl: bool): (w: Progress)
    ensures Good(w) && w.log.rows == []
    ensures w.jsonl.Some? <==> withJsonl
  {
    Progress(Dedup.Empty(), [Header], if withJsonl then Some([]) else None)
  }

  /**
   * The writer's invariant: `count == len(rows) == |seen|`, the CSV is the
   * header followed by the projection of each row, and the JSONL file
   * holds the rows.
   */
  predicate Good(w: Progress) {
    Dedup.Consistent(w.log)
    && |w.csv| == |w.log.rows| + 1 && w.csv[0] == Header
    && (forall i :: 0 <= i < |w.log.rows| ==> w.csv[i + 1] == CsvRow(w.log.rows[i]))
    && (w.jsonl.Some? ==> w.jsonl.value == w.log.rows)
  }

  /** The key `on_found` reads: a truthy `sapl_url`. */
  function UrlOf(row: Obj): (k: Option<Json>)
    ensures k.Some? <==> Truthy(Get(row, "sapl_url"))
    ensures k.Some? ==> "sapl_url" in row && k.value == row["sapl_url"]
  {
    var url := Get(row, "sapl_url");
    if Truthy(url) then Some(url) else None
  }

  /** `ProgressWriter.on_found`. */
  function OnFound(w: Progress, row: Obj): (r: Progress)
    ensures UrlOf(row).None? ==> r == w
    ensures UrlOf(row).Some? && UrlOf(row).value in w.log.seen ==> r == w
    ensures UrlOf(row).Some? && UrlOf(row).value !in w.log.seen ==>
      r.log.seen == w.log.seen + {UrlOf(row).value}
      && r.log.rows == w.log.rows + [row] && r.log.count == w.log.count + 1
      && r.csv == w.csv + [CsvRow(row)]
      && r.jsonl.Some? == w.jsonl.Some?
    ensures Good(w) ==> Good(r)
  {
    var step := Dedup.Accept(w.log, UrlOf(row), row);
    if !step.accepted then w
    else
      Progress(step.log, w.csv + [CsvRow(row)], if w.jsonl.Some? then Some(w.jsonl.value + [row]) else None)
  }

  /** The callback invoked once per reported row, in report order. */
  function OnFoundAll(w: Progress, rows: seq<Obj>): (r: Progress)
    ensures Good(w) ==> Good(r)
    decreases |rows|
  {
    if |rows| == 0 then w else OnFound(OnFoundAll(w, rows[..|rows| - 1]), rows[|rows| - 1])
  }

  function UrlEntries(rows: seq<Obj>): (es: seq<Dedup.Entry<Json, Obj>>)
    ensures |es| == |rows|
    ensures forall i :: 0 <= i < |rows| ==> es[i] == Dedup.Entry(UrlOf(rows[i]), rows[i])
  {
    seq(|rows|, i requires 0 <= i < |rows| => Dedup.Entry(UrlOf(rows[i]), rows[i]))
  }

  /**
   * After any stream of reports the writer holds exactly the first report
   * of each truthy `sapl_url`, in report order, with distinct urls.
   */
  lemma {:induction false} OnFoundAllKeepsFirst(withJsonl: bool, rows: seq<Obj>)
    ensures OnFoundAll(NewProgress(withJsonl), rows).log == Dedup.AcceptAll(Dedup.Empty(), UrlEntries(rows))
    ensures OnFoundAll(NewProgress(withJsonl), rows).log.rows == Dedup.FirstOccurrences(UrlEntries(rows))
    ensures Dedup.DistinctKeys(OnFoundAll(NewProgress(withJsonl), rows).log.rows, UrlOf)
    decreases |rows|
  {
    var es := UrlEntries(rows);
    if |rows| > 0 {
      var init := rows[..|rows| - 1];
      OnFoundAllKeepsFirst(withJsonl, init);
      assert es[..|es| - 1] == UrlEntries(init);
    }
    Dedup.AcceptAllIsFirstOccurrences(es);
    Dedup.FirstOccurrencesDistinct(es, UrlOf);
  }

  /** A report whose url was already written leaves the writer as it was, whatever its other fields. */
  lemma RepeatedUrlChangesNothing(w: Progress, row: Obj, again: Obj)
    requires Good(w) && UrlOf(row).Some?
    requires UrlOf(again) == UrlOf(row)
    ensures OnFound(OnFound(w, row), again) == OnFound(w, row)
  {
  }

  /** `finalize_json`: the collected rows in the order `write_outputs` uses. */
  function FinalizeJson(w: Progress): (r: seq<Obj>)
    ensures Ordering.SortedByKey(r, SortKey)
    ensures multiset(r) == multiset(w.log.rows)
    ensures r == WriteOutputs(w.log.rows).json
  {
    Sorted(w.log.rows)
  }

  // ---------------------------------------------------------------------
  // CandidatesWriter

  /** One JSONL line of the candidates file. */
  datatype Candidate = Candidate(host: string, pattern: string, source: string)

  /** `CandidatesWriter`: the seen hosts, the lines accepted, and whether a file is open. */
  datatype Candidates = Candidates(log: Dedup.Log<string, Candidate>, open: bool)

  /** The lines actually in the file: none when no path was given. */
  function Written(w: Candidates): (lines: seq<Candidate>)
    ensures w.open ==> lines == w.log.rows
    ensures !w.open ==> lines == []
  {
    if w.open then w.log.rows else []
  }

  /** `CandidatesWriter.emit`: an empty or already seen host changes nothing. */
  function Emit(w: Candidates, host: string, pattern: string, source: string): (r: Candidates)
    ensures host == "" || host in w.log.seen ==> r == w
    ensures host != "" && host !in w.log.seen ==>
      r.log.seen == w.log.seen + {host} && r.open == w.open
      && Written(r) == Written(w) + (if w.open then [Candidate(host, pattern, source)] else [])
    ensures Dedup.Consistent(w.log) ==> Dedup.Consistent(r.log)
  {
    var key := if host != "" then Some(host) else None;
    Candidates(Dedup.Accept(w.log, key, Candidate(host, pattern, source)).log, w.open)
  }

  /** Emitting a host twice, under any pattern, writes it once. */
  lemma EmitTwiceOnce(w: Candidates, host: string, p1: string, p2: string, s1: string, s2: string)
    requires host != "" && host !in w.log.seen
    ensures var once := Emit(w, host, p1, s1);
      Emit(once, host, p2, s2) == once && |once.log.rows| == |w.log.rows| + 1
  {
  }
}

=== FILE: json.dfy ===
/**
 * JSON values as the pipeline sees them after `json.loads`, with Python's
 * truthiness, `dict.get`, `a or b`, `isinstance(x, dict)` and `str(x)`.
 * Objects are maps, so two objects that differ only in key order are the
 * same value, exactly as `json.dumps(..., sort_keys=True)` identifies them.
 */
module JsonValue {
  import opened Wrappers
  import Text

  datatype Json =
    | JNull
    | JBool(b: bool)
    | JInt(i: int)
    | JStr(s: string)
    | JArr(items: seq<Json>)
    | JObj(fields: map<string, Json>)

  /** A Python `dict` decoded from JSON. */
  type Obj = map<string, Json>

  /** Python's `bool(v)`. */
  predicate Truthy(v: Json) {
    match v
    case JNull => false
    case JBool(b) => b
    case JInt(i) => i != 0
    case JStr(s) => s != []
    case JArr(xs) => xs != []
    case JObj(m) => m != map[]
  }

  /** `m.get(k)`: the value, or `None` when the key is absent. */
  function Get(m: Obj, k: string): (v: Json)
    ensures k !in m ==> v == JNull
    ensures k in m ==> v == m[k]
  {
    if k in m then m[k] else JNull
  }

  /** `m.get(k, d)`. */
  function GetOr(m: Obj, k: string, d: Json): (v: Json)
    ensures k !in m ==> v == d
    ensures k in m ==> v == m[k]
  {
    if k in m then m[k] else d
  }

  /** Python's `a or b`: the first operand when truthy, else the second. */
  function Or(a: Json, b: Json): (v: Json)
    ensures Truthy(v) <==> Truthy(a) || Truthy(b)
    ensures Truthy(a) ==> v == a
  {
    if Truthy(a) then a else b
  }

  /** `[x for x in xs if isinstance(x, dict)]`. */
  function Dicts(xs: seq<Json>): (r: seq<Obj>)
    ensures |r| <= |xs|
    ensures forall m :: m in r ==> JObj(m) in xs
    ensures forall i :: 0 <= i < |xs| && xs[i].JObj? ==> xs[i].fields in r
  {
    if |xs| == 0 then []
    else Dicts(xs[..|xs| - 1]) + (if xs[|xs| - 1].JObj? then [xs[|xs| - 1].fields] else [])
  }

  /** A string value, or `None` for anything else. */
  function AsString(v: Json): Option<string> {
    if v.JStr? then Some(v.s) else None
  }

  /**
   * Python's `str(v)` for the scalar values a record identifier takes
   * (`None`, booleans, integers, strings). Lists and dicts render as a fixed
   * placeholder: their Python repr is not modelled.
   */
  function PyStr(v: Json): string {
    match v
    case JNull => "None"
    case JBool(b) => if b then "True" else "False"
    case JInt(i) => Text.IntToDecimal(i)
    case JStr(s) => s
    case JArr(_) => "[...]"
    case JObj(_) => "{...}"
  }
}

=== FILE: lists.dfy ===
/**
 * Sequences assembled piece by piece: the pieces of each element
 * concatenated in order, unless some element makes the whole run fail.
 * Every "collect the rows of each item, stop if one raises" loop of the
 * program is an instance.
 */
module Lists {
  import opened Wrappers

  /**
   * The pieces `f` gives for each element, concatenated in order; `None` as
   * soon as some element is `bad`.
   */
  function ConcatUnless<A, B>(xs: seq<A>, bad: A -> bool, f: A -> seq<B>): (r: Option<seq<B>>)
    ensures r.None? <==> exists i :: 0 <= i < |xs| && bad(xs[i])
    ensures r.Some? ==> forall y :: y in r.value ==> exists i :: 0 <= i < |xs| && y in f(xs[i])
    ensures r.Some? ==> forall i, y :: 0 <= i < |xs| && y in f(xs[i]) ==> y in r.value
    decreases |xs|
  {
    if |xs| == 0 then Some([])
    else
      var rest := ConcatUnless(xs[1..], bad, f);
      assert forall i :: 1 <= i < |xs| ==> xs[1..][i - 1] == xs[i];
      if bad(xs[0]) || rest.None? then None
      else
        var out := f(xs[0]) + rest.value;
        forall y | y in out ensures exists i :: 0 <= i < |xs| && y in f(xs[i]) {
          if y !in f(xs[0]) {
            var i :| 0 <= i < |xs[1..]| && y in f(xs[1..][i]);
            assert y in f(xs[i + 1]);
          }
        }
        forall i, y | 0 <= i < |xs| && y in f(xs[i]) ensures y in out {
          if i > 0 {
            assert xs[i] == xs[1..][i - 1];
          }
        }
        Some(out)
  }

  /** The pieces of two runs are those of the first followed by those of the second. */
  lemma {:induction false} ConcatUnlessAppend<A, B>(a: seq<A>, b: seq<A>, bad: A -> bool, f: A -> seq<B>)
    ensures ConcatUnless(a + b, bad, f) ==
      if ConcatUnless(a, bad, f).Some? && ConcatUnless(b, bad, f).Some? then
        Some(ConcatUnless(a, bad, f).value + ConcatUnless(b, bad, f).value)
      else None
    decreases |a|
  {
    if |a| == 0 {
      assert a + b == b;
      if ConcatUnless(b, bad, f).Some? {
        assert [] + ConcatUnless(b, bad, f).value == ConcatUnless(b, bad, f).value;
      }
    } else {
      var ab := a + b;
      assert ab[1..] == a[1..] + b;
      assert ab[0] == a[0];
      ConcatUnlessAppend(a[1..], b, bad, f);
      if !bad(a[0]) && ConcatUnless(a[1..], bad, f).Some? && ConcatUnless(b, bad, f).Some? {
        var x, y, z := f(a[0]), ConcatUnless(a[1..], bad, f).value, ConcatUnless(b, bad, f).value;
        assert x + (y + z) == (x + y) + z;
      }
    }
  }

  lemma ConcatUnlessSingle<A, B>(x: A, bad: A -> bool, f: A -> seq<B>)
    requires !bad(x)
    ensures ConcatUnless([x], bad, f) == Some(f(x))
  {
    assert [x][1..] == [];
    assert f(x) + [] == f(x);
  }

  /** When no element gives more than `k` pieces, a run gives at most `k` per element. */
  lemma {:induction false} ConcatUnlessBound<A, B>(xs: seq<A>, bad: A -> bool, f: A -> seq<B>, k: nat)
    requires forall i :: 0 <= i < |xs| && !bad(xs[i]) ==> |f(xs[i])| <= k
    ensures ConcatUnless(xs, bad, f).Some? ==> |ConcatUnless(xs, bad, f).value| <= k * |xs|
    decreases |xs|
  {
    if |xs| > 0 {
      assert forall i :: 1 <= i < |xs| ==> xs[1..][i - 1] == xs[i];
      ConcatUnlessBound(xs[1..], bad, f, k);
      assert k * |xs| == k + k * |xs[1..]|;
    }
  }

  /** A run gives nothing exactly when every element gives nothing. */
  lemma ConcatUnlessEmpty<A, B>(xs: seq<A>, bad: A -> bool, f: A -> seq<B>)
    ensures var r := ConcatUnless(xs, bad, f);
      r.Some? ==> (r.value == [] <==> forall i :: 0 <= i < |xs| ==> f(xs[i]) == [])
  {
    var r := ConcatUnless(xs, bad, f);
    if r.Some? {
      if r.value != [] {
        var y := r.value[0];
        assert y in r.value;
        var i :| 0 <= i < |xs| && y in f(xs[i]);
      }
    }
  }
}

=== FILE: order.dfy ===
/**
 * Python's ordering of strings (code point by code point) and of tuples of
 * strings, with the two sorts the pipeline performs: `sorted(set(names))`
 * and `sorted(rows, key=...)`.
 */
module Ordering {

  /** Lexicographic strict order on sequences, given a strict order on elements. */
  predicate LexLess<T(==)>(a: seq<T>, b: seq<T>, lt: (T, T) -> bool)
    decreases |a|
  {
    if |a| == 0 then |b| > 0
    else if |b| == 0 then false
    else if a[0] == b[0] then LexLess(a[1..], b[1..], lt)
    else lt(a[0], b[0])
  }

  ghost predicate StrictTotal<T(!new)>(lt: (T, T) -> bool) {
    && (forall x :: !lt(x, x))
    && (forall x, y, z :: lt(x, y) && lt(y, z) ==> lt(x, z))
    && (forall x, y :: x == y || lt(x, y) || lt(y, x))
  }

  lemma {:induction false} LexIrreflexive<T(!new)>(a: seq<T>, lt: (T, T) -> bool)
    requires StrictTotal(lt)
    ensures !LexLess(a, a, lt)
    decreases |a|
  {
    if |a| > 0 {
      LexIrreflexive(a[1..], lt);
    }
  }

  lemma {:induction false} LexTransitive<T(!new)>(a: seq<T>, b: seq<T>, c: seq<T>, lt: (T, T) -> bool)
    requires StrictTotal(lt)
    requires LexLess(a, b, lt) && LexLess(b, c, lt)
    ensures LexLess(a, c, lt)
    decreases |a|
  {
    if |a| > 0 && |b| > 0 && |c| > 0 && a[0] == b[0] && b[0] == c[0] {
      LexTransitive(a[1..], b[1..], c[1..], lt);
    }
  }

  lemma {:induction false} LexTotal<T(!new)>(a: seq<T>, b: seq<T>, lt: (T, T) -> bool)
    requires StrictTotal(lt)
    ensures a == b || LexLess(a, b, lt) || LexLess(b, a, lt)
    decreases |a|
  {
    if |a| > 0 && |b| > 0 && a[0] == b[0] {
      LexTotal(a[1..], b[1..], lt);
      if a[1..] == b[1..] {
        assert a == [a[0]] + a[1..] && b == [b[0]] + b[1..];
      }
    }
  }

  lemma LexStrictTotal<T(!new)>(lt: (T, T) -> bool)
    requires StrictTotal(lt)
    ensures StrictTotal((a: seq<T>, b: seq<T>) => LexLess(a, b, lt))
  {
    forall a: seq<T> ensures !LexLess(a, a, lt) {
      LexIrreflexive(a, lt);
    }
    forall a: seq<T>, b: seq<T>, c: seq<T> | LexLess(a, b, lt) && LexLess(b, c, lt)
      ensures LexLess(a, c, lt)
    {
      LexTransitive(a, b, c, lt);
    }
    forall a: seq<T>, b: seq<T> ensures a == b || LexLess(a, b, lt) || LexLess(b, a, lt) {
      LexTotal(a, b, lt);
    }
  }

  function CharLess(x: char, y: char): bool {
    x < y
  }

  /** Python's `a < b` on `str`. */
  predicate StrLess(a: string, b: string) {
    LexLess(a, b, CharLess)
  }

  /** Python's `a < b` on equal-length tuples of `str`. */
  predicate KeyLess(a: seq<string>, b: seq<string>) {
    LexLess(a, b, StrLess)
  }

  lemma StrLessStrictTotal()
    ensures StrictTotal(StrLess)
  {
    assert StrictTotal(CharLess);
    LexStrictTotal(CharLess);
    assert forall a, b :: StrLess(a, b) == ((a: string, b: string) => LexLess(a, b, CharLess))(a, b);
  }

  lemma KeyLessStrictTotal()
    ensures StrictTotal(KeyLess)
  {
    StrLessStrictTotal();
    LexStrictTotal(StrLess);
    assert forall a, b :: KeyLess(a, b) == ((a: seq<string>, b: seq<string>) => LexLess(a, b, StrLess))(a, b);
  }

  /** Strictly increasing, hence duplicate-free. */
  predicate StrictlySorted(xs: seq<string>) {
    forall i, j :: 0 <= i < j < |xs| ==> StrLess(xs[i], xs[j])
  }

  function InsertUnique(x: string, xs: seq<string>): (r: seq<string>)
    requires StrictlySorted(xs)
    ensures StrictlySorted(r)
    ensures forall y :: y in r <==> y in xs || y == x
    decreases |xs|
  {
    StrLessStrictTotal();
    if |xs| == 0 then [x]
    else if x == xs[0] then xs
    else if StrLess(x, xs[0]) then [x] + xs
    else
      var rest := InsertUnique(x, xs[1..]);
      assert forall y :: y in rest ==> StrLess(xs[0], y);
      [xs[0]] + rest
  }

  /** `sorted(set(xs))`. */
  function SortedUnique(xs: seq<string>): (r: seq<string>)
    ensures StrictlySorted(r)
    ensures forall y :: y in r <==> y in xs
    decreases |xs|
  {
    if |xs| == 0 then []
    else
      var rest := SortedUnique(xs[1..]);
      assert forall y :: y in xs <==> y == xs[0] || y in xs[1..];
      InsertUnique(xs[0], rest)
  }

  lemma Members(a: seq<string>)
    ensures |a| > 0 ==> a[0] in a
  {
  }

  lemma SortedHeadIsLeast(a: seq<string>, y: string)
    requires StrictlySorted(a) && y in a
    ensures y == a[0] || StrLess(a[0], y)
  {
  }

  /** A duplicate-free sorted listing of a set of strings is unique. */
  lemma {:induction false} StrictlySortedUnique(a: seq<string>, b: seq<string>)
    requires StrictlySorted(a) && StrictlySorted(b)
    requires forall y :: y in a <==> y in b
    ensures a == b
    decreases |a|
  {
    StrLessStrictTotal();
    Members(a);
    Members(b);
    if |a| > 0 && |b| > 0 {
      SortedHeadIsLeast(a, b[0]);
      SortedHeadIsLeast(b, a[0]);
      assert a[0] == b[0];
      forall y ensures y in a[1..] <==> y in b[1..] {
        if y in a[1..] {
          var k :| 1 <= k < |a| && a[k] == y;
          assert StrLess(a[0], a[k]);
          assert y in b && y != b[0];
          assert b == [b[0]] + b[1..];
        }
        if y in b[1..] {
          var k :| 1 <= k < |b| && b[k] == y;
          assert StrLess(b[0], b[k]);
          assert y in a && y != a[0];
          assert a == [a[0]] + a[1..];
        }
      }
      StrictlySortedUnique(a[1..], b[1..]);
      assert a == [a[0]] + a[1..] && b == [b[0]] + b[1..];
    }
  }

  /** Non-decreasing by `key`, Python's `sorted(xs, key=key)` order. */
  predicate SortedByKey<T>(xs: seq<T>, key: T -> seq<string>) {
    forall i, j :: 0 <= i < j < |xs| ==> !KeyLess(key(xs[j]), key(xs[i]))
  }

  /** Inserts `x` before the first element whose key is not smaller (so ties keep input order). */
  function InsertByKey<T(==,!new)>(x: T, xs: seq<T>, key: T -> seq<string>): (r: seq<T>)
    requires SortedByKey(xs, key)
    ensures SortedByKey(r, key)
    ensures multiset(r) == multiset(xs) + multiset{x}
    ensures forall y :: y in r <==> y in xs || y == x
    decreases |xs|
  {
    if |xs| == 0 then [x]
    else if !KeyLess(key(xs[0]), key(x)) then
      KeyLessStrictTotal();
      [x] + xs
    else
      InsertKeepsHeadFirst(x, xs, key);
      assert xs == [xs[0]] + xs[1..];
      [xs[0]] + InsertByKey(x, xs[1..], key)
  }

  lemma InsertKeepsHeadFirst<T(!new)>(x: T, xs: seq<T>, key: T -> seq<string>)
    requires |xs| > 0 && SortedByKey(xs, key) && KeyLess(key(xs[0]), key(x))
    ensures forall y :: y in xs[1..] || y == x ==> !KeyLess(key(y), key(xs[0]))
  {
    KeyLessStrictTotal();
    forall y | y in xs[1..] || y == x ensures !KeyLess(key(y), key(xs[0])) {
      if y in xs[1..] {
        var j :| 0 <= j < |xs[1..]| && xs[1..][j] == y;
        assert xs[j + 1] == y;
      }
    }
  }

  /** Python's stable `sorted(xs, key=key)`. */
  function SortByKey<T(==,!new)>(xs: seq<T>, key: T -> seq<string>): (r: seq<T>)
    ensures SortedByKey(r, key)
    ensures multiset(r) == multiset(xs)
    decreases |xs|
  {
    if |xs| == 0 then []
    else
      assert xs == [xs[0]] + xs[1..];
      InsertByKey(xs[0], SortByKey(xs[1..], key), key)
  }
}

=== FILE: pagination.dfy ===
/**
 * Walking a paginated SAPL API (`pager` and the type listing in
 * `sapl_scrapper/scraper.py` and `experiments/tools/sapl_scrapper/utils/scraper.py`).
 * A response decodes into a shape; an envelope page yields its dict items
 * and names the next request. The two variants differ only in whether an
 * error while reading `pagination.links` is swallowed or escapes.
 */
module Pagination {
  import opened Wrappers
  import opened Text
  import opened JsonValue
  import opened Environment

  /** Query parameters of one request. */
  type Params = map<string, Json>

  /**
   * The JSON API: the decoded body of a 200 reply to `url` with `params`,
   * or `None` when the status is not 200, the transport fails or the body
   * is not JSON.
   */
  type Api = (string, Params) -> Option<Json>

  /**
   * A request signature `(url, tuple(sorted(params.items())))`. Parameter
   * names are distinct, so the sorted item tuple is determined by the
   * mapping, and two signatures are equal exactly when url and mapping are.
   */
  datatype Sig = Sig(url: string, params: Params)

  /** `sapl_scrapper/scraper.py` swallows errors in the link lookup; the experiments copy does not. */
  datatype Variant = Tools | Experiments

  // ---------------------------------------------------------------------
  // One response

  /** What a response is: no usable reply, a bare list, an envelope with `results`, or anything else. */
  datatype Shape = Fail | BareArray(items: seq<Json>) | Envelope(data: Obj) | Other

  function Decode(reply: Option<Json>): (s: Shape)
    ensures s.Fail? <==> reply.None?
    ensures s.BareArray? <==> reply.Some? && reply.value.JArr?
    ensures s.BareArray? ==> reply == Some(JArr(s.items))
    ensures s.Envelope? <==> reply.Some? && reply.value.JObj? && "results" in reply.value.fields
    ensures s.Envelope? ==> reply == Some(JObj(s.data))
  {
    match reply
    case None => Fail
    case Some(JArr(xs)) => BareArray(xs)
    case Some(JObj(m)) => if "results" in m then Envelope(m) else Other
    case Some(_) => Other
  }

  /**
   * `[x for x in v if isinstance(x, dict)]`: a list gives its dicts, a
   * string or a dict (iterating characters or keys) gives none, and `None`,
   * a number or a boolean cannot be iterated.
   */
  function IterDicts(v: Json): (r: Option<seq<Obj>>)
    ensures r.None? <==> v.JNull? || v.JInt? || v.JBool?
    ensures v.JArr? ==> r == Some(Dicts(v.items))
    ensures v.JStr? || v.JObj? ==> r == Some([])
  {
    match v
    case JArr(xs) => Some(Dicts(xs))
    case JStr(_) => Some([])
    case JObj(_) => Some([])
    case _ => None
  }

  /** `data.get("pagination") or {}`. */
  function PagOf(data: Obj): (p: Json)
    ensures Truthy(Get(data, "pagination")) ==> p == data["pagination"]
    ensures !Truthy(Get(data, "pagination")) ==> p == JObj(map[])
  {
    Or(Get(data, "pagination"), JObj(map[]))
  }

  /** Python's `int(v)`; `None` where it raises. */
  function PyInt(lib: Lib, v: Json): (r: Option<int>)
    ensures v.JInt? ==> r == Some(v.i)
    ensures v.JBool? ==> r == Some(if v.b then 1 else 0)
    ensures v.JStr? ==> r == lib.parseInt(v.s)
    ensures v.JNull? || v.JArr? || v.JObj? ==> r.None?
  {
    match v
    case JInt(i) => Some(i)
    case JBool(b) => Some(if b then 1 else 0)
    case JStr(s) => lib.parseInt(s)
    case _ => None
  }

  /**
   * The truthy numeric `next_page` of the pager: an integer, or a
   * non-empty string that `int` accepts, and not zero. A pagination value
   * that is not a dict reads as none (the error is swallowed).
   */
  function NextPageNumber(lib: Lib, pag: Json): (r: Option<int>)
    ensures r.Some? ==> r.value != 0 && pag.JObj?
    ensures pag.JObj? && Get(pag.fields, "next_page").JInt? && Get(pag.fields, "next_page").i != 0 ==>
      r == Some(Get(pag.fields, "next_page").i)
    ensures !pag.JObj? || !Truthy(Get(pag.fields, "next_page")) ==> r.None?
  {
    if !pag.JObj? then None
    else
      var np := Get(pag.fields, "next_page");
      if np.JInt? || np.JBool? || (np.JStr? && np.s != "") then
        match PyInt(lib, np)
        case Some(i) => if i != 0 then Some(i) else None
        case None => None
      else None
  }

  /** The outcome of reading `pagination.links.next`. */
  datatype LinkStep = NoLink | Link(url: string) | LinkRaised

  /**
   * `links = pag.get("links") or {}; if links.get("next"): urljoin(page, ...)`.
   * A pagination or links value that is not a dict, or a truthy `next`
   * that is not a string, raises; `Tools` swallows it.
   */
  function LinkNext(lib: Lib, v: Variant, page: string, pag: Json): (r: LinkStep)
    ensures r.LinkRaised? ==> v.Experiments?
    ensures r.Link? ==> pag.JObj? && exists s :: r.url == lib.join(page, s)
    ensures LinkValue(pag).JStr? && LinkValue(pag).s != "" ==> r == Link(lib.join(page, LinkValue(pag).s))
    ensures !Truthy(LinkValue(pag)) && pag.JObj? && LinksOf(pag).JObj? ==> r == NoLink
  {
    var fail := if v.Tools? then NoLink else LinkRaised;
    if !pag.JObj? then fail
    else
      var links := Or(Get(pag.fields, "links"), JObj(map[]));
      if !links.JObj? then fail
      else
        var ln := Get(links.fields, "next");
        if !Truthy(ln) then NoLink
        else if ln.JStr? then Link(lib.join(page, ln.s))
        else fail
  }

  /** `pag.get("links") or {}`, for a dict `pag`. */
  function LinksOf(pag: Json): (l: Json)
    requires pag.JObj?
    ensures !Truthy(Get(pag.fields, "links")) ==> l == JObj(map[])
  {
    Or(Get(pag.fields, "links"), JObj(map[]))
  }

  /** The value of `links.get("next")`, or null where there is no links dict to read. */
  function LinkValue(pag: Json): Json {
    if pag.JObj? && LinksOf(pag).JObj? then Get(LinksOf(pag).fields, "next") else JNull
  }

  /** The top-level `next`: a non-empty string, joined to the page url; `None` when absent or falsy. */
  function TopNext(lib: Lib, page: string, data: Obj): (r: Option<string>)
    ensures r.Some? ==> r.value != "" && Get(data, "next").JStr?
    ensures r.Some? ==> r.value == lib.join(page, Get(data, "next").s)
    ensures Get(data, "next").JStr? && Get(data, "next").s != "" && lib.join(page, Get(data, "next").s) != "" ==> r.Some?
  {
    var nxt := Get(data, "next");
    if nxt.JStr? && nxt.s != "" then
      var u := lib.join(page, nxt.s);
      if u != "" then Some(u) else None
    else None
  }

  // ---------------------------------------------------------------------
  // The pager

  /** Where the pager goes after an envelope page. */
  datatype Next = Goto(url: string, params: Params) | Stop | Raise

  /**
   * The pager's choice of the next request, by priority: a truthy numeric
   * `next_page` re-requests the base url with the base parameters plus
   * `page`; otherwise a `pagination.links.next` link, otherwise a
   * top-level `next`, each with the parameters cleared; otherwise stop.
   */
  function NextRequest(lib: Lib, v: Variant, base: Sig, page: string, data: Obj): (r: Next)
    ensures NextPageNumber(lib, PagOf(data)).Some? ==>
      r == Goto(base.url, base.params["page" := JInt(NextPageNumber(lib, PagOf(data)).value)])
    ensures NextPageNumber(lib, PagOf(data)).None? && LinkUrl(lib, v, page, data).Some? ==>
      r == Goto(LinkUrl(lib, v, page, data).value, map[])
    ensures NextPageNumber(lib, PagOf(data)).None? && LinkUrl(lib, v, page, data).None? && !r.Raise? ==>
      r == (if TopNext(lib, page, data).Some? then Goto(TopNext(lib, page, data).value, map[]) else Stop)
    ensures r.Raise? <==> NextPageNumber(lib, PagOf(data)).None? && LinkNext(lib, v, page, PagOf(data)).LinkRaised?
    ensures r.Goto? && r.url != base.url ==> r.params == map[]
  {
    var pag := PagOf(data);
    match NextPageNumber(lib, pag)
    case Some(n) => Goto(base.url, base.params["page" := JInt(n)])
    case None =>
      match LinkNext(lib, v, page, pag)
      case LinkRaised => Raise
      case Link(u) =>
        if u != "" then Goto(u, map[])
        else if TopNext(lib, page, data).Some? then Goto(TopNext(lib, page, data).value, map[]) else Stop
      case NoLink =>
        if TopNext(lib, page, data).Some? then Goto(TopNext(lib, page, data).value, map[]) else Stop
  }

  /** A usable (truthy) url from `pagination.links.next`. */
  function LinkUrl(lib: Lib, v: Variant, page: string, data: Obj): (r: Option<string>)
    ensures r.Some? <==> LinkNext(lib, v, page, PagOf(data)).Link? && LinkNext(lib, v, page, PagOf(data)).url != ""
    ensures r.Some? ==> r.value == LinkNext(lib, v, page, PagOf(data)).url
  {
    var l := LinkNext(lib, v, page, PagOf(data));
    if l.Link? && l.url != "" then Some(l.url) else None
  }

  /** One fetched page: the dict items it yields, and what comes next. */
  datatype PageStep = PageStep(items: seq<Obj>, next: Next)

  /**
   * One pager iteration: a failed or unrecognised response stops; a bare
   * list yields its dicts and stops; an envelope yields the dicts of
   * `results or []` (raising when that cannot be iterated) and asks for
   * the next request.
   */
  function StepPage(api: Api, lib: Lib, v: Variant, base: Sig, cur: Sig): (p: PageStep)
    ensures !Decode(api(cur.url, cur.params)).Envelope? ==> p.next == Stop
    ensures Decode(api(cur.url, cur.params)).BareArray? ==> p.items == Dicts(api(cur.url, cur.params).value.items)
    ensures Decode(api(cur.url, cur.params)).Fail? || Decode(api(cur.url, cur.params)).Other? ==> p.items == []
    ensures p.next.Goto? ==> Decode(api(cur.url, cur.params)).Envelope?
    ensures Decode(api(cur.url, cur.params)).Envelope? ==>
      var m := api(cur.url, cur.params).value.fields;
      var results := IterDicts(Or(Get(m, "results"), JArr([])));
      && (results.None? ==> p == PageStep([], Raise))
      && (results.Some? ==> p.items == results.value && p.next == NextRequest(lib, v, base, cur.url, m))
  {
    match Decode(api(cur.url, cur.params))
    case Fail => PageStep([], Stop)
    case Other => PageStep([], Stop)
    case BareArray(xs) => PageStep(Dicts(xs), Stop)
    case Envelope(m) =>
      match IterDicts(Or(Get(m, "results"), JArr([])))
      case None => PageStep([], Raise)
      case Some(items) => PageStep(items, NextRequest(lib, v, base, cur.url, m))
  }

  /** How a walk ended: it returned, an exception escaped, or the fuel ran out while it would go on. */
  datatype End = Finished | Raised | OutOfFuel

  /** The items yielded, the requests made in order, and how the walk ended. */
  datatype PagerRun = PagerRun(items: seq<Obj>, requests: seq<Sig>, end: End)

  /** The items the pages of `reqs` yield, in request order. */
  function PageItems(step: Sig -> PageStep, reqs: seq<Sig>): seq<Obj>
    decreases |reqs|
  {
    if |reqs| == 0 then [] else step(reqs[0]).items + PageItems(step, reqs[1..])
  }

  /** The page at `s` sends the walk on to `t`. */
  predicate LeadsTo(step: Sig -> PageStep, s: Sig, t: Sig) {
    step(s).next == Goto(t.url, t.params)
  }

  /**
   * The walk stops after the page at `s`: the page names no next request,
   * or names the signature `prev` computed just before.
   */
  predicate Halts(step: Sig -> PageStep, s: Sig, prev: Option<Sig>) {
    var n := step(s).next;
    n.Stop? || (n.Goto? && Some(Sig(n.url, n.params)) == prev)
  }

  /**
   * The loop shared by the pager and the type listing, from request `cur`
   * with at most `fuel` requests. `step` reads one page. When `guarded`, a
   * computed signature equal to `last`, the one computed before (`None`
   * before the first), stops the walk after the page's items were yielded.
   */
  function Walk(step: Sig -> PageStep, guarded: bool, cur: Sig, last: Option<Sig>, fuel: nat): (r: PagerRun)
    ensures |r.requests| <= fuel
    ensures fuel > 0 ==> |r.requests| > 0 && r.requests[0] == cur
    ensures r.end.OutOfFuel? ==> |r.requests| == fuel
    decreases fuel
  {
    if fuel == 0 then PagerRun([], [], OutOfFuel)
    else
      var p := step(cur);
      match p.next
      case Stop => PagerRun(p.items, [cur], Finished)
      case Raise => PagerRun(p.items, [cur], Raised)
      case Goto(u, ps) =>
        var sig := Sig(u, ps);
        if guarded && Some(sig) == last then PagerRun(p.items, [cur], Finished)
        else
          var rest := Walk(step, guarded, sig, Some(sig), fuel - 1);
          PagerRun(p.items + rest.items, [cur] + rest.requests, rest.end)
  }

  /**
   * What a walk yields is what its pages yield, in request order, and each
   * request after the first is the one the page before it named.
   */
  lemma {:induction false} WalkTrace(step: Sig -> PageStep, guarded: bool, cur: Sig, last: Option<Sig>, fuel: nat)
    ensures var r := Walk(step, guarded, cur, last, fuel);
      && r.items == PageItems(step, r.requests)
      && forall i :: 0 <= i < |r.requests| - 1 ==> LeadsTo(step, r.requests[i], r.requests[i + 1])
    decreases fuel
  {
    if fuel > 0 {
      PageItemsOne(step, cur);
      if step(cur).next.Goto? {
        var sig := Sig(step(cur).next.url, step(cur).next.params);
        if !(guarded && Some(sig) == last) {
          WalkTrace(step, guarded, sig, Some(sig), fuel - 1);
          WalkOn(step, guarded, cur, last, fuel, sig);
          var rest := Walk(step, guarded, sig, Some(sig), fuel - 1);
          PageItemsCons(step, cur, rest.requests);
          ChainCons(step, cur, sig, rest.requests);
        }
      }
    }
  }

  /** A walk that goes on from `cur`: its first page, then the walk from the computed signature. */
  lemma WalkOn(step: Sig -> PageStep, guarded: bool, cur: Sig, last: Option<Sig>, fuel: nat, sig: Sig)
    requires fuel > 0 && LeadsTo(step, cur, sig) && !(guarded && Some(sig) == last)
    ensures var rest := Walk(step, guarded, sig, Some(sig), fuel - 1);
      Walk(step, guarded, cur, last, fuel) == PagerRun(step(cur).items + rest.items, [cur] + rest.requests, rest.end)
  {
  }

  lemma PageItemsOne(step: Sig -> PageStep, cur: Sig)
    ensures PageItems(step, [cur]) == step(cur).items
  {
    assert [cur][1..] == [];
    assert step(cur).items + [] == step(cur).items;
  }

  lemma PageItemsCons(step: Sig -> PageStep, cur: Sig, reqs: seq<Sig>)
    ensures PageItems(step, [cur] + reqs) == step(cur).items + PageItems(step, reqs)
  {
    assert ([cur] + reqs)[1..] == reqs;
  }

  lemma ChainCons(step: Sig -> PageStep, cur: Sig, sig: Sig, reqs: seq<Sig>)
    requires LeadsTo(step, cur, sig)
    requires |reqs| > 0 ==> reqs[0] == sig
    requires forall i :: 0 <= i < |reqs| - 1 ==> LeadsTo(step, reqs[i], reqs[i + 1])
    ensures var all := [cur] + reqs;
      forall i :: 0 <= i < |all| - 1 ==> LeadsTo(step, all[i], all[i + 1])
  {
    var all := [cur] + reqs;
    forall i | 0 <= i < |all| - 1 ensures LeadsTo(step, all[i], all[i + 1]) {
      if i > 0 {
        assert all[i] == reqs[i - 1] && all[i + 1] == reqs[i];
      }
    }
  }

  /**
   * The guard: a guarded walk never requests the signature computed just
   * before, `last` for the second request and the previous request after.
   */
  lemma {:induction false} WalkGuard(step: Sig -> PageStep, cur: Sig, last: Option<Sig>, fuel: nat)
    ensures Guarded(Walk(step, true, cur, last, fuel).requests, last)
    decreases fuel
  {
    if fuel > 0 && step(cur).next.Goto? {
      var sig := Sig(step(cur).next.url, step(cur).next.params);
      if Some(sig) != last {
        WalkGuard(step, sig, Some(sig), fuel - 1);
        WalkOn(step, true, cur, last, fuel, sig);
        var rest := Walk(step, true, sig, Some(sig), fuel - 1).requests;
        GuardCons(cur, sig, last, rest);
      }
    }
  }

  /**
   * How a walk ends: an escaped exception comes from the last page read; a
   * walk that returned did so because its last page named no next request
   * or, when guarded, named the signature computed just before.
   */
  lemma {:induction false} WalkEnds(step: Sig -> PageStep, guarded: bool, cur: Sig, last: Option<Sig>, fuel: nat)
    ensures EndsAsStated(step, guarded, Walk(step, guarded, cur, last, fuel), last)
    decreases fuel
  {
    if fuel > 0 && step(cur).next.Goto? {
      var sig := Sig(step(cur).next.url, step(cur).next.params);
      if !(guarded && Some(sig) == last) {
        WalkEnds(step, guarded, sig, Some(sig), fuel - 1);
        WalkOn(step, guarded, cur, last, fuel, sig);
        var rest := Walk(step, guarded, sig, Some(sig), fuel - 1);
        EndsCons(step, guarded, cur, sig, last, rest);
      }
    }
  }

  /**
   * How a walk ends: an escaped exception comes from the last page read; a
   * walk that returned did so because its last page named no next request
   * or, when guarded, named the signature computed just before (`last`
   * when that page was the first).
   */
  predicate EndsAsStated(step: Sig -> PageStep, guarded: bool, r: PagerRun, last: Option<Sig>) {
    && (r.end.Raised? ==> |r.requests| > 0 && step(r.requests[|r.requests| - 1]).next == Raise)
    && (r.end.Finished? ==>
          |r.requests| > 0 && Halts(step, r.requests[|r.requests| - 1],
                                    if !guarded then None
                                    else if |r.requests| == 1 then last else Some(r.requests[|r.requests| - 1])))
  }

  lemma EndsCons(step: Sig -> PageStep, guarded: bool, cur: Sig, sig: Sig, last: Option<Sig>, rest: PagerRun)
    requires |rest.requests| > 0 ==> rest.requests[0] == sig
    requires EndsAsStated(step, guarded, rest, Some(sig))
    ensures EndsAsStated(step, guarded, PagerRun(step(cur).items + rest.items, [cur] + rest.requests, rest.end), last)
  {
    var all := [cur] + rest.requests;
    if |rest.requests| > 0 {
      assert all[|all| - 1] == rest.requests[|rest.requests| - 1];
    }
  }

  /**
   * No request of `reqs` after the first is the signature computed before
   * it: `last` for the second, the request just before for the others.
   */
  predicate Guarded(reqs: seq<Sig>, last: Option<Sig>) {
    forall i :: 1 <= i < |reqs| ==> Some(reqs[i]) != (if i == 1 then last else Some(reqs[i - 1]))
  }

  lemma GuardCons(cur: Sig, sig: Sig, last: Option<Sig>, reqs: seq<Sig>)
    requires Some(sig) != last
    requires |reqs| > 0 ==> reqs[0] == sig
    requires Guarded(reqs, Some(sig))
    ensures Guarded([cur] + reqs, last)
  {
    var all := [cur] + reqs;
    forall i | 1 <= i < |all| ensures Some(all[i]) != (if i == 1 then last else Some(all[i - 1])) {
      assert all[i] == reqs[i - 1];
      if i >= 2 {
        assert all[i - 1] == reqs[i - 2];
      }
    }
  }

  /** The pager's step: `StepPage` against the base request. */
  function PagerStep(api: Api, lib: Lib, v: Variant, base: Sig): (step: Sig -> PageStep)
    ensures forall s :: step(s) == StepPage(api, lib, v, base, s)
  {
    s => StepPage(api, lib, v, base, s)
  }

  /** `pager(url, params)`, with at most `fuel` requests. */
  function Pager(api: Api, lib: Lib, v: Variant, url: string, params: Params, fuel: nat): (r: PagerRun)
    ensures fuel > 0 ==> |r.requests| > 0 && r.requests[0] == Sig(url, params)
    ensures r.end.OutOfFuel? ==> |r.requests| == fuel
    ensures r.items == PageItems(PagerStep(api, lib, v, Sig(url, params)), r.requests)
    ensures forall i :: 0 <= i < |r.requests| - 1 ==>
      LeadsTo(PagerStep(api, lib, v, Sig(url, params)), r.requests[i], r.requests[i + 1])
    ensures forall i :: 2 <= i < |r.requests| ==> r.requests[i] != r.requests[i - 1]
    ensures r.end.Raised? ==>
      |r.requests| > 0 && PagerStep(api, lib, v, Sig(url, params))(r.requests[|r.requests| - 1]).next == Raise
    ensures r.end.Finished? ==>
      |r.requests| > 0 && Halts(PagerStep(api, lib, v, Sig(url, params)), r.requests[|r.requests| - 1],
                                if |r.requests| == 1 then None else Some(r.requests[|r.requests| - 1]))
  {
    WalkTrace(PagerStep(api, lib, v, Sig(url, params)), true, Sig(url, params), None, fuel);
    WalkGuard(PagerStep(api, lib, v, Sig(url, params)), Sig(url, params), None, fuel);
    WalkEnds(PagerStep(api, lib, v, Sig(url, params)), true, Sig(url, params), None, fuel);
    Walk(PagerStep(api, lib, v, Sig(url, params)), true, Sig(url, params), None, fuel)
  }

  /** No request in `reqs` from index `from` on repeats the one just before it. */
  predicate NoRepeatFrom(reqs: seq<Sig>, from: nat) {
    forall i :: from <= i < |reqs| && i >= 1 ==> reqs[i] != reqs[i - 1]
  }

  /**
   * The loop guard: from the third request on, no request repeats the one
   * just before it. The second may repeat the first, since nothing was
   * computed before the first request.
   */
  lemma PagerNeverRepeats(api: Api, lib: Lib, v: Variant, url: string, params: Params, fuel: nat)
    ensures NoRepeatFrom(Pager(api, lib, v, url, params, fuel).requests, 2)
  {
    WalkGuard(PagerStep(api, lib, v, Sig(url, params)), Sig(url, params), None, fuel);
  }

  // ---------------------------------------------------------------------
  // Two walks the guard does not stop early

  /** A library whose `urljoin` returns the reference unchanged and whose `int` accepts nothing. */
  function RefLib(): (lib: Lib)
    ensures forall a, b :: lib.join(a, b) == b
  {
    Lib(s => None, (a, b) => b, c => [c], s => None, s => [], s => [])
  }

  /** An envelope with the given results whose top-level `next` is `next`. */
  function Page(results: seq<Json>, next: string): (j: Json)
    ensures j.JObj? && "results" in j.fields && j.fields["results"] == JArr(results)
  {
    JObj(map["results" := JArr(results), "next" := JStr(next)])
  }

  /** Every request gets the same page, which links to `u` itself. */
  function SelfApi(u: string, item: Obj): Api {
    (url, ps) => Some(Page([JObj(item)], u))
  }

  lemma SelfPageNext(u: string, item: Obj, v: Variant, base: Sig, cur: Sig)
    requires u != ""
    ensures StepPage(SelfApi(u, item), RefLib(), v, base, cur) == PageStep([item], Goto(u, map[]))
  {
    var m := Page([JObj(item)], u).fields;
    assert Get(m, "pagination") == JNull;
    assert PagOf(m) == JObj(map[]);
    assert TopNext(RefLib(), cur.url, m) == Some(u);
    assert Dicts([JObj(item)]) == [item] by {
      assert [JObj(item)][..0] == [];
    }
  }

  /**
   * A first page whose `next` names itself is fetched twice and its items
   * yielded twice: the first computed signature has nothing to compare
   * with. The third computation trips the guard.
   */
  lemma FirstPageFetchedTwice(u: string, item: Obj, v: Variant, fuel: nat)
    requires u != "" && fuel >= 2
    ensures Pager(SelfApi(u, item), RefLib(), v, u, map[], fuel)
      == PagerRun([item, item], [Sig(u, map[]), Sig(u, map[])], Finished)
  {
    var base := Sig(u, map[]);
    var step := PagerStep(SelfApi(u, item), RefLib(), v, base);
    SelfPageNext(u, item, v, base, base);
    assert step(base) == PageStep([item], Goto(u, map[]));
    assert Walk(step, true, base, Some(base), fuel - 1) == PagerRun([item], [base], Finished);
    assert Walk(step, true, base, None, fuel) == PagerRun([item] + [item], [base] + [base], Finished);
  }

  /** Page `a` links to `b` and every other page links to `a`. */
  function CycleApi(): Api {
    (url, ps) => Some(Page([], if url == "a" then "b" else "a"))
  }

  lemma CycleStep(v: Variant, base: Sig, cur: Sig)
    ensures StepPage(CycleApi(), RefLib(), v, base, cur)
      == PageStep([], Goto(if cur.url == "a" then "b" else "a", map[]))
  {
    var m := Page([], if cur.url == "a" then "b" else "a").fields;
    assert Get(m, "pagination") == JNull;
    assert PagOf(m) == JObj(map[]);
  }

  lemma {:induction false} CycleRunsOn(v: Variant, base: Sig, cur: Sig, fuel: nat)
    requires cur.url == "a" || cur.url == "b"
    requires cur.params == map[]
    ensures Walk(PagerStep(CycleApi(), RefLib(), v, base), true, cur, Some(cur), fuel).end == OutOfFuel
    decreases fuel
  {
    if fuel > 0 {
      var step := PagerStep(CycleApi(), RefLib(), v, base);
      CycleStep(v, base, cur);
      var next := Sig(if cur.url == "a" then "b" else "a", map[]);
      assert step(cur).next == Goto(next.url, next.params);
      assert next != cur;
      CycleRunsOn(v, base, next, fuel - 1);
    }
  }

  /** The cycle walk from `a`: `a`, `b`, `a` again, and on until the fuel runs out. */
  lemma TwoCycleWalk(v: Variant, fuel: nat)
    ensures var r := Walk(PagerStep(CycleApi(), RefLib(), v, Sig("a", map[])), true, Sig("a", map[]), None, fuel);
      r.end == OutOfFuel && (fuel >= 3 ==> r.requests[..3] == [Sig("a", map[]), Sig("b", map[]), Sig("a", map[])])
  {
    var a, b := Sig("a", map[]), Sig("b", map[]);
    var step := PagerStep(CycleApi(), RefLib(), v, a);
    if fuel > 0 {
      CycleStep(v, a, a);
      CycleStep(v, a, b);
      assert LeadsTo(step, a, b) && LeadsTo(step, b, a);
      WalkOn(step, true, a, None, fuel, b);
      CycleRunsOn(v, a, b, fuel - 1);
      if fuel >= 3 {
        WalkOn(step, true, b, Some(b), fuel - 1, a);
        WalkOn(step, true, a, Some(a), fuel - 2, b);
        var r3 := Walk(step, true, b, Some(b), fuel - 3);
        assert Walk(step, true, a, None, fuel).requests == [a] + ([b] + ([a] + r3.requests));
      }
    }
  }

  /**
   * Two pages that link to each other are requested alternately until the
   * fuel runs out, however much there is: the guard compares only with
   * the signature just before.
   */
  lemma TwoCycleNotCaught(v: Variant, fuel: nat)
    ensures var r := Pager(CycleApi(), RefLib(), v, "a", map[], fuel);
      r.end == OutOfFuel && (fuel >= 3 ==> r.requests[2] == r.requests[0] != r.requests[1])
  {
    TwoCycleWalk(v, fuel);
    var r := Pager(CycleApi(), RefLib(), v, "a", map[], fuel);
    assert r == Walk(PagerStep(CycleApi(), RefLib(), v, Sig("a", map[])), true, Sig("a", map[]), None, fuel);
    if fuel >= 3 {
      assert r.requests[..3][2] == r.requests[2];
    }
  }

  // ---------------------------------------------------------------------
  // The type listing

  /**
   * The type listing's choice of the next request, by the opposite
   * priority: a `pagination.links.next` link, then a top-level `next`,
   * then a truthy `next_page` on the base url. A chosen url containing
   * `?` clears the parameters; any other keeps the current ones.
   */
  function ListNext(lib: Lib, v: Variant, baseUrl: string, cur: Sig, data: Obj): (r: Next)
    ensures r.Raise? <==> LinkNext(lib, v, cur.url, PagOf(data)).LinkRaised?
    ensures LinkUrl(lib, v, cur.url, data).Some? ==>
      r.Goto? && r.url == LinkUrl(lib, v, cur.url, data).value
      && r.params == (if Contains(r.url, "?") then map[] else cur.params)
    ensures r.Goto? && Contains(r.url, "?") ==> r.params == map[]
    ensures r.Goto? ==> r.url != ""
    ensures (!LinkNext(lib, v, cur.url, PagOf(data)).LinkRaised? && LinkUrl(lib, v, cur.url, data).None?
             && TopNext(lib, cur.url, data).Some?) ==>
        r.Goto? && r.url == TopNext(lib, cur.url, data).value
        && r.params == (if Contains(r.url, "?") then map[] else cur.params)
    ensures (!LinkNext(lib, v, cur.url, PagOf(data)).LinkRaised? && LinkUrl(lib, v, cur.url, data).None?
             && TopNext(lib, cur.url, data).None?) ==>
        if NumericNext(lib, v, baseUrl, cur.params, PagOf(data)).Some? && baseUrl != "" then
          r.Goto? && r.url == baseUrl
          && (!Contains(baseUrl, "?") ==> r.params == NumericNext(lib, v, baseUrl, cur.params, PagOf(data)).value.params)
        else r == Stop
  {
    var pag := PagOf(data);
    var l := LinkNext(lib, v, cur.url, pag);
    if l.LinkRaised? then Raise
    else
      var chosen: Option<Sig> :=
        if l.Link? && l.url != "" then Some(Sig(l.url, cur.params))
        else if TopNext(lib, cur.url, data).Some? then Some(Sig(TopNext(lib, cur.url, data).value, cur.params))
        else NumericNext(lib, v, baseUrl, cur.params, pag);
      match chosen
      case None => Stop
      case Some(sig) => if sig.url == "" then Stop else Goto(sig.url, if Contains(sig.url, "?") then map[] else sig.params)
  }

  /**
   * The numeric step of the type listing, for a truthy `next_page`: the
   * base url with `page_size` kept (500 by default) and `page` set. The
   * tools copy passes the value through; the experiments copy applies
   * `int`, and when that raises the base url has already been chosen, so
   * the current parameters are kept.
   */
  function NumericNext(lib: Lib, v: Variant, baseUrl: string, params: Params, pag: Json): (r: Option<Sig>)
    ensures r.Some? ==> r.value.url == baseUrl
    ensures r.Some? <==> pag.JObj? && Truthy(Get(pag.fields, "next_page"))
  {
    if !pag.JObj? then None
    else
      var np := Get(pag.fields, "next_page");
      if !Truthy(np) then None
      else
        var size := GetOr(params, "page_size", JInt(500));
        match v
        case Tools => Some(Sig(baseUrl, map["page_size" := size, "page" := np]))
        case Experiments =>
          match PyInt(lib, np)
          case Some(n) => Some(Sig(baseUrl, map["page_size" := size, "page" := JInt(n)]))
          case None => Some(Sig(baseUrl, params))
  }

  /**
   * One page of the type listing: like the pager's, except that `results`
   * is iterated without `or []`, so a null `results` raises, and the next
   * request is chosen by `ListNext`.
   */
  function ListPage(api: Api, lib: Lib, v: Variant, baseUrl: string, cur: Sig): (p: PageStep)
    ensures !Decode(api(cur.url, cur.params)).Envelope? ==> p.next == Stop
    ensures Decode(api(cur.url, cur.params)).BareArray? ==> p.items == Dicts(api(cur.url, cur.params).value.items)
    ensures Decode(api(cur.url, cur.params)).Fail? || Decode(api(cur.url, cur.params)).Other? ==> p.items == []
    ensures Decode(api(cur.url, cur.params)).Envelope? ==>
      var m := api(cur.url, cur.params).value.fields;
      var results := IterDicts(Get(m, "results"));
      && (results.None? ==> p == PageStep([], Raise))
      && (results.Some? ==> p.items == results.value && p.next == ListNext(lib, v, baseUrl, cur, m))
  {
    match Decode(api(cur.url, cur.params))
    case Fail => PageStep([], Stop)
    case Other => PageStep([], Stop)
    case BareArray(xs) => PageStep(Dicts(xs), Stop)
    case Envelope(m) =>
      match IterDicts(Get(m, "results"))
      case None => PageStep([], Raise)
      case Some(ts) => PageStep(ts, ListNext(lib, v, baseUrl, cur, m))
  }

  /** The type listing's step against `baseUrl`. */
  function ListStep(api: Api, lib: Lib, v: Variant, baseUrl: string): (step: Sig -> PageStep)
    ensures forall s :: step(s) == ListPage(api, lib, v, baseUrl, s)
  {
    s => ListPage(api, lib, v, baseUrl, s)
  }

  /** The types collected, the requests made, and how the listing ended. */
  datatype ListRun = ListRun(types: seq<Obj>, requests: seq<Sig>, end: End)

  /**
   * The type-listing loop: the shared walk with no guard, so nothing but
   * the server stops it.
   */
  function ListFrom(api: Api, lib: Lib, v: Variant, baseUrl: string, cur: Sig, fuel: nat): (r: ListRun)
    ensures |r.requests| <= fuel
    ensures fuel > 0 ==> |r.requests| > 0 && r.requests[0] == cur
    ensures r.end.OutOfFuel? ==> |r.requests| == fuel
    ensures r.types == PageItems(ListStep(api, lib, v, baseUrl), r.requests)
    ensures forall i :: 0 <= i < |r.requests| - 1 ==>
      LeadsTo(ListStep(api, lib, v, baseUrl), r.requests[i], r.requests[i + 1])
    ensures r.end.Raised? ==>
      |r.requests| > 0 && ListStep(api, lib, v, baseUrl)(r.requests[|r.requests| - 1]).next == Raise
    ensures r.end.Finished? ==>
      |r.requests| > 0 && ListStep(api, lib, v, baseUrl)(r.requests[|r.requests| - 1]).next == Stop
  {
    var step := ListStep(api, lib, v, baseUrl);
    WalkTrace(step, false, cur, None, fuel);
    WalkEnds(step, false, cur, None, fuel);
    var w := Walk(step, false, cur, None, fuel);
    ListRun(w.items, w.requests, w.end)
  }

  /** The url of the type listing for a base. */
  function TypesUrl(base: string): (u: string)
    ensures EndsWith(u, "/api/materia/tipomaterialegislativa/")
  {
    RStripSlash(base) + "/api/materia/tipomaterialegislativa/"
  }

  /** All pages of the type listing, starting with `page_size` 500. */
  function ListTypePages(api: Api, lib: Lib, v: Variant, base: string, fuel: nat): (r: ListRun)
    ensures fuel > 0 ==> |r.requests| > 0 && r.requests[0] == Sig(TypesUrl(base), map["page_size" := JInt(500)])
  {
    ListFrom(api, lib, v, TypesUrl(base), Sig(TypesUrl(base), map["page_size" := JInt(500)]), fuel)
  }

  /** The self-linking page, read by the type listing: its item, then itself with the parameters kept. */
  lemma SelfListPage(u: string, item: Obj, v: Variant, baseUrl: string, cur: Sig)
    requires u != "" && !Contains(u, "?")
    ensures ListPage(SelfApi(u, item), RefLib(), v, baseUrl, cur) == PageStep([item], Goto(u, cur.params))
  {
    var m := Page([JObj(item)], u).fields;
    assert Get(m, "pagination") == JNull;
    assert PagOf(m) == JObj(map[]);
    assert TopNext(RefLib(), cur.url, m) == Some(u);
    assert ListNext(RefLib(), v, baseUrl, cur, m) == Goto(u, cur.params);
    assert Dicts([JObj(item)]) == [item] by {
      assert [JObj(item)][..0] == [];
    }
  }

  lemma {:induction false} SelfListWalks(u: string, item: Obj, v: Variant, baseUrl: string, cur: Sig,
                                         last: Option<Sig>, fuel: nat)
    requires u != "" && !Contains(u, "?")
    ensures var r := Walk(ListStep(SelfApi(u, item), RefLib(), v, baseUrl), false, cur, last, fuel);
      r.end == OutOfFuel && forall i :: 1 <= i < |r.requests| ==> r.requests[i] == Sig(u, cur.params)
    decreases fuel
  {
    if fuel > 0 {
      var step := ListStep(SelfApi(u, item), RefLib(), v, baseUrl);
      SelfListPage(u, item, v, baseUrl, cur);
      assert step(cur) == PageStep([item], Goto(u, cur.params));
      var next := Sig(u, cur.params);
      SelfListWalks(u, item, v, baseUrl, next, Some(next), fuel - 1);
      WalkOn(step, false, cur, last, fuel, next);
      var r := Walk(step, false, cur, last, fuel);
      var rest := Walk(step, false, next, Some(next), fuel - 1);
      forall i | 1 <= i < |r.requests| ensures r.requests[i] == next {
        assert r.requests[i] == rest.requests[i - 1];
      }
    }
  }

  /** A listing whose every page names itself runs until the fuel is spent, re-requesting the same page. */
  lemma SelfListRunsOn(u: string, item: Obj, v: Variant, baseUrl: string, cur: Sig, fuel: nat)
    requires u != "" && !Contains(u, "?")
    ensures var r := ListFrom(SelfApi(u, item), RefLib(), v, baseUrl, cur, fuel);
      r.end == OutOfFuel && forall i :: 1 <= i < |r.requests| ==> r.requests[i] == Sig(u, cur.params)
  {
    SelfListWalks(u, item, v, baseUrl, cur, None, fuel);
  }

  /**
   * The type listing has no loop guard: a page whose `next` names itself
   * is requested again and again, where the pager would stop at the third
   * request.
   */
  lemma ListingHasNoGuard(u: string, item: Obj, v: Variant, base: string, fuel: nat)
    requires u != "" && !Contains(u, "?")
    ensures var r := ListTypePages(SelfApi(u, item), RefLib(), v, base, fuel);
      r.end == OutOfFuel && forall i :: 1 <= i < |r.requests| ==> r.requests[i] == Sig(u, map["page_size" := JInt(500)])
  {
    SelfListRunsOn(u, item, v, TypesUrl(base), Sig(TypesUrl(base), map["page_size" := JInt(500)]), fuel);
  }

  /**
   * When `next_page` is a string `int` rejects, the experiments copy has
   * already chosen the base url and keeps its parameters, so it requests
   * the same signature again; the tools copy sends the raw value as `page`.
   */
  lemma RejectedPageNumberRepeats(lib: Lib, baseUrl: string, s: string, data: Obj)
    requires lib.parseInt(s) == None && s != "" && baseUrl != "" && !Contains(baseUrl, "?")
    requires Get(data, "pagination") == JObj(map["next_page" := JStr(s)])
    requires !Get(data, "next").JStr?
    ensures var cur := Sig(baseUrl, map["page_size" := JInt(500)]);
      ListNext(lib, Experiments, baseUrl, cur, data) == Goto(baseUrl, cur.params)
      && ListNext(lib, Tools, baseUrl, cur, data)
        == Goto(baseUrl, map["page_size" := JInt(500), "page" := JStr(s)])
  {
    var pag := JObj(map["next_page" := JStr(s)]);
    assert PagOf(data) == pag;
    assert Get(pag.fields, "links") == JNull;
  }
}

=== FILE: scrape_output.dfy ===
/**
 * The extraction's output stage (`sapl_scrapper/output.py`): `PLWriter`
 * persists each matter once, keyed by base and matter id, as a CSV row of
 * its known fields and a JSONL line of the whole record, and its
 * aggregate JSON keeps the order of arrival.
 */
module ScrapeOutput {
  import opened Wrappers
  import opened JsonValue
  import Dedup
  import Csv

  /** The CSV header, which is also the projection order of every data row. */
  const CsvFields: seq<string> := [
    "sapl_base", "sapl_url", "municipio", "uf", "tipo_id", "tipo_label", "materia_id", "numero", "ano",
    "ementa", "data_apresentacao", "em_tramitacao", "situacao", "link_publico",
    "ultima_tramitacao_data", "ultima_tramitacao_status"]

  /**
   * `PLWriter._key`: `"{base}|{mid}"` for a truthy `sapl_base` and a
   * `materia_id` that is not `None`, else no key.
   */
  function PlKey(row: Obj): (k: Option<string>)
    ensures k.Some? <==> Truthy(Get(row, "sapl_base")) && Get(row, "materia_id") != JNull
    ensures k.Some? ==> k.value == PyStr(row["sapl_base"]) + "|" + PyStr(row["materia_id"])
  {
    var base := Or(Get(row, "sapl_base"), JStr(""));
    var mid := Get(row, "materia_id");
    if !Truthy(base) || mid.JNull? then None else Some(PyStr(base) + "|" + PyStr(mid))
  }

  /**
   * The key separates its parts: two keys over bases without `|` are
   * equal only when the bases are equal and the ids render alike.
   */
  lemma {:induction false} KeyPartsDetermined(b1: string, b2: string, s1: string, s2: string)
    requires '|' !in b1 && '|' !in b2
    requires b1 + "|" + s1 == b2 + "|" + s2
    ensures b1 == b2 && s1 == s2
  {
    var k := b1 + "|" + s1;
    BarAfterBase(b1, s1);
    BarAfterBase(b2, s2);
    if |b1| < |b2| {
      assert false;
    } else if |b2| < |b1| {
      assert false;
    }
    assert b1 == k[..|b1|] == b2;
    assert s1 == k[|b1| + 1..] == s2;
  }

  /** In a key over a base without `|`, the first `|` follows the base. */
  lemma BarAfterBase(b: string, s: string)
    requires '|' !in b
    ensures (b + "|" + s)[|b|] == '|'
    ensures forall i :: 0 <= i < |b| ==> (b + "|" + s)[i] != '|'
  {
  }

  /**
   * `PLWriter`: the dedup log over keys, the CSV lines written (header
   * first), and the JSONL lines when that file was asked for.
   */
  datatype PlWriter = PlWriter(log: Dedup.Log<string, Obj>, csv: seq<seq<string>>, jsonl: Option<seq<Obj>>)

  /** The writer just constructed: the header written, nothing else. */
  function NewWriter(withJsonl: bool): (w: PlWriter)
    ensures Good(w) && w.log.rows == [] && w.csv == [CsvFields]
    ensures w.jsonl.Some? <==> withJsonl
  {
    PlWriter(Dedup.Empty(), [CsvFields], if withJsonl then Some([]) else None)
  }

  /**
   * The writer's invariant: `count == len(rows) == |seen|`, the CSV is the
   * header followed by the projection of each row, and the JSONL file
   * holds the rows.
   */
  predicate Good(w: PlWriter) {
    Dedup.Consistent(w.log)
    && |w.csv| == |w.log.rows| + 1 && w.csv[0] == CsvFields
    && (forall i :: 0 <= i < |w.log.rows| ==> w.csv[i + 1] == Csv.Project(CsvFields, w.log.rows[i]))
    && (w.jsonl.Some? ==> w.jsonl.value == w.log.rows)
  }

  /** `PLWriter.emit`. */
  function Emit(w: PlWriter, row: Obj): (r: PlWriter)
    ensures PlKey(row).None? ==> r == w
    ensures PlKey(row).Some? && PlKey(row).value in w.log.seen ==> r == w
    ensures PlKey(row).Some? && PlKey(row).value !in w.log.seen ==>
      r.log.seen == w.log.seen + {PlKey(row).value}
      && r.log.rows == w.log.rows + [row] && r.log.count == w.log.count + 1
      && r.csv == w.csv + [Csv.Project(CsvFields, row)]
      && r.jsonl.Some? == w.jsonl.Some?
    ensures Good(w) ==> Good(r)
  {
    var step := Dedup.Accept(w.log, PlKey(row), row);
    if !step.accepted then w
    else
      PlWriter(step.log, w.csv + [Csv.Project(CsvFields, row)],
               if w.jsonl.Some? then Some(w.jsonl.value + [row]) else None)
  }

  /** Every record of a run, emitted in order. */
  function EmitAll(w: PlWriter, rows: seq<Obj>): (r: PlWriter)
    ensures Good(w) ==> Good(r)
    ensures r.jsonl.Some? == w.jsonl.Some?
    decreases |rows|
  {
    if |rows| == 0 then w else Emit(EmitAll(w, rows[..|rows| - 1]), rows[|rows| - 1])
  }

  /** Emitting two batches one after the other is emitting their concatenation. */
  lemma {:induction false} EmitAllAppend(w: PlWriter, a: seq<Obj>, b: seq<Obj>)
    ensures EmitAll(EmitAll(w, a), b) == EmitAll(w, a + b)
    decreases |b|
  {
    if |b| > 0 {
      var b0 := b[..|b| - 1];
      EmitAllAppend(w, a, b0);
      assert (a + b)[..|a + b| - 1] == a + b0;
    } else {
      assert a + b == a;
    }
  }

  function KeyEntries(rows: seq<Obj>): (es: seq<Dedup.Entry<string, Obj>>)
    ensures |es| == |rows|
    ensures forall i :: 0 <= i < |rows| ==> es[i] == Dedup.Entry(PlKey(rows[i]), rows[i])
  {
    seq(|rows|, i requires 0 <= i < |rows| => Dedup.Entry(PlKey(rows[i]), rows[i]))
  }

  /**
   * After any stream of records the writer holds exactly the first record
   * of each key, in arrival order, with distinct keys.
   */
  lemma {:induction false} EmitAllKeepsFirst(withJsonl: bool, rows: seq<Obj>)
    ensures EmitAll(NewWriter(withJsonl), rows).log == Dedup.AcceptAll(Dedup.Empty(), KeyEntries(rows))
    ensures EmitAll(NewWriter(withJsonl), rows).log.rows == Dedup.FirstOccurrences(KeyEntries(rows))
    ensures Dedup.DistinctKeys(EmitAll(NewWriter(withJsonl), rows).log.rows, PlKey)
    decreases |rows|
  {
    var es := KeyEntries(rows);
    if |rows| > 0 {
      var init := rows[..|rows| - 1];
      EmitAllKeepsFirst(withJsonl, init);
      assert es[..|es| - 1] == KeyEntries(init);
    }
    Dedup.AcceptAllIsFirstOccurrences(es);
    Dedup.FirstOccurrencesDistinct(es, PlKey);
  }

  /** `PLWriter.rows`: the rows in arrival order (a copy, which a value model gives for free). */
  function Rows(w: PlWriter): (r: seq<Obj>)
    ensures r == w.log.rows
    ensures Good(w) ==> |r| == w.log.count
  {
    w.log.rows
  }

  /**
   * After a run, `rows` is the first record of each key in arrival order,
   * with no two rows sharing a key.
   */
  lemma RowsAfterRun(withJsonl: bool, records: seq<Obj>)
    ensures Rows(EmitAll(NewWriter(withJsonl), records)) == Dedup.FirstOccurrences(KeyEntries(records))
    ensures Dedup.DistinctKeys(Rows(EmitAll(NewWriter(withJsonl), records)), PlKey)
  {
    EmitAllKeepsFirst(withJsonl, records);
  }

  /**
   * `finalize_json` writes the rows in arrival order, with no sorting:
   * after a run it is the first record of each key, in the order the
   * records arrived.
   */
  lemma FinalizeJsonInArrivalOrder(withJsonl: bool, rows: seq<Obj>)
    ensures Rows(EmitAll(NewWriter(withJsonl), rows)) == Dedup.FirstOccurrences(KeyEntries(rows))
    ensures Good(EmitAll(NewWriter(withJsonl), rows))
  {
    EmitAllKeepsFirst(withJsonl, rows);
  }
}

=== FILE: scrape_runner.dfy ===
/**
 * The extraction runs: `run_scrape` in `sapl_scrapper/runner.py` and the
 * experimental `sapl_scrapper.py`. Both read the finder's JSONL, decide
 * per input which base to scrape, and feed every collected record to
 * their dedup writer. The bases are taken one after another; the real
 * runs interleave them under a semaphore, which the writers' locks make
 * equivalent only for the set of keys each writer keeps once no base
 * fails: the order of rows, and which record is kept for a key two bases
 * share, depend on scheduling.
 */
module ScrapeRunner {
  import opened Wrappers
  import opened JsonValue
  import Text
  import Environment
  import Dedup
  import Pagination
  import Extraction
  import ScrapeOutput
  import ExperimentOutput

  /** The input file: absent, or its lines. */
  datatype Input = NoFile | File(lines: seq<string>)

  // ---------------------------------------------------------------------
  // Input lines

  /** The value one line yields: none when blank once stripped or not valid JSON. */
  function LineValue(lib: Environment.Lib, line: string): (v: Option<Json>)
    ensures v.Some? <==> Text.Strip(line) != [] && lib.parse(Text.Strip(line)).Some?
    ensures v.Some? ==> v == lib.parse(Text.Strip(line))
  {
    var s := Text.Strip(line);
    if s == [] then None else lib.parse(s)
  }

  /** The present results of `f` over `xs`, in order. */
  function KeepSome<A, B>(f: A -> Option<B>, xs: seq<A>): (r: seq<B>)
    ensures |r| <= |xs|
    decreases |xs|
  {
    if |xs| == 0 then []
    else
      var last := f(xs[|xs| - 1]);
      KeepSome(f, xs[..|xs| - 1]) + (if last.Some? then [last.value] else [])
  }

  lemma {:induction false} KeepSomeSound<A, B>(f: A -> Option<B>, xs: seq<A>)
    ensures forall y :: y in KeepSome(f, xs) ==> exists i :: 0 <= i < |xs| && f(xs[i]) == Some(y)
    decreases |xs|
  {
    if |xs| > 0 {
      var init := xs[..|xs| - 1];
      KeepSomeSound(f, init);
      forall y | y in KeepSome(f, xs) ensures exists i :: 0 <= i < |xs| && f(xs[i]) == Some(y) {
        if y in KeepSome(f, init) {
          var i :| 0 <= i < |init| && f(init[i]) == Some(y);
          assert xs[i] == init[i];
        } else {
          assert f(xs[|xs| - 1]) == Some(y);
        }
      }
    }
  }

  lemma {:induction false} KeepSomeComplete<A, B>(f: A -> Option<B>, xs: seq<A>)
    ensures forall i :: 0 <= i < |xs| && f(xs[i]).Some? ==> f(xs[i]).value in KeepSome(f, xs)
    decreases |xs|
  {
    if |xs| > 0 {
      var init := xs[..|xs| - 1];
      KeepSomeComplete(f, init);
      forall i | 0 <= i < |xs| && f(xs[i]).Some? ensures f(xs[i]).value in KeepSome(f, xs) {
        if i < |init| {
          assert xs[i] == init[i];
        }
      }
    }
  }

  lemma {:induction false} KeepSomeAppend<A, B>(f: A -> Option<B>, a: seq<A>, b: seq<A>)
    ensures KeepSome(f, a + b) == KeepSome(f, a) + KeepSome(f, b)
    decreases |b|
  {
    if |b| == 0 {
      assert a + b == a;
    } else {
      var b0 := b[..|b| - 1];
      KeepSomeAppend(f, a, b0);
      assert (a + b)[..|a + b| - 1] == a + b0;
      assert (a + b)[|a + b| - 1] == b[|b| - 1];
    }
  }

  /** The values the line loop passes on: blank and unparseable lines are skipped one by one. */
  function ItemsOf(lib: Environment.Lib, lines: seq<string>): (items: seq<Json>)
    ensures |items| <= |lines|
  {
    KeepSome(line => LineValue(lib, line), lines)
  }

  /**
   * A value is passed on exactly when some line yields it, and reading a
   * file in two parts reads the whole: a line's fate does not depend on
   * its neighbours.
   */
  lemma ItemsOfLines(lib: Environment.Lib, a: seq<string>, b: seq<string>)
    ensures forall x :: x in ItemsOf(lib, a) <==> exists i :: 0 <= i < |a| && LineValue(lib, a[i]) == Some(x)
    ensures ItemsOf(lib, a + b) == ItemsOf(lib, a) + ItemsOf(lib, b)
  {
    var f := line => LineValue(lib, line);
    KeepSomeSound(f, a);
    KeepSomeComplete(f, a);
    KeepSomeAppend(f, a, b);
  }

  /** A member of a non-empty sequence is in its prefix or is its last element. */
  lemma InitOrLast<T>(s: seq<T>, x: T)
    requires x in s
    ensures x in s[..|s| - 1] || x == s[|s| - 1]
  {
    var i :| 0 <= i < |s| && s[i] == x;
    if i < |s| - 1 {
      assert s[..|s| - 1][i] == x;
    }
  }

  // ---------------------------------------------------------------------
  // Per-input decision

  /** What one input leads to: nothing, a failure of the run, or a SAPL url to scrape. */
  datatype Target = Skip | Crash | Scrape(url: string, municipio: Json, uf: Json)

  /** An input `_scrape_one` fails on: not a dict, or a truthy `sapl_url` that is not a string. */
  predicate ToolsFails(item: Json) {
    !item.JObj? || (Truthy(Get(item.fields, "sapl_url")) && !item.fields["sapl_url"].JStr?)
  }

  /**
   * `_scrape_one`: a value that is not a dict fails on `.get`; an absent or
   * falsy `sapl_url` is skipped; a truthy one that is not a string fails
   * inside `base_from_sapl_url`; otherwise that url is scraped, with
   * `municipio`/`uf` passed on as found, `""` when absent.
   */
  function ToolsTarget(item: Json): (t: Target)
    ensures t.Crash? <==> ToolsFails(item)
    ensures !item.JObj? ==> t == Crash
    ensures item.JObj? && !Truthy(Get(item.fields, "sapl_url")) ==> t == Skip
    ensures item.JObj? && Truthy(Get(item.fields, "sapl_url")) ==>
      (t.Scrape? <==> item.fields["sapl_url"].JStr?) && (t.Crash? <==> !item.fields["sapl_url"].JStr?)
    ensures t.Scrape? ==>
      && item.JObj? && "sapl_url" in item.fields && item.fields["sapl_url"] == JStr(t.url) && t.url != []
      && t.municipio == GetOr(item.fields, "municipio", JStr(""))
      && t.uf == GetOr(item.fields, "uf", JStr(""))
  {
    if !item.JObj? then Crash
    else
      var url := Or(Get(item.fields, "sapl_url"), JStr(""));
      if !Truthy(url) then Skip
      else if !url.JStr? then Crash
      else Scrape(url.s, GetOr(item.fields, "municipio", JStr("")), GetOr(item.fields, "uf", JStr("")))
  }

  /** An input `scrape_base` fails on: a truthy `sapl_url` that is not a string. */
  predicate ExpFails(item: Obj) {
    Truthy(Get(item, "sapl_url")) && !item["sapl_url"].JStr?
  }

  /**
   * `scrape_base`: the `sapl_url` (`""` when falsy) is stripped first, so a
   * blank one is skipped; a truthy value that is not a string fails on
   * `.strip`; `municipio`/`uf` fall back to `""` when falsy.
   */
  function ExpTarget(item: Obj): (t: Target)
    ensures t.Crash? <==> ExpFails(item)
    ensures !Truthy(Get(item, "sapl_url")) ==> t == Skip
    ensures Truthy(Get(item, "sapl_url")) && item["sapl_url"].JStr? ==>
      (t == Skip <==> Text.Strip(item["sapl_url"].s) == [])
    ensures t.Scrape? ==>
      && "sapl_url" in item && item["sapl_url"].JStr?
      && t.url == Text.Strip(item["sapl_url"].s) && t.url != []
      && t.municipio == Or(GetOr(item, "municipio", JStr("")), JStr(""))
      && t.uf == Or(GetOr(item, "uf", JStr("")), JStr(""))
  {
    var url := Or(Get(item, "sapl_url"), JStr(""));
    if !url.JStr? then Crash
    else
      var s := Text.Strip(url.s);
      if s == [] then Skip
      else Scrape(s, Or(GetOr(item, "municipio", JStr("")), JStr("")), Or(GetOr(item, "uf", JStr("")), JStr("")))
  }

  /** The collector a run uses: base, municipality and state to the records of that base. */
  type Collector = (string, Json, Json) -> Extraction.Collected

  /** The tools collector, `collect_pls_for_base` with the run's page size and movement flag. */
  function ToolsCollector(api: Pagination.Api, lib: Environment.Lib, pageSize: int, withTram: bool, fuel: nat): Collector {
    (base, municipio, uf) => Extraction.Collect(api, lib, base, municipio, uf, pageSize, withTram, fuel)
  }

  // ---------------------------------------------------------------------
  // Driving the writer

  /** How the scraping loop ended: all inputs done, an input or a base failed, or the page budget ran out. */
  datatype Status = Completed | Failed | Exhausted

  function StatusOf(e: Pagination.End): (s: Status)
    ensures e.Finished? <==> s.Completed?
    ensures e.Raised? <==> s.Failed?
  {
    match e
    case Finished => Completed
    case Raised => Failed
    case OutOfFuel => Exhausted
  }

  /** The records a run of targets yields, and how it ended. */
  datatype Harvest = Harvest(rows: seq<Obj>, status: Status)

  /** A target that neither fails nor meets a failing or unfinished base. */
  predicate Clean(collect: Collector, t: Target) {
    !t.Crash? && (t.Scrape? ==> collect(Extraction.BaseFromSaplUrl(t.url), t.municipio, t.uf).end.Finished?)
  }

  /**
   * The records the targets yield, read front to back: skipped targets
   * yield nothing, a failing target ends the stream, and a scraped base
   * yields its records and ends the stream unless its collection finished.
   */
  function Harvested(collect: Collector, ts: seq<Target>): (h: Harvest)
    decreases |ts|
  {
    if |ts| == 0 then Harvest([], Completed)
    else
      match ts[0]
      case Skip => Harvested(collect, ts[1..])
      case Crash => Harvest([], Failed)
      case Scrape(url, municipio, uf) =>
        var c := collect(Extraction.BaseFromSaplUrl(url), municipio, uf);
        if !c.end.Finished? then Harvest(c.rows, StatusOf(c.end))
        else
          var rest := Harvested(collect, ts[1..]);
          Harvest(c.rows + rest.rows, rest.status)
  }

  /** A stream completes exactly when every target in it is clean. */
  lemma {:induction false} HarvestedCompleted(collect: Collector, ts: seq<Target>)
    ensures Harvested(collect, ts).status.Completed? <==> forall i :: 0 <= i < |ts| ==> Clean(collect, ts[i])
    decreases |ts|
  {
    if |ts| > 0 {
      HarvestedCompleted(collect, ts[1..]);
      assert forall i :: 1 <= i < |ts| ==> ts[1..][i - 1] == ts[i];
      if ts[0].Scrape? {
        var c := collect(Extraction.BaseFromSaplUrl(ts[0].url), ts[0].municipio, ts[0].uf);
        assert !c.end.Finished? ==> !StatusOf(c.end).Completed?;
      }
    }
  }

  /** One more target after a stream: it counts only when the stream completed. */
  function HarvestStep(collect: Collector, h: Harvest, t: Target): Harvest {
    if !h.status.Completed? then h
    else match t
      case Skip => h
      case Crash => Harvest(h.rows, Failed)
      case Scrape(url, municipio, uf) =>
        var c := collect(Extraction.BaseFromSaplUrl(url), municipio, uf);
        Harvest(h.rows + c.rows, StatusOf(c.end))
  }

  /** One more target before a stream. */
  function HarvestCons(collect: Collector, t: Target, h: Harvest): Harvest {
    match t
    case Skip => h
    case Crash => Harvest([], Failed)
    case Scrape(url, municipio, uf) =>
      var c := collect(Extraction.BaseFromSaplUrl(url), municipio, uf);
      if !c.end.Finished? then Harvest(c.rows, StatusOf(c.end)) else Harvest(c.rows + h.rows, h.status)
  }

  /** The stream of a non-empty run is its first target before the stream of the rest. */
  lemma HarvestedCons(collect: Collector, ts: seq<Target>)
    requires |ts| > 0
    ensures Harvested(collect, ts) == HarvestCons(collect, ts[0], Harvested(collect, ts[1..]))
  {
  }

  /** A target before and a target after a stream can be added in either order. */
  lemma HarvestConsStep(collect: Collector, t0: Target, h: Harvest, t: Target)
    ensures HarvestCons(collect, t0, HarvestStep(collect, h, t)) == HarvestStep(collect, HarvestCons(collect, t0, h), t)
  {
    if t0.Scrape? && t.Scrape? {
      var c := collect(Extraction.BaseFromSaplUrl(t0.url), t0.municipio, t0.uf);
      var d := collect(Extraction.BaseFromSaplUrl(t.url), t.municipio, t.uf);
      assert c.rows + (h.rows + d.rows) == (c.rows + h.rows) + d.rows;
    }
  }

  /** Reading the targets front to back agrees with adding them one at a time at the back. */
  lemma {:induction false} HarvestedSnoc(collect: Collector, ts: seq<Target>, t: Target)
    ensures Harvested(collect, ts + [t]) == HarvestStep(collect, Harvested(collect, ts), t)
    decreases |ts|
  {
    if |ts| == 0 {
      assert ts + [t] == [t];
      HarvestedCons(collect, [t]);
      assert [t][1..] == [];
      if t.Scrape? {
        var c := collect(Extraction.BaseFromSaplUrl(t.url), t.municipio, t.uf);
        assert c.rows + [] == c.rows && [] + c.rows == c.rows;
      }
    } else {
      var ts1 := ts[1..];
      assert (ts + [t])[0] == ts[0];
      assert (ts + [t])[1..] == ts1 + [t];
      HarvestedCons(collect, ts + [t]);
      HarvestedCons(collect, ts);
      HarvestedSnoc(collect, ts1, t);
      HarvestConsStep(collect, ts[0], Harvested(collect, ts1), t);
    }
  }

  /** The targets of the tools inputs, one per input. */
  function ToolsTargets(items: seq<Json>): (ts: seq<Target>)
    ensures |ts| == |items| && forall i :: 0 <= i < |items| ==> ts[i] == ToolsTarget(items[i])
  {
    seq(|items|, i requires 0 <= i < |items| => ToolsTarget(items[i]))
  }

  /** The targets of the experimental inputs, one per input. */
  function ExpTargets(items: seq<Obj>): (ts: seq<Target>)
    ensures |ts| == |items| && forall i :: 0 <= i < |items| ==> ts[i] == ExpTarget(items[i])
  {
    seq(|items|, i requires 0 <= i < |items| => ExpTarget(items[i]))
  }

  /** The tools writer after the inputs, with every record collected along the way. */
  datatype ToolsProgress = ToolsProgress(w: ScrapeOutput.PlWriter, collected: seq<Obj>, status: Status)

  /**
   * The tools scraping loop over the inputs, stopping at the first failure:
   * what it collects is the targets' harvest, and each base's records are
   * emitted in the order they are collected.
   */
  function ToolsScrape(collect: Collector, items: seq<Json>, w0: ScrapeOutput.PlWriter): (p: ToolsProgress)
    ensures var h := Harvested(collect, ToolsTargets(items));
      p.collected == h.rows && p.status == h.status
    ensures p.w == ScrapeOutput.EmitAll(w0, p.collected)
    ensures ScrapeOutput.Good(w0) ==> ScrapeOutput.Good(p.w)
    ensures p.w.jsonl.Some? == w0.jsonl.Some?
    decreases |items|
  {
    if |items| == 0 then ToolsProgress(w0, [], Completed)
    else
      assert ToolsTargets(items) == ToolsTargets(items[..|items| - 1]) + [ToolsTarget(items[|items| - 1])];
      HarvestedSnoc(collect, ToolsTargets(items[..|items| - 1]), ToolsTarget(items[|items| - 1]));
      var prev := ToolsScrape(collect, items[..|items| - 1], w0);
      if !prev.status.Completed? then prev
      else match ToolsTarget(items[|items| - 1])
        case Skip => prev
        case Crash => ToolsProgress(prev.w, prev.collected, Failed)
        case Scrape(url, municipio, uf) =>
          var c := collect(Extraction.BaseFromSaplUrl(url), municipio, uf);
          ScrapeOutput.EmitAllAppend(w0, prev.collected, c.rows);
          ToolsProgress(ScrapeOutput.EmitAll(prev.w, c.rows), prev.collected + c.rows, StatusOf(c.end))
  }

  /**
   * A loop completes exactly when no input fails and every base it
   * scrapes finishes its collection.
   */
  lemma ToolsCompletedMeansNoCrash(collect: Collector, items: seq<Json>, w0: ScrapeOutput.PlWriter)
    ensures ToolsScrape(collect, items, w0).status.Completed? <==>
      forall i :: 0 <= i < |items| ==>
        && !ToolsFails(items[i])
        && (ToolsTarget(items[i]).Scrape? ==>
              var t := ToolsTarget(items[i]);
              collect(Extraction.BaseFromSaplUrl(t.url), t.municipio, t.uf).end.Finished?)
  {
    var ts := ToolsTargets(items);
    HarvestedCompleted(collect, ts);
  }

  /** Inputs that are all skipped leave the writer as it was. */
  lemma {:induction false} ToolsSkippedChangeNothing(collect: Collector, items: seq<Json>, w0: ScrapeOutput.PlWriter)
    requires forall i :: 0 <= i < |items| ==> ToolsTarget(items[i]).Skip?
    ensures ToolsScrape(collect, items, w0) == ToolsProgress(w0, [], Completed)
    decreases |items|
  {
    if |items| > 0 {
      var init := items[..|items| - 1];
      assert forall i :: 0 <= i < |init| ==> init[i] == items[i];
      ToolsSkippedChangeNothing(collect, init, w0);
    }
  }

  /**
   * `run_scrape` in `runner.py`: `.json` replaced by `.jsonl` for the
   * progressive file, else `.jsonl` appended.
   */
  function JsonlPath(outJson: string): (p: string)
    ensures Text.EndsWith(p, ".jsonl")
    ensures |p| > |outJson|
    ensures Text.EndsWith(outJson, ".json") ==> p[..|p| - 6] == outJson[..|outJson| - 5]
    ensures !Text.EndsWith(outJson, ".json") ==> p[..|outJson|] == outJson
  {
    if Text.EndsWith(outJson, ".json") then outJson[..|outJson| - 5] + ".jsonl" else outJson + ".jsonl"
  }

  /** The outcome of `run_scrape`. */
  datatype ToolsRun =
    | FileMissing
    | Aborted(w: ScrapeOutput.PlWriter, status: Status)
    | Done(w: ScrapeOutput.PlWriter, json: seq<Obj>, jsonlPath: string)

  /**
   * `run_scrape`: a missing input fails before any writer exists; a failure
   * while scraping leaves the progressive files as far as they got and
   * skips the aggregate JSON; otherwise the aggregate is the writer's rows.
   */
  function RunScrape(api: Pagination.Api, lib: Environment.Lib, input: Input, outJson: string, pageSize: int,
                     withTram: bool, fuel: nat): (r: ToolsRun)
    ensures input.NoFile? <==> r.FileMissing?
    ensures r.Done? ==>
      && r.jsonlPath == JsonlPath(outJson) && r.json == ScrapeOutput.Rows(r.w)
      && ScrapeOutput.Good(r.w) && r.w.jsonl == Some(r.json)
    ensures r.Aborted? ==> ScrapeOutput.Good(r.w) && !r.status.Completed?
    ensures input.File? ==>
      var p := ToolsScrape(ToolsCollector(api, lib, pageSize, withTram, fuel), ItemsOf(lib, input.lines),
                           ScrapeOutput.NewWriter(true));
      && (r.Done? <==> p.status.Completed?)
      && (r.Done? ==> r.w == p.w)
      && (r.Aborted? ==> r.w == p.w && r.status == p.status)
  {
    match input
    case NoFile => FileMissing
    case File(lines) =>
      var p := ToolsScrape(ToolsCollector(api, lib, pageSize, withTram, fuel), ItemsOf(lib, lines),
                           ScrapeOutput.NewWriter(true));
      if p.status.Completed? then Done(p.w, ScrapeOutput.Rows(p.w), JsonlPath(outJson))
      else Aborted(p.w, p.status)
  }

  /**
   * What a completed run persists is the key-dedup of every record
   * collected from every input, in collection order.
   */
  lemma RunScrapePersistsFirstPerKey(api: Pagination.Api, lib: Environment.Lib, lines: seq<string>, outJson: string,
                                     pageSize: int, withTram: bool, fuel: nat)
    ensures var r := RunScrape(api, lib, File(lines), outJson, pageSize, withTram, fuel);
      var p := ToolsScrape(ToolsCollector(api, lib, pageSize, withTram, fuel), ItemsOf(lib, lines),
                           ScrapeOutput.NewWriter(true));
      r.Done? ==> r.json == Dedup.FirstOccurrences(ScrapeOutput.KeyEntries(p.collected))
  {
    var p := ToolsScrape(ToolsCollector(api, lib, pageSize, withTram, fuel), ItemsOf(lib, lines),
                         ScrapeOutput.NewWriter(true));
    ScrapeOutput.FinalizeJsonInArrivalOrder(true, p.collected);
  }

  // ---------------------------------------------------------------------
  // The experimental run

  /** What `load_inputs` produces, or why it fails. */
  datatype Loaded = NotJsonl | NotFound | Items(items: seq<Obj>)

  /**
   * `load_inputs`: the extension is checked first, case-insensitively, then
   * existence; the dict values among the usable lines, in file order.
   */
  function LoadInputs(lib: Environment.Lib, path: string, input: Input): (r: Loaded)
    ensures !Text.EndsWith(Text.Lower(path), ".jsonl") ==> r == NotJsonl
    ensures Text.EndsWith(Text.Lower(path), ".jsonl") && input.NoFile? ==> r == NotFound
    ensures Text.EndsWith(Text.Lower(path), ".jsonl") && input.File? ==> r.Items?
    ensures r.Items? ==> input.File? && forall x :: x in r.items <==> JObj(x) in ItemsOf(lib, input.lines)
    ensures r.Items? ==> r.items == Dicts(ItemsOf(lib, input.lines))
  {
    if !Text.EndsWith(Text.Lower(path), ".jsonl") then NotJsonl
    else match input
      case NoFile => NotFound
      case File(lines) => Items(Dicts(ItemsOf(lib, lines)))
  }

  /** The experimental writer after the inputs, with every record collected along the way. */
  datatype ExpProgress = ExpProgress(w: ExperimentOutput.Writer<string>, collected: seq<Obj>, status: Status)

  /**
   * The experimental scraping loop: `collect` stands for the collector the
   * script imports, with the page size and the movement flag fixed. What
   * it collects is the targets' harvest, written in collection order.
   */
  function ExpScrape(collect: Collector, items: seq<Obj>,
                     w0: ExperimentOutput.Writer<string>): (p: ExpProgress)
    ensures var h := Harvested(collect, ExpTargets(items));
      p.collected == h.rows && p.status == h.status
    ensures p.w == ExperimentOutput.WriteAllById(w0, p.collected)
    ensures Dedup.Consistent(w0) ==> Dedup.Consistent(p.w)
    decreases |items|
  {
    if |items| == 0 then ExpProgress(w0, [], Completed)
    else
      assert ExpTargets(items) == ExpTargets(items[..|items| - 1]) + [ExpTarget(items[|items| - 1])];
      HarvestedSnoc(collect, ExpTargets(items[..|items| - 1]), ExpTarget(items[|items| - 1]));
      var prev := ExpScrape(collect, items[..|items| - 1], w0);
      if !prev.status.Completed? then prev
      else match ExpTarget(items[|items| - 1])
        case Skip => prev
        case Crash => ExpProgress(prev.w, prev.collected, Failed)
        case Scrape(url, municipio, uf) =>
          var c := collect(Extraction.BaseFromSaplUrl(url), municipio, uf);
          ExperimentOutput.WriteAllByIdAppend(w0, prev.collected, c.rows);
          ExpProgress(ExperimentOutput.WriteAllById(prev.w, c.rows), prev.collected + c.rows, StatusOf(c.end))
  }

  /**
   * A loop completes exactly when no input fails and every base it
   * scrapes finishes its collection.
   */
  lemma ExpCompletedMeansNoCrash(collect: Collector, items: seq<Obj>, w0: ExperimentOutput.Writer<string>)
    ensures ExpScrape(collect, items, w0).status.Completed? <==>
      forall i :: 0 <= i < |items| ==>
        && !ExpFails(items[i])
        && (ExpTarget(items[i]).Scrape? ==>
              var t := ExpTarget(items[i]);
              collect(Extraction.BaseFromSaplUrl(t.url), t.municipio, t.uf).end.Finished?)
  {
    var ts := ExpTargets(items);
    HarvestedCompleted(collect, ts);
  }

  /** A command-line parameter `main` rejects. */
  datatype BadParam = Concurrency | PageSize | Timeout

  /** `main`: the first of concurrency, page size and timeout below 1, in that order. */
  function CheckParams(concurrency: int, pageSize: int, timeout: int): (r: Option<BadParam>)
    ensures r.None? <==> concurrency >= 1 && pageSize >= 1 && timeout >= 1
    ensures r == Some(Concurrency) <==> concurrency < 1
    ensures r == Some(PageSize) <==> concurrency >= 1 && pageSize < 1
    ensures r == Some(Timeout) <==> concurrency >= 1 && pageSize >= 1 && timeout < 1
  {
    if concurrency < 1 then Some(Concurrency)
    else if pageSize < 1 then Some(PageSize)
    else if timeout < 1 then Some(Timeout)
    else None
  }

  /** The outcome of the experimental script; the output file exists in every case but the first. */
  datatype ExpRun =
    | Rejected(param: BadParam)
    | InputError(loaded: Loaded, w: ExperimentOutput.Writer<string>)
    | Stopped(w: ExperimentOutput.Writer<string>, status: Status)
    | Finished(w: ExperimentOutput.Writer<string>)

  /**
   * `main` then `run_scraper`: the parameters are checked before anything
   * else, but the output file is opened, and so emptied, before the input
   * is checked, because `load_inputs` is only consumed inside the client.
   */
  function RunExperiment(collect: Collector, lib: Environment.Lib,
                         inPath: string, input: Input, concurrency: int, pageSize: int, timeout: int): (r: ExpRun)
    ensures CheckParams(concurrency, pageSize, timeout).Some? <==> r.Rejected?
    ensures r.InputError? ==> r.w == Dedup.Empty() && !r.loaded.Items?
    ensures CheckParams(concurrency, pageSize, timeout).None? && !Text.EndsWith(Text.Lower(inPath), ".jsonl") ==>
      r == InputError(NotJsonl, Dedup.Empty())
    ensures CheckParams(concurrency, pageSize, timeout).None? && Text.EndsWith(Text.Lower(inPath), ".jsonl") && input.NoFile? ==>
      r == InputError(NotFound, Dedup.Empty())
    ensures r.Stopped? ==> Dedup.Consistent(r.w) && !r.status.Completed?
    ensures r.Finished? ==> Dedup.Consistent(r.w)
    ensures CheckParams(concurrency, pageSize, timeout).None? && LoadInputs(lib, inPath, input).Items? ==>
      var p := ExpScrape(collect, LoadInputs(lib, inPath, input).items, Dedup.Empty());
      && (r.Finished? <==> p.status.Completed?)
      && (r.Finished? ==> r.w == p.w)
      && (r.Stopped? ==> r.w == p.w && r.status == p.status)
  {
    match CheckParams(concurrency, pageSize, timeout)
    case Some(bad) => Rejected(bad)
    case None =>
      var w := Dedup.Empty();
      match LoadInputs(lib, inPath, input)
      case Items(items) =>
        var p := ExpScrape(collect, items, w);
        if p.status.Completed? then Finished(p.w) else Stopped(p.w, p.status)
      case bad => InputError(bad, w)
  }

  /**
   * A finished experimental run has written the first record of each base
   * and matter id among everything collected, and `count` is their number.
   */
  lemma RunExperimentCountsDistinctIds(collect: Collector, lib: Environment.Lib,
                                       inPath: string, lines: seq<string>, concurrency: int, pageSize: int, timeout: int)
    requires CheckParams(concurrency, pageSize, timeout).None? && Text.EndsWith(Text.Lower(inPath), ".jsonl")
    ensures var r := RunExperiment(collect, lib, inPath, File(lines), concurrency, pageSize, timeout);
      var p := ExpScrape(collect, Dicts(ItemsOf(lib, lines)), Dedup.Empty());
      r.Finished? ==>
        r.w.rows == Dedup.FirstOccurrences(ScrapeOutput.KeyEntries(p.collected))
        && r.w.count == |Dedup.KeysOf(ScrapeOutput.KeyEntries(p.collected))|
  {
    var p := ExpScrape(collect, Dicts(ItemsOf(lib, lines)), Dedup.Empty());
    assert LoadInputs(lib, inPath, File(lines)) == Items(Dicts(ItemsOf(lib, lines)));
    var r := RunExperiment(collect, lib, inPath, File(lines), concurrency, pageSize, timeout);
    assert r.Finished? ==> r.w == p.w;
    ExperimentOutput.CountIsDistinctIds(p.collected);
  }
}

=== FILE: text.dfy ===
/**
 * String primitives with Python's semantics: character classes (`str.isspace`,
 * which is also what `\s` matches in a `str` regular expression), lower-casing,
 * stripping, substring search, splitting and integer rendering.
 */
module Text {

  /** Python's `str.isspace()`, which is also the class matched by `\s`. */
  predicate IsSpace(c: char) {
    || c == ' ' || ('\t' <= c <= '\r') || ('\U{1c}' <= c <= '\U{1f}')
    || c == '\U{85}' || c == '\U{a0}' || c == '\U{1680}'
    || ('\U{2000}' <= c <= '\U{200a}')
    || c == '\U{2028}' || c == '\U{2029}' || c == '\U{202f}' || c == '\U{205f}' || c == '\U{3000}'
  }

  /** The line boundaries recognised by Python's `str.splitlines()`. */
  predicate IsLineBreak(c: char) {
    || ('\n' <= c <= '\r') || ('\U{1c}' <= c <= '\U{1e}')
    || c == '\U{85}' || c == '\U{2028}' || c == '\U{2029}'
  }

  predicate IsAsciiLowerAlnum(c: char) {
    ('a' <= c <= 'z') || ('0' <= c <= '9')
  }

  predicate IsAscii(c: char) {
    c as int < 128
  }

  /** Python's `str.lower()` on one character, for ASCII and Latin-1 letters. */
  function LowerChar(c: char): (d: char)
    ensures !('A' <= d <= 'Z')
    ensures IsAscii(c) <==> IsAscii(d)
    ensures 'a' <= c <= 'z' || '0' <= c <= '9' ==> d == c
  {
    if ('A' <= c <= 'Z') || ('\U{c0}' <= c <= '\U{de}' && c != '\U{d7}') then
      (c as int + 32) as char
    else
      c
  }

  function Lower(s: string): (r: string)
    ensures |r| == |s|
    ensures forall i :: 0 <= i < |s| ==> r[i] == LowerChar(s[i])
  {
    seq(|s|, i requires 0 <= i < |s| => LowerChar(s[i]))
  }

  /** ASCII-only case folding, the equivalence used by `re.I` on ASCII letters. */
  function AsciiFold(c: char): char {
    if 'A' <= c <= 'Z' then (c as int + 32) as char else c
  }

  predicate CaseInsensitiveEq(a: string, b: string) {
    |a| == |b| && forall i :: 0 <= i < |a| ==> AsciiFold(a[i]) == AsciiFold(b[i])
  }

  predicate StartsWith(s: string, prefix: string) {
    |prefix| <= |s| && s[..|prefix|] == prefix
  }

  predicate EndsWith(s: string, suffix: string) {
    |suffix| <= |s| && s[|s| - |suffix|..] == suffix
  }

  /** `sub` occurs in `s` starting at index `k`. */
  predicate OccursAt(s: string, sub: string, k: nat) {
    k + |sub| <= |s| && s[k..k + |sub|] == sub
  }

  /** Python's `sub in s`. */
  predicate Contains(s: string, sub: string) {
    exists k: nat :: k <= |s| && OccursAt(s, sub, k)
  }

  /** Python's `s.find(sub, i)`: the least index at or after `i` where `sub` occurs, or -1. */
  function FindFrom(s: string, sub: string, i: nat): (r: int)
    requires i <= |s|
    ensures r == -1 || (i <= r && OccursAt(s, sub, r))
    ensures r >= 0 ==> forall k: nat :: i <= k < r ==> !OccursAt(s, sub, k)
    ensures r == -1 ==> forall k: nat :: i <= k ==> !OccursAt(s, sub, k)
    decreases |s| - i
  {
    if i + |sub| > |s| then -1
    else if s[i..i + |sub|] == sub then i
    else if i == |s| then -1
    else FindFrom(s, sub, i + 1)
  }

  function Find(s: string, sub: string): (r: int)
    ensures r == -1 <==> !Contains(s, sub)
    ensures r >= 0 ==> OccursAt(s, sub, r) && forall k: nat :: k < r ==> !OccursAt(s, sub, k)
  {
    FindFrom(s, sub, 0)
  }

  /** Drops the longest suffix of characters satisfying `p` (Python's `rstrip(chars)`). */
  function TrimEnd(s: string, p: char -> bool): (r: string)
    ensures |r| <= |s| && r == s[..|r|]
    ensures |r| == 0 || !p(r[|r| - 1])
    ensures forall i :: |r| <= i < |s| ==> p(s[i])
  {
    if |s| == 0 || !p(s[|s| - 1]) then s else TrimEnd(s[..|s| - 1], p)
  }

  /** Drops the longest prefix of characters satisfying `p` (Python's `lstrip(chars)`). */
  function TrimStart(s: string, p: char -> bool): (r: string)
    ensures |r| <= |s| && r == s[|s| - |r|..]
    ensures |r| == 0 || !p(r[0])
    ensures forall i :: 0 <= i < |s| - |r| ==> p(s[i])
  {
    if |s| == 0 || !p(s[0]) then s else TrimStart(s[1..], p)
  }

  /** Python's `s.strip()`. */
  function Strip(s: string): (r: string)
    ensures |r| == 0 || (!IsSpace(r[0]) && !IsSpace(r[|r| - 1]))
    ensures (forall i :: 0 <= i < |s| ==> IsSpace(s[i])) <==> r == []
  {
    TrimEnd(TrimStart(s, IsSpace), IsSpace)
  }

  /** Python's `s.rstrip("/")`. */
  function RStripSlash(s: string): (r: string)
    ensures |r| <= |s| && r == s[..|r|]
    ensures |r| == 0 || r[|r| - 1] != '/'
    ensures forall i :: |r| <= i < |s| ==> s[i] == '/'
  {
    TrimEnd(s, c => c == '/')
  }

  /** Keeps the characters satisfying `p`, in order. */
  function Filter(s: string, p: char -> bool): (r: string)
    ensures |r| <= |s|
    ensures forall c :: c in r ==> p(c) && c in s
    ensures forall c :: c in s && p(c) ==> c in r
  {
    if |s| == 0 then [] else Filter(s[..|s| - 1], p) + (if p(s[|s| - 1]) then [s[|s| - 1]] else [])
  }

  /** Filtering keeps everything when every character passes, and nothing when none does. */
  lemma {:induction false} FilterAllOrNone(s: string, p: char -> bool)
    ensures (forall i :: 0 <= i < |s| ==> p(s[i])) ==> Filter(s, p) == s
    ensures (forall i :: 0 <= i < |s| ==> !p(s[i])) ==> Filter(s, p) == []
    decreases |s|
  {
    if |s| > 0 {
      FilterAllOrNone(s[..|s| - 1], p);
      assert s == s[..|s| - 1] + [s[|s| - 1]];
    }
  }

  /** `sep.join(parts)`. */
  function Join(sep: string, parts: seq<string>): string {
    if |parts| == 0 then []
    else if |parts| == 1 then parts[0]
    else Join(sep, parts[..|parts| - 1]) + sep + parts[|parts| - 1]
  }

  /** Python's `s.split(sep)` for a one-character separator. */
  function SplitOn(s: string, sep: char): (r: seq<string>)
    ensures |r| >= 1
    ensures forall i :: 0 <= i < |r| ==> sep !in r[i]
    decreases |s|
  {
    if |s| == 0 then [[]]
    else
      var rest := SplitOn(s[..|s| - 1], sep);
      if s[|s| - 1] == sep then rest + [[]]
      else rest[..|rest| - 1] + [rest[|rest| - 1] + [s[|s| - 1]]]
  }

  lemma {:induction false} SplitOnJoin(s: string, sep: char)
    ensures Join([sep], SplitOn(s, sep)) == s
    decreases |s|
  {
    if |s| > 0 {
      var rest := SplitOn(s[..|s| - 1], sep);
      SplitOnJoin(s[..|s| - 1], sep);
      if s[|s| - 1] != sep && |rest| > 1 {
        var init := rest[..|rest| - 1];
        assert rest[..|rest| - 1][..|init| - 1] == rest[..|rest| - 2];
        JoinSnoc([sep], rest[..|rest| - 1], rest[|rest| - 1] + [s[|s| - 1]]);
        JoinSnoc([sep], rest[..|rest| - 1], rest[|rest| - 1]);
        assert rest == rest[..|rest| - 1] + [rest[|rest| - 1]];
      }
      assert s == s[..|s| - 1] + [s[|s| - 1]];
    }
  }

  lemma JoinSnoc(sep: string, init: seq<string>, last: string)
    requires |init| >= 1
    ensures Join(sep, init + [last]) == Join(sep, init) + sep + last
  {
    assert (init + [last])[..|init|] == init;
  }

  /** Python's `s.splitlines()`, scanning at `i` inside a line that began at `start`. */
  function SplitLinesFrom(s: string, start: nat, i: nat): (r: seq<string>)
    requires start <= i <= |s|
    requires forall j :: start <= j < i ==> !IsLineBreak(s[j])
    ensures forall k, j :: 0 <= k < |r| && 0 <= j < |r[k]| ==> !IsLineBreak(r[k][j])
    decreases |s| - i
  {
    if i == |s| then
      if start < |s| then [s[start..]] else []
    else if IsLineBreak(s[i]) then
      var next := if s[i] == '\r' && i + 1 < |s| && s[i + 1] == '\n' then i + 2 else i + 1;
      [s[start..i]] + SplitLinesFrom(s, next, next)
    else
      SplitLinesFrom(s, start, i + 1)
  }

  function SplitLines(s: string): (r: seq<string>)
    ensures forall k, j :: 0 <= k < |r| && 0 <= j < |r[k]| ==> !IsLineBreak(r[k][j])
  {
    SplitLinesFrom(s, 0, 0)
  }

  function DigitChar(d: nat): (c: char)
    requires d < 10
    ensures '0' <= c <= '9'
  {
    ('0' as int + d) as char
  }

  /** Decimal rendering of a natural number, as Python's `str(n)`. */
  function NatToDecimal(n: nat): (r: string)
    ensures |r| >= 1
    ensures forall i :: 0 <= i < |r| ==> '0' <= r[i] <= '9'
    decreases n
  {
    if n < 10 then [DigitChar(n)] else NatToDecimal(n / 10) + [DigitChar(n % 10)]
  }

  /** Decimal rendering of an integer, as Python's `str(i)`. */
  function IntToDecimal(i: int): string {
    if i < 0 then "-" + NatToDecimal(-i) else NatToDecimal(i)
  }
}

=== FILE: wrappers.dfy ===
/** The optional-value datatype shared by every module of the model. */
module Wrappers {

  /** Python's `None` / a present value. */
  datatype Option<+T> = None | Some(value: T) {

    /** Returns the encapsulated value or a default when absent. */
    function GetOr(default: T): T {
      match this
      case Some(v) => v
      case None => default
    }
  }
}
